=== FILE: README.md ===
# Route matching for elmjs-base, in Dafny

This project models the router of `elmjs-base/lib/router.ts`. The file holds
an inlined copy of the `path-to-regexp` pipeline and a small `Router` class
on top of it:

- `lexer` turns a route pattern such as `/product/:id` or `{/:id.json}+` into
  lexical tokens, or throws a `TypeError` on a malformed pattern.
- `parse` turns those tokens into a route: literal text and keys. Each key
  has a name, prefix, suffix, pattern and modifier.
- `tokensToRegexp` writes the route's regular-expression source. It collects
  the keys that capture, and flags a route without keys as `is_plain`.
- `regexpToFunction` turns the groups a match captured into the `params`
  object.
- `tokensToFunction` renders a route back into a path from parameter values.
- `Router.resolve`, `route` and `locate`:
  - `resolve` puts the global prefix in front of a route.
  - `route` registers a route in the plain list or the parameterised list.
  - `locate` tries the plain routes first, then the others, and returns the
    first match.

One module per stage:

| module | file |
|---|---|
| `Common` (`Option`, `Result`, string helpers) | `common.dfy` |
| `Lexer` | `lexer.dfy` |
| `Escape` (`escapeString`) | `escape.dfy` |
| `Tokens` (the route vocabulary) | `tokens.dfy` |
| `Parser` | `parser.dfy` |
| `Compiler` (`tokensToRegexp`) | `compiler.dfy` |
| `Split` (`String.prototype.split`/`Array.prototype.join`) | `split.dfy` |
| `Matcher` (`regexpToFunction`) | `matcher.dfy` |
| `Builder` (`tokensToFunction`) | `builder.dfy` |
| `Router` | `router.dfy` |

Every thrown `TypeError` is a `Result` error value that says which check
failed and where.

Some things are parameters of the model rather than code in it:

- Running a regular expression. `exec` gives the match groups, and
  `test(pattern, segment)` stands for the path function's per-key
  `RegExp.test`.
- `decodeURIComponent`, given as `decode`.
- Whether a regular-expression source compiles, given as `compiles`. It
  stands for `new RegExp(source, flags)` not throwing `SyntaxError`; a
  custom pattern such as the `*` of `/:id(*)` passes the parser but not the
  engine.
- The separator a repeated capture is split on, given as `asWritten`. Set,
  it is the code's `prefix + suffix`; unset, it is the corrected
  `suffix + prefix` (see Findings). `RegexpToFunction`, `Find`, `Locate`
  and `RouteThenLocate` are proved for both.

Each operation is paired with a reference definition or an inverse, and
lemmas connect the two. Examples:

- `Body` is the source the compiling loop must produce.
- `Rendered` is the path the rendering loop must produce.
- `Unlex` gives the text a token list was lexed from, and `Tokenizes`
  describes the token list token by token.
- `LayoutFrom` gives the elements (literal characters and keys) a token
  list describes; they fix the route `parse` returns.
- Three accounts of a route are kept: `LiteralText`, `NamedIds` and
  `AnonOrdinals`.
- `Unescape` inverts `escapeString`.
- `Join` inverts `split`.

## Model

| member | source | states |
|---|---|---|
| Lexer.Lex | elmjs-base/lib/router.ts:215-318 | It either throws or returns a token list. The list has exactly one `END`, at the end, and every `NAME` and `PATTERN` value is non-empty. The tokens' source texts concatenate back to the pattern. The first token starts at offset 0, and each token has the kind its first character calls for: `*+?` a `MODIFIER`, `\\` an `ESCAPED_CHAR`, `{` `OPEN`, `}` `CLOSE`, `:` `NAME`, `(` `PATTERN`, anything else `CHAR`. Each token starts where the one before it ends; an escape always moves two characters on. The `END` sits at the length of the pattern, or one past it after an empty escape that ends the pattern. |
| Lexer.LexFrom | elmjs-base/lib/router.ts:219-315 | The same, for the scan from offset `i`: the tokens spell `s[i..]`, the first starts at `i`, and an error lies at or after `i`. |
| Lexer.LexFromIs | elmjs-base/lib/router.ts:219-315 | The list `LexFrom` returns is exactly the one `Tokenizes` describes, and no other. `Tokenizes` builds it token by token from `TokenAt`: the kind the first character calls for; a name that runs over all the name characters that follow and has at least one; a custom pattern that runs to the `)` closing it, does not start with `?` and is not empty; an escape of two characters; one character otherwise. At the end comes the `END` at the length, or an empty escape and the `END` one past the length after a final backslash. |
| Lexer.NextTokenIs | elmjs-base/lib/router.ts:220-312 | The token and end offset the lexer produces at a token start are exactly those `TokenAt` describes. |
| Lexer.LexErrorAt | elmjs-base/lib/router.ts:215-318 | When lexing fails, there is a token start `p` that every token before it reaches without error, and the error is exactly the one the token at `p` raises. |
| Lexer.LexFailsAt | elmjs-base/lib/router.ts:215-318 | Conversely, when the tokens up to `p` lex and the token at `p` raises an error, lexing raises exactly that error. |
| Lexer.NextToken | elmjs-base/lib/router.ts:220-312 | One token starts at `i` and spells exactly the text it consumed. Its kind is the one `s[i]` calls for, and the offset moves on by its width. It is never `END`. Only `:` and `(` can fail, and they give exactly what `NameToken` and `PatternToken` give. |
| Lexer.NameToken | elmjs-base/lib/router.ts:242-271 | A colon not followed by a name character is `Missing parameter name` at the colon, and nothing else fails. Otherwise the `NAME` is the whole run of name characters after the colon, and the offset moves to the end of that run. |
| Lexer.NameEnd | elmjs-base/lib/router.ts:246-264 | The name runs over `[0-9A-Za-z_]` characters only, and stops at the first other character or at the end. |
| Lexer.PatternToken | elmjs-base/lib/router.ts:273-310 | A `PATTERN` is the text between the `(` and the `)` that closes it. That text keeps the group open throughout, is balanced, and does not start with `?`. An error is one of those `PatternFailure` lists (see `PatternTokenFails`). |
| Lexer.PatternTokenFails | elmjs-base/lib/router.ts:276-307 | Each error `PatternToken` raises has its cause:<br>- `Pattern cannot start with "?"` at the `?` right after the `(`;<br>- `Missing pattern` at the `(` of `()`;<br>- `Capturing groups are not allowed` at the first nested `(` not followed by `?`;<br>- `Unbalanced pattern` at the opening `(` when the text ends first. |
| Lexer.PatternFailureRaised | elmjs-base/lib/router.ts:276-307 | Conversely, whenever one of those causes holds, `PatternToken` raises exactly that error. |
| Lexer.PatternClosesAt | elmjs-base/lib/router.ts:281-309 | When the `)` that closes the group follows a non-empty pattern, `PatternToken` returns that pattern and the offset just past the `)`. |
| Lexer.ScanPattern | elmjs-base/lib/router.ts:281-307 | The scan returns one of three outcomes (`ScanOutcome`):<br>- the offset just past the `)` that first brings the depth down to zero, with every nested `(` before it followed by `?`;<br>- a capturing group at the first `(` not followed by `?`;<br>- unbalanced at the opening `(`, when the text ends with the group still open.<br>A backslash takes the next character along. |
| Lexer.ScanOutcomeUnique | elmjs-base/lib/router.ts:281-307 | The scan returns the only outcome `ScanOutcome` admits, so those three outcomes are exactly the cases. |
| Lexer.TrailingBackslash | elmjs-base/lib/router.ts:227-230 | A backslash at the very end gives an `ESCAPED_CHAR` at its offset with an undefined (empty) value. The `END` then sits at the length plus one. The list still spells the pattern. |
| Lexer.LexNamesSucceeds | elmjs-base/lib/router.ts:215-318 | A pattern with no `(` in which every `:` is followed by a name character never throws. |
| Lexer.LexWithoutParametersSucceeds | elmjs-base/lib/router.ts:215-318 | A pattern with no `:` and no `(` never throws. |
| Escape.EscapeString | elmjs-base/lib/router.ts:623-625 | No special character stands unescaped in the result. The result is never shorter than the input. A non-empty result never starts with `^`. |
| Escape.EscapeRoundTrip | elmjs-base/lib/router.ts:623-625 | Removing the backslashes gives the input back. |
| Escape.EscapeAppend | elmjs-base/lib/router.ts:623-625 | Escaping distributes over concatenation. |
| Common.NatToString | elmjs-base/lib/router.ts:382 | The decimal form of `n` is non-empty, all digits, and reads back as `n` (`DigitsValue`). |
| Common.NatToStringInjective | elmjs-base/lib/router.ts:382 | Different ordinals have different decimal forms, so two anonymous keys never share a property name. |
| Tokens.PropertyKey | elmjs-base/lib/router.ts:382 | An anonymous key's name `key++` is used as a property name in its decimal form: non-empty digits that read back as the ordinal. |
| Tokens.CapturingKeysMembers | elmjs-base/lib/router.ts:762-763 | A key is among the pushed keys exactly when some token of the route is that key and has a pattern. |
| Tokens.CapturingKeysAppend | elmjs-base/lib/router.ts:751-763 | The keys of two routes joined are the keys of each, in order. |
| Parser.Parse | elmjs-base/lib/router.ts:334-425 | A lexer error passes through unchanged. A route returned has:<br>- no empty text token, and no two adjacent ones;<br>- anonymous keys numbered 0, 1, 2, … in order;<br>- every key well formed;<br>- every literal character of the pattern kept, in order, as text or as a key's prefix or suffix;<br>- every parameter name kept, in order;<br>- its `{` and `}` balanced;<br>- exactly the elements `LayoutFrom` reads off the tokens: every literal character and every key, with its name, prefix, suffix, pattern and modifier, in order.<br>When the pattern lexes, it parses exactly when `ParseFault` finds no construct that throws, and its error is the one `ParseFault` reports. `ParseFault` reads the tokens construct by construct and depends on no option. |
| Parser.ParseIs | elmjs-base/lib/router.ts:334-425 | The route `Parse` returns is the one and only coalesced route whose elements are those `LayoutFrom` reads off the tokens. |
| Parser.LayoutDetermines | elmjs-base/lib/router.ts:334-425 | Two coalesced routes with the same elements are the same route, so the elements fix the route. |
| Parser.ParseLoop | elmjs-base/lib/router.ts:363-422 | The same, for the loop started in any state that satisfies the loop invariant. It is stated against what the state has already emitted, its pending literal and the elements of the remaining tokens. The loop fails exactly when `ParseFault` finds a throwing construct from the current offset on, and with that construct's error. |
| Parser.ParseLoopIs | elmjs-base/lib/router.ts:363-422 | The loop's route is the one coalesced route whose elements continue what the state holds with the elements of the remaining tokens. |
| Parser.Step | elmjs-base/lib/router.ts:363-422 | One iteration consumes at least one token, and ends where `ConstructEnd` says the construct ends. It throws exactly when `Throws` holds: the token starts no key and no literal, and it is a `{` whose group has no `}` or, after an ignored empty escape, any token but `{` and the `End` (a stray `}` or modifier). It then throws `Unexpected … expected CLOSE` at the group's missing `}`, and otherwise `Unexpected … expected END` at that token. |
| Parser.StepAdvances | elmjs-base/lib/router.ts:363-422 | One iteration keeps the loop invariant. It neither loses nor invents a literal character or a parameter name, and it consumes `{` and `}` in pairs. While no `{` lies ahead it adds only prefix-shaped keys. What it emits, its pending literal and the elements of the remaining tokens add up to what they did before (`LayoutKept`), so every key it emits is the one the tokens describe. |
| Parser.StepLayout | elmjs-base/lib/router.ts:363-422 | Each kind of iteration keeps `LayoutKept`: the route so far, the pending literal and the elements of the remaining tokens. |
| Parser.ParamStep | elmjs-base/lib/router.ts:364-389 | A `:name`/`(pattern)` outside braces flushes the pending literal and pushes one key. The `CHAR` before it becomes the key's prefix when `prefixes` contains it, and otherwise joins the flushed literal. The suffix is empty. The modifier is the `MODIFIER` token that follows, if any. The pattern is the `PATTERN` token, or the default one. The name is the `NAME`, or else the next ordinal, which is then advanced. |
| Parser.ParamKey | elmjs-base/lib/router.ts:369-387 | The prefix is the character read before the key exactly when `prefixes` contains it, and empty otherwise. The suffix is empty and the modifier is the one given. A truthy name is kept, and otherwise the key takes the ordinal. A truthy pattern is kept, and otherwise the default pattern is used. |
| Parser.ParamLayout | elmjs-base/lib/router.ts:364-389 | A key outside braces keeps `LayoutKept`: the character before it is the key's prefix or a literal, and the key follows. |
| Parser.ParamAdvances | elmjs-base/lib/router.ts:364-389 | The same for a `:name`/`(pattern)` key outside braces. Its literal text and name are accounted for. |
| Parser.ParamKeyShape | elmjs-base/lib/router.ts:369-387 | A key outside braces has suffix "" and a prefix that is "" or one character of `prefixes`. Its modifier is "", "?", "*" or "+". It has the default pattern when none is given. |
| Parser.TextStep | elmjs-base/lib/router.ts:391-395 | A `CHAR` or non-empty `ESCAPED_CHAR` appends its character to the pending literal and changes nothing else. |
| Parser.TextAdvances | elmjs-base/lib/router.ts:391-395 | The same for a `CHAR` or non-empty `ESCAPED_CHAR`: its character joins the pending literal. |
| Parser.GroupStep | elmjs-base/lib/router.ts:402-419 | A `{` group reads its parts, then throws `Unexpected … expected CLOSE` exactly when the next token is not `}`. Otherwise it pushes one key after the flushed literal. The key's prefix and suffix are the group's, its modifier is the `MODIFIER` after `}`, if any, and it is the key `GroupKey` builds. |
| Parser.GroupKey | elmjs-base/lib/router.ts:412-416 | The prefix, suffix and modifier are the group's. A truthy name is kept. With no name, a pattern gives the next ordinal, and neither gives the name "" and the pattern "". A truthy pattern is kept. A name without a pattern takes the default pattern. |
| Parser.GroupLayout | elmjs-base/lib/router.ts:402-419 | A closed group keeps `LayoutKept`: it stands for exactly its key. |
| Parser.GroupAdvances | elmjs-base/lib/router.ts:402-419 | The same as `StepAdvances` for a `{…}` group that closes: one key is emitted, the group's literal text and name are accounted for, and one `{` and one `}` are consumed. |
| Parser.ClosedGroupKeyShape | elmjs-base/lib/router.ts:402-417 | A group's key is well formed and keeps the group's name. Its prefix is the group's prefix and its suffix the group's suffix. It is numbered with the current ordinal when anonymous. |
| Parser.GroupParts | elmjs-base/lib/router.ts:404-408 | The group reads literal text, an optional `NAME`, an optional `PATTERN` and literal text, in that order. Each optional part is taken exactly when the next token has its kind. Each literal run stops where `consumeText` stops (`StopsAt`). |
| Parser.GroupText | elmjs-base/lib/router.ts:404-407 | A group's prefix and suffix are exactly the literal characters between `{` and its name, and between its pattern and `}`. |
| Parser.ConsumeText | elmjs-base/lib/router.ts:354-361 | It takes only `CHAR` and `ESCAPED_CHAR` tokens, and the text it returns is exactly their characters. It stops at the first token of another kind, or just after an empty escape (`StopsAt`). |
| Parser.ConsumeTextStops | elmjs-base/lib/router.ts:354-361 | Only one offset satisfies `StopsAt`, so that is where `consumeText` stops. |
| Parser.TryConsume | elmjs-base/lib/router.ts:343-345 | The token is taken, and its value returned, exactly when it has the requested kind. |
| Parser.DefaultPattern | elmjs-base/lib/router.ts:337 | The default pattern is never empty, so every named key outside braces captures. |
| Parser.ParseWithoutBracesShaped | elmjs-base/lib/router.ts:368-387 | In a pattern without `{`, every key has suffix "" and a prefix that is "" or one of the prefix characters. |
| Parser.PlainTokensParse | elmjs-base/lib/router.ts:363-422 | Tokens that are only literal characters, names and patterns before the `End` contain no construct that throws. |
| Parser.ParsesWhenLexes | elmjs-base/lib/router.ts:334-425 | A pattern with no brace, modifier or backslash parses exactly when it lexes. |
| Parser.ProductRouteParses | elmjs-base/lib/router.ts:154 | `/product/:productId`, a route of the router's self-test, parses with the default options. |
| Parser.StarPatternParses | elmjs-base/lib/router.ts:363-422 | `/:id(*)` parses with the default options: the parser does not check what a custom pattern holds. |
| Parser.UnclosedGroupFails | elmjs-base/lib/router.ts:347-352 | An unclosed group `{a` throws `Unexpected END at 2, expected CLOSE`. |
| Compiler.TokensToRegexp | elmjs-base/lib/router.ts:732-806 | The source is the `^` anchor when `start`, then each token's source in order, then the ending the options ask for. `is_plain` holds exactly when the route has no key. The pushed keys are exactly the keys with a pattern, in order. The flags are `i` unless `sensitive`. |
| Compiler.CompileSource | elmjs-base/lib/router.ts:751-783 | The compiling loop appends exactly the reference body of the remaining tokens. |
| Compiler.CompilePlain | elmjs-base/lib/router.ts:750-758 | The loop's `is_plain` stays true exactly while every token seen is text. |
| Compiler.CompileKeys | elmjs-base/lib/router.ts:762-763 | The loop pushes exactly the remaining keys that have a pattern, in order. |
| Compiler.KeySource | elmjs-base/lib/router.ts:759-781 | A key's source is a non-empty group that opens with `(`. |
| Compiler.AnchoredIffStart | elmjs-base/lib/router.ts:747 | The source starts with `^` exactly when `start` is set. |
| Compiler.EndAnchored | elmjs-base/lib/router.ts:785-788 | With `end` and an empty `endsWith`, the source ends with `$`. Unless `strict`, the `$` comes right after the optional delimiter class. |
| Compiler.Ending | elmjs-base/lib/router.ts:785-803 | With `end`, the source ends in `$` exactly when `endsWith` is empty, and it starts with the optional delimiter class unless `strict`. Without `end`, the lookahead for a delimiter or `endsWith` is added exactly when the route does not already end on a delimiter. Unless `strict`, it starts with the optional delimiter before `endsWith`. When `strict`, it is empty exactly when the route ends on a delimiter. |
| Compiler.DefaultEndTokens | elmjs-base/lib/router.ts:790-795 | With the default delimiters: a route with no token counts as ending on a delimiter, and a key never does. A text ending in `/` does. An empty text does not, because `undefined` is read before it. |
| Compiler.PlainBodyIsEscapedText | elmjs-base/lib/router.ts:751-756 | The body of a plain route is its text, escaped, so unescaping the body gives the text back. |
| Split.IndexOf | elmjs-base/lib/router.ts:608 | A reported position holds the separator. |
| Split.IndexOfIsFirst | elmjs-base/lib/router.ts:608 | The reported position is the first occurrence, and -1 is reported only when there is none. |
| Split.Chars | elmjs-base/lib/router.ts:608 | Splitting on "" gives one piece per character. |
| Split.SplitOn | elmjs-base/lib/router.ts:608 | Splitting on a non-empty separator gives at least one piece, and no piece contains the separator. |
| Split.NoInfix | elmjs-base/lib/router.ts:608 | A string in which the separator starts at no offset does not contain it. |
| Split.BeforeFirst | elmjs-base/lib/router.ts:608 | The text before the first occurrence of the separator does not contain it. |
| Split.JoinSplit | elmjs-base/lib/router.ts:608 | Joining the pieces with the separator gives the string back. |
| Split.SplitJoin | elmjs-base/lib/router.ts:608 | Splitting values joined by a separator gives the values back, when no value holds the separator's first character. |
| Matcher.RegexpToFunction | elmjs-base/lib/router.ts:588-618 | Without a match the result is `false`. It throws exactly when a defined group has no key. Otherwise:<br>- the path and index are kept;<br>- each defined group's key maps to the group's decoded value, the last such group winning;<br>- undefined groups add nothing;<br>- no property is invented.<br>A repeated capture is split on the code's separator `prefix + suffix` when `asWritten` is set, and on the corrected `suffix + prefix` otherwise. |
| Matcher.DecodeFrom | elmjs-base/lib/router.ts:602-614 | An error names a group after the current one. |
| Matcher.DecodeFails | elmjs-base/lib/router.ts:603-607 | The loop throws exactly when some defined group has no key. It names the first such group, counting from 1. |
| Matcher.DecodeWrites | elmjs-base/lib/router.ts:602-614 | The last defined group written under a property decides that property's value. |
| Matcher.DecodeKeeps | elmjs-base/lib/router.ts:602-614 | A property that no later defined group writes keeps its value. |
| Matcher.DecodeOnlyWrites | elmjs-base/lib/router.ts:602-614 | Every property in the result was already there or was written by a defined group with a key. |
| Matcher.MapDecode | elmjs-base/lib/router.ts:608-610 | Each piece is passed through `decode` with its key, in place. |
| Matcher.SeparatorsAgree | elmjs-base/lib/router.ts:608 | When a key has no prefix or no suffix, the written separator and the corrected one coincide. |
| Matcher.RepeatRoundTrip | elmjs-base/lib/router.ts:607-610 | A repeated key's values, joined the way its regular expression repeats them, decode back to the decoded values. This uses the corrected separator. |
| Matcher.SplitsOnWrongSeparator | elmjs-base/lib/router.ts:608 | As written, `{/:id.json}+` matching `/a.json/b.json` decodes to the single value `a.json/b`. |
| Matcher.CorrectedSplitsValues | elmjs-base/lib/router.ts:608 | With the corrected separator the same capture decodes to `a` and `b`. |
| Builder.TokensToFunction | elmjs-base/lib/router.ts:457-535 | The path function succeeds exactly when no key fails. On success it yields the tokens rendered in order. Otherwise it throws the error of the first key that fails. |
| Builder.BuildFrom | elmjs-base/lib/router.ts:474-533 | The same, for the loop from token `i` with the path built so far. |
| Builder.Segment | elmjs-base/lib/router.ts:482-530 | Four errors are possible:<br>- `NotRepeat`: an array for a key that does not repeat;<br>- `EmptyArray`: an empty array for a required repeated key;<br>- `Missing`: no value for a required key;<br>- `NoMatch`: a string the key's pattern does not accept.<br>A string is rendered as prefix + string + suffix exactly when the pattern accepts it. A missing optional key, or an empty array for `*`, adds nothing. A non-empty rendering starts with the prefix and ends with the suffix. A non-empty array on a repeating key renders as `Items` renders it, item by item, throwing on the first rejected item. |
| Builder.Items | elmjs-base/lib/router.ts:499-511 | An array renders as prefix, the items joined by suffix+prefix, and suffix, exactly when every item is accepted. Otherwise it throws on the first rejected item. |
| Builder.PlainRouteBuilds | elmjs-base/lib/router.ts:474-480 | A route without keys renders its literal text verbatim, whatever the data. |
| Builder.SingleKey | elmjs-base/lib/router.ts:474-533 | A route of one key renders that key's segment or throws its error. |
| Builder.BuildThenDecode | elmjs-base/lib/router.ts:499-509 | A repeated key given values `vs` renders prefix + `vs` joined by suffix+prefix + suffix. Decoding the joined text with the corrected separator gives `vs` back. |
| Builder.BuildThenDecodeOne | elmjs-base/lib/router.ts:514-524 | A key that does not repeat, given an accepted `x`, renders prefix + `x` + suffix. |
| Builder.JsonIdsBuild | elmjs-base/lib/router.ts:499-509 | `{/:id.json}+` with `["a", "b"]` renders `/a.json/b.json`. |
| Router.Init | elmjs-base/lib/router.ts:12 | A new router has no plain and no parameterised routes. |
| Router.Resolve | elmjs-base/lib/router.ts:22-29 | The result starts with the prefix and ends with the route. It is the route itself or prefix + route. A route that already starts with the prefix is left alone. |
| Router.ResolveIdempotent | elmjs-base/lib/router.ts:22-29 | Resolving twice is resolving once. |
| Router.Compile | elmjs-base/lib/router.ts:34-39 | Compiling fails exactly when the route does not parse (`ParseFailed`, with the parser's error) or parses to a regular-expression source that does not compile (`InvalidRegexp`, with that source; the `new RegExp` of elmjs-base/lib/router.ts:805 throwing `SyntaxError`). The entry keeps the route and the meta. It is plain exactly when the route has no key, and its keys are the route's capturing keys. |
| Router.Route | elmjs-base/lib/router.ts:31-48 | Registering throws exactly when the resolved route does not parse or its regular expression does not compile, with `Compile`'s error. Otherwise the entry is appended to the plain list when plain, and to the parameterised list otherwise. |
| Router.RouteKeepsEarlier | elmjs-base/lib/router.ts:41-46 | Registering adds one entry and keeps every earlier one where it was. |
| Router.Find | elmjs-base/lib/router.ts:53-63 | The scan gives nothing exactly when every entry misses. Otherwise the first entry that does not miss decides, by its match or by what its matcher throws. `asWritten` chooses the separator the matchers split repeated captures on. |
| Router.Locate | elmjs-base/lib/router.ts:50-79 | The path is resolved first. The plain routes decide unless every one misses, in which case the parameterised routes decide. A match reports the resolved path. `asWritten` chooses the separator the matchers split repeated captures on. |
| Router.FindPath | elmjs-base/lib/router.ts:56-60 | A located route reports the path it was asked about. |
| Router.FindOne | elmjs-base/lib/router.ts:53-63 | A list of one matching entry locates that entry, with its route and meta. |
| Router.ProductRouteRegisters | elmjs-base/lib/router.ts:154 | With no global prefix, `/product/:productId` parses, and registers on an empty router exactly when its regular expression compiles. |
| Router.StarRouteNeedsRegexp | elmjs-base/lib/router.ts:805 | `/:id(*)` parses, yet registers exactly when its regular expression compiles, and otherwise throws `InvalidRegexp` with its source: parsing alone does not decide registration. |
| Router.RouteSingle | elmjs-base/lib/router.ts:31-48 | Registering on an empty router gives a router holding only the compiled entry, for the resolved route and with the meta, in the plain list when plain and in the parameterised list otherwise. |
| Router.RouteThenLocate | elmjs-base/lib/router.ts:31-79 | On an empty router, a route registered and then looked up by its own path is found when its regular expression matches. The result has that route and its meta. |

## Left out

- The `RouteCtrl` and `Route` classes and the `popstate` handling (`router.ts:83-135`) are not modelled. They drive the browser's history and render views, and they have no logic of their own to state.
- The self-test script (`router.ts:139-184`) is not modelled. It runs the router and prints.
- Regular-expression semantics and flags are not modelled. `exec`, the per-key `test` and whether a source compiles (`compiles`) are parameters, and `TokensToRegexp` builds the source text only.
- `regexpToRegexp` and `arrayToRegexp` (`router.ts:653-685`), and the `RegExp` and array branches of `pathToRegexp` (`router.ts:824-825`), are not modelled. The router only ever passes a string, which goes through `stringToRegexp` (`router.ts:690-696`): `parse`, then `tokensToRegexp`.
- `compile` (`router.ts:445-450`) is not modelled. It only composes `parse` and `tokensToFunction`, which are both modelled.
- `decodeURIComponent` and the `URIError` it throws, and the `encode` options, are not modelled. `decode` is a total parameter, and `encode` is the identity everywhere.
- `Router.route_prefix` and its setter (`router.ts:14-20`) are a static field; the prefix is a parameter of `Resolve`, `Route` and `Locate`.
- `app-main.m.ts` is not part of this model.
- Strings are sequences of characters. JavaScript's UTF-16 code units, surrogate pairs included, are not distinguished.
- Builder.Lookup: data values other than strings, numbers and arrays are treated as absent. A number is taken in its decimal string form, and `null`/`undefined` data is the empty map.
- Builder.Items: array items are strings. The source would also stringify other item types through `encode`.
- Parser.ParseWithoutBracesShaped: the prefix/suffix shape of keys outside braces is proved only for patterns without any `{`, not for the keys outside the braces of a pattern that has some.

## Findings

| source | as written | input that shows it | evidently intended | confidence | as-written member | corrected member |
|---|---|---|---|---|---|---|
| elmjs-base/lib/router.ts:608 | A repeated capture is split on `key.prefix + key.suffix`. The regular expression (`router.ts:768`) and the path function (`router.ts:508`) put `suffix + prefix` between two repetitions. | The pattern `{/:id.json}+` matching `/a.json/b.json` captures `a.json/b`. That capture contains no `/.json`, so the decoded parameter is `["a.json/b"]`. | Split on `key.suffix + key.prefix` (here `.json/`), giving `["a", "b"]`. | not executed | Matcher.SplitsOnWrongSeparator | Matcher.CorrectedSplitsValues |

=== FILE: builder.dfy ===
/**
 `tokensToFunction`: the path function that renders a parsed route back into
 a path from parameter values. `encode` is the identity; whether a segment
 fits its key's pattern is a parameter of the model.
 */
module Builder {
  import opened Common
  import opened Tokens
  import opened Split
  import Matcher

  /** A parameter value: a string (or a number, already in its decimal form), or an array of them. */
  datatype DataValue = Str(value: string) | Arr(items: seq<string>)

  /** `data`, by property name; `null` and `undefined` data behave as the empty map. */
  type Data = map<string, DataValue>

  /**
   `validate`, and `test(pattern, segment)` standing for
   `new RegExp("^(?:" + pattern + ")$", flags).test(segment)`.
   */
  datatype BuildOptions = BuildOptions(validate: bool, test: (string, string) -> bool)

  /** `validate: false`: every segment is accepted. */
  const NoValidation := BuildOptions(false, (pattern: string, segment: string) => true)

  /** The `TypeError`s the path function throws. */
  datatype BuildError =
    | NotRepeat(name: string)                                              // an array for a key that does not repeat
    | EmptyArray(name: string)                                             // an empty array for a `+` key
    | NoMatch(name: string, pattern: string, segment: string, inArray: bool) // a segment its pattern rejects
    | Missing(name: string, repeat: bool)                                  // no usable value for a required key

  /** `data[token.name]`, when it is a string, a number or an array. */
  function Lookup(data: Data, k: Key): Option<DataValue> {
    if PropertyKey(k.name) in data then Some(data[PropertyKey(k.name)]) else None
  }

  /** The segment passes validation. */
  predicate Accepts(k: Key, o: BuildOptions, segment: string) {
    !o.validate || o.test(k.pattern, segment)
  }

  /** The `for (let j = 0; j < value.length; j++)` loop over an array value. */
  function Items(k: Key, items: seq<string>, o: BuildOptions): (r: Result<string, BuildError>)
    ensures r.Ok? <==> forall j :: 0 <= j < |items| ==> Accepts(k, o, items[j])
    ensures r.Ok? && |items| > 0 ==> r.value == k.prefix + Join(items, k.suffix + k.prefix) + k.suffix
    ensures r.Err? ==> (exists j :: 0 <= j < |items| && !Accepts(k, o, items[j]) &&
                                    (forall h :: 0 <= h < j ==> Accepts(k, o, items[h])) &&
                                    r.error == NoMatch(PropertyKey(k.name), k.pattern, items[j], true))
    decreases |items|
  {
    if |items| == 0 then Ok("")
    else if !Accepts(k, o, items[0]) then Err(NoMatch(PropertyKey(k.name), k.pattern, items[0], true))
    else
      match Items(k, items[1..], o)
      case Err(e) =>
        assert forall h :: 1 <= h < |items| ==> items[h] == items[1..][h - 1];
        Err(e)
      case Ok(rest) =>
        assert forall h :: 1 <= h < |items| ==> items[h] == items[1..][h - 1];
        ItemsJoin(k, items[0], items[1..], rest);
        Ok(k.prefix + items[0] + k.suffix + rest)
  }

  /** One more item in front of the rendered rest joins on `suffix + prefix`. */
  lemma {:induction false} ItemsJoin(k: Key, first: string, more: seq<string>, rest: string)
    requires |more| == 0 ==> rest == ""
    requires |more| > 0 ==> rest == k.prefix + Join(more, k.suffix + k.prefix) + k.suffix
    ensures k.prefix + first + k.suffix + rest == k.prefix + Join([first] + more, k.suffix + k.prefix) + k.suffix
  {
    var sep := k.suffix + k.prefix;
    if |more| == 0 {
      assert Join([first] + more, sep) == first;
    } else {
      assert ([first] + more)[1..] == more;
      assert Join([first] + more, sep) == first + sep + Join(more, sep);
    }
  }

  /** What one key adds to the path, or the error it throws. */
  function Segment(k: Key, v: Option<DataValue>, o: BuildOptions): (r: Result<string, BuildError>)
    ensures r.Err? ==> r.error.name == PropertyKey(k.name)
    ensures v.None? ==> (r.Ok? <==> IsOptional(k)) && (r.Ok? ==> r.value == "")
    ensures v.Some? && v.value.Arr? && !IsRepeat(k) ==> r == Err(NotRepeat(PropertyKey(k.name)))
    ensures v == Some(Arr([])) && IsRepeat(k) ==> (r.Ok? <==> IsOptional(k)) && (r.Ok? ==> r.value == "")
    ensures r.Ok? && r.value != "" ==> StartsWith(r.value, k.prefix) && EndsWith(r.value, k.suffix)
    ensures forall x :: v == Some(Str(x)) ==>
              r == (if Accepts(k, o, x) then Ok(k.prefix + x + k.suffix)
                    else Err(NoMatch(PropertyKey(k.name), k.pattern, x, false)))
    ensures forall items :: v == Some(Arr(items)) && IsRepeat(k) && |items| > 0 ==> r == Items(k, items, o)
    ensures v.None? && !IsOptional(k) ==> r == Err(Missing(PropertyKey(k.name), IsRepeat(k)))
    ensures v == Some(Arr([])) && IsRepeat(k) && !IsOptional(k) ==> r == Err(EmptyArray(PropertyKey(k.name)))
  {
    match v
    case Some(Arr(items)) =>
      if !IsRepeat(k) then Err(NotRepeat(PropertyKey(k.name)))
      else if |items| == 0 then
        if IsOptional(k) then Ok("") else Err(EmptyArray(PropertyKey(k.name)))
      else
        Framed(k.prefix, Join(items, k.suffix + k.prefix), k.suffix);
        Items(k, items, o)
    case Some(Str(x)) =>
      if !Accepts(k, o, x) then Err(NoMatch(PropertyKey(k.name), k.pattern, x, false))
      else
        Framed(k.prefix, x, k.suffix);
        Ok(k.prefix + x + k.suffix)
    case None =>
      if IsOptional(k) then Ok("") else Err(Missing(PropertyKey(k.name), IsRepeat(k)))
  }

  lemma {:induction false} Framed(p: string, x: string, q: string)
    ensures StartsWith(p + x + q, p) && EndsWith(p + x + q, q)
  {
    assert (p + x + q)[..|p|] == p;
    assert (p + x + q)[|p + x + q| - |q|..] == q;
  }

  /** What one token adds to the path: literal text verbatim, a key its segment. */
  function Piece(t: Token, data: Data, o: BuildOptions): string {
    match t
    case Text(x) => x
    case Param(k) => match Segment(k, Lookup(data, k), o) case Ok(s) => s case Err(_) => ""
  }

  /** The pieces of the tokens from `i` on, in order: the reference the loop is checked against. */
  function Rendered(ts: seq<Token>, i: nat, data: Data, o: BuildOptions): string
    requires i <= |ts|
    decreases |ts| - i
  {
    if i == |ts| then "" else Piece(ts[i], data, o) + Rendered(ts, i + 1, data, o)
  }

  /** Token `j` is a key whose segment throws. */
  predicate Fails(ts: seq<Token>, j: int, data: Data, o: BuildOptions)
    requires 0 <= j < |ts|
  {
    ts[j].Param? && Segment(ts[j].key, Lookup(data, ts[j].key), o).Err?
  }

  /** The `for (let i = 0; i < tokens.length; i++)` loop from token `i` on, with the path so far. */
  function BuildFrom(ts: seq<Token>, i: nat, path: string, data: Data, o: BuildOptions)
    : (r: Result<string, BuildError>)
    requires i <= |ts|
    ensures r.Ok? <==> forall j :: i <= j < |ts| ==> !Fails(ts, j, data, o)
    ensures r.Ok? ==> r.value == path + Rendered(ts, i, data, o)
    ensures r.Err? ==> (exists j :: i <= j < |ts| && Fails(ts, j, data, o) &&
                                    (forall h :: i <= h < j ==> !Fails(ts, h, data, o)) &&
                                    r.error == Segment(ts[j].key, Lookup(data, ts[j].key), o).error)
    decreases |ts| - i
  {
    if i == |ts| then Ok(path)
    else
      match ts[i]
      case Text(x) =>
        var r := BuildFrom(ts, i + 1, path + x, data, o);
        ConcatAssoc(path, x, Rendered(ts, i + 1, data, o));
        r
      case Param(k) =>
        match Segment(k, Lookup(data, k), o)
        case Err(e) =>
          assert Fails(ts, i, data, o);
          Err(e)
        case Ok(s) =>
          var r := BuildFrom(ts, i + 1, path + s, data, o);
          ConcatAssoc(path, s, Rendered(ts, i + 1, data, o));
          r
  }

  /**
   The path function applied to `data`: the path, rendered token by token,
   or the error of the first key that cannot be rendered.
   */
  function TokensToFunction(ts: seq<Token>, data: Data, o: BuildOptions): (r: Result<string, BuildError>)
    ensures r.Ok? <==> forall j :: 0 <= j < |ts| ==> !Fails(ts, j, data, o)
    ensures r.Ok? ==> r.value == Rendered(ts, 0, data, o)
    ensures r.Err? ==> (exists j :: 0 <= j < |ts| && Fails(ts, j, data, o) &&
                                    (forall h :: 0 <= h < j ==> !Fails(ts, h, data, o)) &&
                                    r.error == Segment(ts[j].key, Lookup(data, ts[j].key), o).error)
  {
    BuildFrom(ts, 0, "", data, o)
  }

  // ----- properties -----

  lemma {:induction false} PlainRendered(ts: seq<Token>, i: nat, data: Data, o: BuildOptions)
    requires i <= |ts| && IsPlain(ts)
    ensures IsPlain(ts[i..]) && Rendered(ts, i, data, o) == Texts(ts[i..])
    decreases |ts| - i
  {
    if i < |ts| {
      PlainRendered(ts, i + 1, data, o);
      assert ts[i..][1..] == ts[i + 1..];
    }
  }

  /** A route without keys renders its own text, whatever the data. */
  lemma {:induction false} PlainRouteBuilds(ts: seq<Token>, data: Data, o: BuildOptions)
    requires IsPlain(ts)
    ensures TokensToFunction(ts, data, o) == Ok(Texts(ts))
  {
    PlainRendered(ts, 0, data, o);
    assert ts[0..] == ts;
  }

  /** A route of one key renders that key's segment, or throws its error. */
  lemma {:induction false} SingleKey(k: Key, data: Data, o: BuildOptions)
    ensures TokensToFunction([Param(k)], data, o) == Segment(k, Lookup(data, k), o)
  {
    var ts := [Param(k)];
    match Segment(k, Lookup(data, k), o)
    case Err(e) =>
    case Ok(x) =>
      assert BuildFrom(ts, 1, "" + x, data, o) == Ok("" + x);
      assert "" + x == x;
  }

  /**
   A repeated key given the values `vs` renders prefix, the values joined by
   `suffix + prefix`, and suffix; decoding the text between that prefix and
   suffix gives the values back, when no value holds the separator's first
   character.
   */
  lemma {:induction false} BuildThenDecode(k: Key, vs: seq<string>, o: BuildOptions)
    requires IsRepeat(k) && |vs| > 0 && forall j :: 0 <= j < |vs| ==> Accepts(k, o, vs[j])
    requires Separable(vs, k.suffix + k.prefix)
    ensures TokensToFunction([Param(k)], map[PropertyKey(k.name) := Arr(vs)], o)
         == Ok(k.prefix + Join(vs, k.suffix + k.prefix) + k.suffix)
    ensures Matcher.DecodeValue(k, Join(vs, k.suffix + k.prefix), Matcher.Identity, false) == Matcher.Many(vs)
  {
    var data := map[PropertyKey(k.name) := Arr(vs)];
    assert Lookup(data, k) == Some(Arr(vs));
    SingleKey(k, data, o);
    Matcher.RepeatRoundTrip(k, vs, Matcher.Identity);
    Matcher.MapIdentity(vs, k);
  }

  lemma {:induction false} JsonIdsItems()
    ensures Items(Matcher.JsonIds, ["a", "b"], NoValidation) == Ok("/a.json/b.json")
  {
    var k := Matcher.JsonIds;
    assert forall j :: 0 <= j < 2 ==> Accepts(k, NoValidation, ["a", "b"][j]);
    Matcher.JsonIdsCapture();
    assert k.suffix + k.prefix == ".json/";
    assert "/" + "a.json/b" + ".json" == "/a.json/b.json";
  }

  /**
   A key that does not repeat, given the string `x`, renders prefix, `x` and
   suffix; decoding `x`, the text its group captures between them, gives `x`.
   */
  lemma {:induction false} BuildThenDecodeOne(k: Key, x: string, o: BuildOptions)
    requires !IsRepeat(k) && Accepts(k, o, x)
    ensures TokensToFunction([Param(k)], map[PropertyKey(k.name) := Str(x)], o) == Ok(k.prefix + x + k.suffix)
  {
    var data := map[PropertyKey(k.name) := Str(x)];
    assert Lookup(data, k) == Some(Str(x));
    SingleKey(k, data, o);
  }

  /** `{/:id.json}+` with "a" and "b" renders "/a.json/b.json". */
  lemma {:induction false} JsonIdsBuild()
    ensures TokensToFunction([Param(Matcher.JsonIds)], map["id" := Arr(["a", "b"])], NoValidation)
         == Ok("/a.json/b.json")
  {
    var k := Matcher.JsonIds;
    var data := map["id" := Arr(["a", "b"])];
    assert Lookup(data, k) == Some(Arr(["a", "b"]));
    SingleKey(k, data, NoValidation);
    JsonIdsItems();
    assert IsRepeat(k);
  }
}

=== FILE: common.dfy ===
/** Shared wrappers and string helpers used by every stage of the route compiler. */
module Common {

  /** An optional value; `None` stands for JavaScript's `undefined`. */
  datatype Option<+T> = None | Some(value: T)

  /** The outcome of an operation that may throw: `Err` carries what was thrown. */
  datatype Result<+T, +E> = Ok(value: T) | Err(error: E)

  /** `s.startsWith(p)` */
  predicate StartsWith(s: string, p: string) {
    |p| <= |s| && s[..|p|] == p
  }

  /** `s.endsWith(p)` */
  predicate EndsWith(s: string, p: string) {
    |p| <= |s| && s[|s| - |p|..] == p
  }

  /** True when `p` occurs somewhere inside `s` (`s.indexOf(p) > -1`). */
  predicate ContainsInfix(s: string, p: string)
    decreases |s|
  {
    StartsWith(s, p) || (|s| > 0 && ContainsInfix(s[1..], p))
  }

  /** The value of a string of decimal digits, read most significant digit first. */
  function DigitsValue(s: string): int
    decreases |s|
  {
    if |s| == 0 then 0 else DigitsValue(s[..|s| - 1]) * 10 + (s[|s| - 1] as int - '0' as int)
  }

  /** The decimal rendering of a natural number, as JavaScript's `String(n)` gives it. */
  function NatToString(n: nat): (r: string)
    ensures |r| > 0
    ensures forall k :: 0 <= k < |r| ==> '0' <= r[k] <= '9'
    ensures DigitsValue(r) == n
    decreases n
  {
    var d := [('0' as int + n % 10) as char];
    if n < 10 then d else
      var r := NatToString(n / 10) + d;
      assert r[..|r| - 1] == NatToString(n / 10);
      r
  }

  /** Different numbers render differently, so anonymous keys never share a property name. */
  lemma {:induction false} NatToStringInjective(a: nat, b: nat)
    requires NatToString(a) == NatToString(b)
    ensures a == b
  {
    assert DigitsValue(NatToString(a)) == DigitsValue(NatToString(b));
  }

  /** Concatenation of a sequence of strings. */
  function Concat(ss: seq<string>): (r: string)
    decreases |ss|
  {
    if |ss| == 0 then "" else ss[0] + Concat(ss[1..])
  }

  lemma {:induction false} ConcatAppend(a: seq<string>, b: seq<string>)
    ensures Concat(a + b) == Concat(a) + Concat(b)
    decreases |a|
  {
    if |a| == 0 {
      assert a + b == b;
    } else {
      assert (a + b)[1..] == a[1..] + b;
      ConcatAppend(a[1..], b);
    }
  }

  lemma {:induction false} ConcatAssoc(a: string, b: string, c: string)
    ensures (a + b) + c == a + (b + c)
  {
  }

  lemma {:induction false} ConcatEmpty(a: string)
    ensures a + "" == a
  {
  }
}

=== FILE: compiler.dfy ===
/**
 `tokensToRegexp`: writes the regular-expression source for a parsed route,
 collects the keys that open a capturing group, and flags routes without any
 key as plain. The source is only built here, never interpreted.
 */
module Compiler {
  import opened Common
  import opened Tokens
  import opened Escape

  /**
   The options after their defaults are applied: `sensitive` and `strict`
   false, `start` and `end` true, `delimiter` "/#?", `endsWith` "".
   `encode` is the identity.
   */
  datatype RegexpOptions = RegexpOptions(sensitive: bool, strict: bool, start: bool, end: bool,
                                         delimiter: string, endsWith: string)

  const DefaultRegexpOptions := RegexpOptions(false, false, true, true, "/#?", "")

  /** A compiled route: the `RegExp`'s source and flags, `is_plain`, and what was pushed to `keys`. */
  datatype Regexp = Regexp(source: string, flags: string, isPlain: bool, keys: seq<Key>)

  /** `flags(options)`: case-insensitive unless `sensitive`. */
  function Flags(o: RegexpOptions): string {
    if o.sensitive then "" else "i"
  }

  function EndsWithRe(o: RegexpOptions): string {
    "[" + EscapeString(o.endsWith) + "]|$"
  }

  function DelimiterRe(o: RegexpOptions): string {
    "[" + EscapeString(o.delimiter) + "]"
  }

  /** The group a key compiles to; only the keys with a pattern capture. */
  function KeySource(k: Key): (r: string)
    ensures |r| > 0 && r[0] == '('
  {
    var prefix, suffix := EscapeString(k.prefix), EscapeString(k.suffix);
    if k.pattern != "" then
      if prefix != "" || suffix != "" then
        if IsRepeat(k) then
          var mod := if k.modifier == "*" then "?" else "";
          "(?:" + prefix + "((?:" + k.pattern + ")(?:" + suffix + prefix + "(?:" + k.pattern + "))*)" + suffix + ")" + mod
        else
          "(?:" + prefix + "(" + k.pattern + ")" + suffix + ")" + k.modifier
      else if IsRepeat(k) then
        "((?:" + k.pattern + ")" + k.modifier + ")"
      else
        "(" + k.pattern + ")" + k.modifier
    else
      "(?:" + prefix + suffix + ")" + k.modifier
  }

  /** What one token adds to the source: escaped literal text, or its key's group. */
  function TokenSource(t: Token): string {
    match t
    case Text(x) => EscapeString(x)
    case Param(k) => KeySource(k)
  }

  /** The sources of all tokens, in order: the reference the compiling loop is checked against. */
  function Body(ts: seq<Token>): string
    decreases |ts|
  {
    if |ts| == 0 then "" else TokenSource(ts[0]) + Body(ts[1..])
  }

  /**
   `delimiterRe.indexOf(endToken[endToken.length - 1]) > -1` for a text end
   token; reading before an empty text gives `undefined`, which `indexOf`
   looks for as the text "undefined".
   */
  predicate LastCharIsDelimiter(x: string, o: RegexpOptions) {
    ContainsInfix(DelimiterRe(o), if x == "" then "undefined" else [x[|x| - 1]])
  }

  /** A route ends on a delimiter when its last token is text ending in one, or when it has no token. */
  predicate IsEndDelimited(ts: seq<Token>, o: RegexpOptions) {
    if |ts| == 0 then true
    else ts[|ts| - 1].Text? && LastCharIsDelimiter(ts[|ts| - 1].text, o)
  }

  /**
   The tail the options add after the tokens. With `end` the route must
   stop at the end of the input (`$`) or before `endsWith`; without it, a
   route that does not already end on a delimiter is made to stop before
   one. Unless `strict`, one trailing delimiter is allowed.
   */
  function Ending(ts: seq<Token>, o: RegexpOptions): (r: string)
    ensures o.end ==> (EndsWith(r, "$") <==> o.endsWith == "")
    ensures o.end && !o.strict ==> StartsWith(r, DelimiterRe(o) + "?")
    ensures !o.end ==> (EndsWith(r, "(?=" + DelimiterRe(o) + "|" + EndsWithRe(o) + ")") <==> !IsEndDelimited(ts, o))
    ensures !o.end && !o.strict ==> StartsWith(r, "(?:" + DelimiterRe(o) + "(?=" + EndsWithRe(o) + "))?")
    ensures !o.end && o.strict ==> (r == "" <==> IsEndDelimited(ts, o))
  {
    if o.end then
      var tail := if o.endsWith == "" then "$" else "(?=" + EndsWithRe(o) + ")";
      var r := (if !o.strict then DelimiterRe(o) + "?" else "") + tail;
      assert r[|r| - 1] == tail[|tail| - 1];
      r
    else
      var head := if !o.strict then "(?:" + DelimiterRe(o) + "(?=" + EndsWithRe(o) + "))?" else "";
      var look := "(?=" + DelimiterRe(o) + "|" + EndsWithRe(o) + ")";
      if IsEndDelimited(ts, o) then
        assert head == "" || head[|head| - 1] == '?';
        head
      else
        var r := head + look;
        assert r[|r| - |look|..] == look;
        r
  }

  /** A string holds only infixes no longer than itself. */
  lemma {:induction false} InfixFits(s: string, p: string)
    requires ContainsInfix(s, p)
    ensures |p| <= |s|
    decreases |s|
  {
    if !StartsWith(s, p) {
      InfixFits(s[1..], p);
    }
  }

  /**
   With the default delimiters: no token at all counts as ending on a
   delimiter, a key never does, a text ending in `/` does, and an empty text
   does not, because the `undefined` read before it is not in `[\/#\?]`.
   */
  lemma {:induction false} DefaultEndTokens(k: Key)
    ensures IsEndDelimited([], DefaultRegexpOptions)
    ensures !IsEndDelimited([Param(k)], DefaultRegexpOptions)
    ensures IsEndDelimited([Text("a/")], DefaultRegexpOptions)
    ensures !IsEndDelimited([Text("")], DefaultRegexpOptions)
  {
    var d := DelimiterRe(DefaultRegexpOptions);
    assert EscapeString("/#?") == "\\/#\\?" by {
      assert EscapeString("?") == "\\?" by { assert "?"[1..] == ""; }
      assert "#?"[1..] == "?";
      assert "/#?"[1..] == "#?";
    }
    assert d == "[\\/#\\?]";
    assert StartsWith(d[2..], "/") && d[1..][1..] == d[2..];
    if ContainsInfix(d, "undefined") {
      InfixFits(d, "undefined");
    }
  }

  /** The body, plain flag and keys of the tokens from `i` on, by index. */
  function BodyFrom(ts: seq<Token>, i: nat): string
    decreases |ts| - i
  {
    if i >= |ts| then "" else TokenSource(ts[i]) + BodyFrom(ts, i + 1)
  }

  predicate PlainFrom(ts: seq<Token>, i: nat) {
    forall j :: i <= j < |ts| ==> ts[j].Text?
  }

  function KeysFrom(ts: seq<Token>, i: nat): seq<Key>
    decreases |ts| - i
  {
    if i >= |ts| then []
    else (if ts[i].Param? && ts[i].key.pattern != "" then [ts[i].key] else []) + KeysFrom(ts, i + 1)
  }

  lemma {:induction false} BodyFromSlice(ts: seq<Token>, i: nat)
    requires i <= |ts|
    ensures BodyFrom(ts, i) == Body(ts[i..])
    decreases |ts| - i
  {
    if i < |ts| {
      BodyFromSlice(ts, i + 1);
      assert ts[i..][1..] == ts[i + 1..];
      assert ts[i..][0] == ts[i];
    }
  }

  lemma {:induction false} KeysFromSlice(ts: seq<Token>, i: nat)
    requires i <= |ts|
    ensures KeysFrom(ts, i) == CapturingKeys(ts[i..])
    decreases |ts| - i
  {
    if i < |ts| {
      KeysFromSlice(ts, i + 1);
      assert ts[i..][1..] == ts[i + 1..];
      assert ts[i..][0] == ts[i];
    }
  }

  lemma {:induction false} PlainFromSlice(ts: seq<Token>, i: nat)
    requires i <= |ts|
    ensures PlainFrom(ts, i) <==> IsPlain(ts[i..])
  {
    assert forall j :: i <= j < |ts| ==> ts[j] == ts[i..][j - i];
  }

  /** What the loop has built so far: the source, `is_plain`, and the keys pushed. */
  datatype Compiled = Compiled(route: string, plain: bool, keys: seq<Key>)

  /** One iteration of the loop: `route +=` the token's source, `is_plain &&=` it being text, keys pushed. */
  function Push(c: Compiled, t: Token): Compiled {
    Compiled(c.route + TokenSource(t), PushPlain(c.plain, t), PushKey(c.keys, t))
  }

  function PushPlain(plain: bool, t: Token): bool {
    match t
    case Text(_) => plain && true
    case Param(_) => plain && false
  }

  function PushKey(keys: seq<Key>, t: Token): seq<Key> {
    match t
    case Text(_) => keys
    case Param(k) => if k.pattern != "" then keys + [k] else keys
  }

  /** The `for (const token of tokens)` loop from token `i` on. */
  function CompileFrom(ts: seq<Token>, i: nat, c: Compiled): Compiled
    requires i <= |ts|
    decreases |ts| - i
  {
    if i == |ts| then c else CompileFrom(ts, i + 1, Push(c, ts[i]))
  }

  /** The loop appends the source of every token, in order. */
  lemma {:induction false} CompileSource(ts: seq<Token>, i: nat, c: Compiled)
    requires i <= |ts|
    ensures CompileFrom(ts, i, c).route == c.route + BodyFrom(ts, i)
    decreases |ts| - i
  {
    if i < |ts| {
      CompileSource(ts, i + 1, Push(c, ts[i]));
      ConcatAssoc(c.route, TokenSource(ts[i]), BodyFrom(ts, i + 1));
    }
  }

  /** The loop leaves `is_plain` set exactly when it was set and no token from `i` on is a key. */
  lemma {:induction false} CompilePlain(ts: seq<Token>, i: nat, c: Compiled)
    requires i <= |ts|
    ensures CompileFrom(ts, i, c).plain <==> c.plain && PlainFrom(ts, i)
    decreases |ts| - i
  {
    if i < |ts| {
      var next := Push(c, ts[i]);
      assert CompileFrom(ts, i, c) == CompileFrom(ts, i + 1, next);
      CompilePlain(ts, i + 1, next);
      assert next.plain <==> c.plain && ts[i].Text? by {
        assert next.plain == PushPlain(c.plain, ts[i]);
      }
    }
  }

  lemma {:induction false} KeysAssoc(a: seq<Key>, b: seq<Key>, c: seq<Key>)
    ensures (a + b) + c == a + (b + c)
  {
  }

  /** The loop pushes the capturing keys, in order. */
  lemma {:induction false} CompileKeys(ts: seq<Token>, i: nat, c: Compiled)
    requires i <= |ts|
    ensures CompileFrom(ts, i, c).keys == c.keys + KeysFrom(ts, i)
    decreases |ts| - i
  {
    if i < |ts| {
      var next := Push(c, ts[i]);
      var pushed := if ts[i].Param? && ts[i].key.pattern != "" then [ts[i].key] else [];
      assert CompileFrom(ts, i, c) == CompileFrom(ts, i + 1, next);
      CompileKeys(ts, i + 1, next);
      assert next.keys == c.keys + pushed;
      assert KeysFrom(ts, i) == pushed + KeysFrom(ts, i + 1);
      KeysAssoc(c.keys, pushed, KeysFrom(ts, i + 1));
    } else {
      assert KeysFrom(ts, i) == [];
      assert c.keys + [] == c.keys;
    }
  }

  /** `tokensToRegexp(tokens, keys, options)` with `keys` starting empty. */
  function TokensToRegexp(ts: seq<Token>, o: RegexpOptions): (re: Regexp)
    ensures re.source == (if o.start then "^" else "") + Body(ts) + Ending(ts, o)
    ensures re.isPlain <==> IsPlain(ts)
    ensures re.keys == CapturingKeys(ts)
    ensures re.flags == Flags(o)
  {
    var c := Compiled(if o.start then "^" else "", true, []);
    var r := CompileFrom(ts, 0, c);
    assert r.route == c.route + Body(ts) && (r.plain <==> IsPlain(ts)) && r.keys == CapturingKeys(ts) by {
      assert ts[0..] == ts;
      BodyFromSlice(ts, 0);
      KeysFromSlice(ts, 0);
      PlainFromSlice(ts, 0);
      CompileSource(ts, 0, c);
      CompilePlain(ts, 0, c);
      CompileKeys(ts, 0, c);
    }
    Regexp(r.route + Ending(ts, o), Flags(o), r.plain, r.keys)
  }

  // ----- properties of the source -----

  /** A string that is empty or does not begin with `^`. */
  predicate NoCaretHead(s: string) {
    |s| == 0 || s[0] != '^'
  }

  lemma {:induction false} NoCaretHeadAppend(a: string, b: string)
    requires NoCaretHead(a) && NoCaretHead(b)
    ensures NoCaretHead(a + b)
  {
    if |a| == 0 {
      assert a + b == b;
    } else {
      assert (a + b)[0] == a[0];
    }
  }

  /** Escaped literal text and key groups never begin with `^`, so neither does the body. */
  lemma {:induction false} BodyNoCaret(ts: seq<Token>)
    ensures NoCaretHead(Body(ts))
    decreases |ts|
  {
    if |ts| > 0 {
      BodyNoCaret(ts[1..]);
      NoCaretHeadAppend(TokenSource(ts[0]), Body(ts[1..]));
    }
  }

  lemma {:induction false} EndingNoCaret(ts: seq<Token>, o: RegexpOptions)
    ensures NoCaretHead(Ending(ts, o))
  {
    var d, ew := DelimiterRe(o), EndsWithRe(o);
    if o.end {
      var a := if !o.strict then d + "?" else "";
      var b := if o.endsWith == "" then "$" else "(?=" + ew + ")";
      assert NoCaretHead(a) by { if !o.strict { assert a[0] == '['; } }
      assert NoCaretHead(b) by { if o.endsWith != "" { assert b[0] == '('; } }
      NoCaretHeadAppend(a, b);
    } else {
      var a := if !o.strict then "(?:" + d + "(?=" + ew + "))?" else "";
      var b := if !IsEndDelimited(ts, o) then "(?=" + d + "|" + ew + ")" else "";
      assert NoCaretHead(a) by { if !o.strict { assert a[0] == '('; } }
      assert NoCaretHead(b) by { if !IsEndDelimited(ts, o) { assert b[0] == '('; } }
      NoCaretHeadAppend(a, b);
    }
  }

  lemma {:induction false} CaretIff(anchor: string, rest: string)
    requires anchor == "^" || anchor == ""
    requires NoCaretHead(rest)
    ensures StartsWith(anchor + rest, "^") <==> anchor == "^"
  {
    var s := anchor + rest;
    if anchor == "" {
      assert s == rest;
      if |s| >= 1 { assert s[..1][0] == rest[0]; }
    } else {
      assert s[..1] == "^";
    }
  }

  /** The source is anchored at the start exactly when `start` is set. */
  lemma {:induction false} AnchoredIffStart(ts: seq<Token>, o: RegexpOptions)
    ensures StartsWith(TokensToRegexp(ts, o).source, "^") <==> o.start
  {
    var anchor := if o.start then "^" else "";
    BodyNoCaret(ts);
    EndingNoCaret(ts, o);
    NoCaretHeadAppend(Body(ts), Ending(ts, o));
    ConcatAssoc(anchor, Body(ts), Ending(ts, o));
    CaretIff(anchor, Body(ts) + Ending(ts, o));
  }

  /**
   With `end` and no `endsWith`, the source ends in `$`, right after the
   optional delimiter class unless `strict`.
   */
  lemma {:induction false} EndAnchored(ts: seq<Token>, o: RegexpOptions)
    requires o.end && o.endsWith == ""
    ensures EndsWith(TokensToRegexp(ts, o).source, "$")
    ensures !o.strict ==> EndsWith(TokensToRegexp(ts, o).source, DelimiterRe(o) + "?$")
  {
    var head := (if o.start then "^" else "") + Body(ts);
    var s := TokensToRegexp(ts, o).source;
    if o.strict {
      assert Ending(ts, o) == "" + "$";
      assert s == head + "$";
    } else {
      var tail := DelimiterRe(o) + "?" + "$";
      assert Ending(ts, o) == tail;
      assert s == head + tail;
      assert s[|s| - |tail|..] == tail;
      assert DelimiterRe(o) + "?$" == tail;
    }
    assert s[|s| - 1..] == "$";
  }

  /**
   The body of a plain route is its text, escaped; so unescaping it gives
   the text back.
   */
  lemma {:induction false} PlainBodyIsEscapedText(ts: seq<Token>)
    requires IsPlain(ts)
    ensures Body(ts) == EscapeString(Texts(ts))
    ensures Unescape(Body(ts)) == Texts(ts)
    decreases |ts|
  {
    if |ts| > 0 {
      PlainBodyIsEscapedText(ts[1..]);
      EscapeAppend(ts[0].text, Texts(ts[1..]));
    }
    EscapeRoundTrip(Texts(ts));
  }
}

=== FILE: escape.dfy ===
/**
 `escapeString`: puts a backslash in front of every character that is special
 in a JavaScript regular expression, so that literal route text matches itself.
 */
module Escape {
  import opened Common

  /** The characters `escapeString` escapes: `.+*?=^!:${}()[]|/\` */
  const Special: set<char> :=
    {'.', '+', '*', '?', '=', '^', '!', ':', '$', '{', '}', '(', ')', '[', ']', '|', '/', '\\'}

  function EscapeChar(c: char): string {
    if c in Special then ['\\', c] else [c]
  }

  /**
   True when `r` is a run of units that are either a non-special character or
   a backslash followed by a special one: no special character stands bare.
   */
  predicate IsEscaped(r: string)
    decreases |r|
  {
    if |r| == 0 then true
    else if r[0] in Special then r[0] == '\\' && |r| >= 2 && r[1] in Special && IsEscaped(r[2..])
    else IsEscaped(r[1..])
  }

  function EscapeString(s: string): (r: string)
    ensures |r| >= |s|
    ensures IsEscaped(r)
    ensures |s| > 0 ==> |r| > 0 && r[0] != '^'
    decreases |s|
  {
    if |s| == 0 then ""
    else
      var head := EscapeChar(s[0]);
      var r := head + EscapeString(s[1..]);
      assert r[|head|..] == EscapeString(s[1..]);
      r
  }

  /** Reads an escaped string back: a backslash makes the next character literal. */
  function Unescape(r: string): string
    decreases |r|
  {
    if |r| == 0 then ""
    else if r[0] == '\\' && |r| >= 2 then [r[1]] + Unescape(r[2..])
    else [r[0]] + Unescape(r[1..])
  }

  lemma {:induction false} EscapeRoundTrip(s: string)
    ensures Unescape(EscapeString(s)) == s
    decreases |s|
  {
    if |s| > 0 {
      EscapeRoundTrip(s[1..]);
      var r := EscapeString(s);
      if s[0] in Special {
        assert r[2..] == EscapeString(s[1..]);
      } else {
        assert r[1..] == EscapeString(s[1..]);
      }
    }
  }

  lemma {:induction false} EscapeStep(s: string)
    requires |s| > 0
    ensures EscapeString(s) == EscapeChar(s[0]) + EscapeString(s[1..])
  {
  }

  lemma {:induction false} EscapeAppend(a: string, b: string)
    ensures EscapeString(a + b) == EscapeString(a) + EscapeString(b)
    decreases |a|
  {
    if |a| > 0 {
      assert (a + b)[0] == a[0];
      assert (a + b)[1..] == a[1..] + b;
      EscapeStep(a + b);
      EscapeStep(a);
      EscapeAppend(a[1..], b);
      ConcatAssoc(EscapeChar(a[0]), EscapeString(a[1..]), EscapeString(b));
    } else {
      assert a + b == b;
    }
  }
}

=== FILE: lexer.dfy ===
/**
 The route-pattern lexer: turns a pattern such as `/product/:id` into lexical
 tokens. It either throws on the first malformed construct or returns a list
 that ends in exactly one `End` token; nothing in between.
 */
module Lexer {
  import opened Common

  datatype LexKind = Open | Close | Pattern | Name | Char | EscapedChar | Modifier | End

  /** `index` is where the token starts in the pattern; `value` its payload. */
  datatype LexToken = LexToken(kind: LexKind, index: nat, value: string)

  /** The `TypeError`s the lexer throws, each with the offset it reports. */
  datatype LexError =
    | MissingName(at: nat)                  // `:` not followed by a name character
    | PatternStartsWithQuestion(at: nat)    // `(?` at the start of a custom pattern
    | CapturingGroup(at: nat)               // a nested `(` not followed by `?`
    | UnbalancedPattern(at: nat)            // `(` whose group never closes
    | MissingPattern(at: nat)               // `()`

  /** `[0-9A-Za-z_]`, the characters allowed in a parameter name. */
  predicate IsNameChar(c: char) {
    ('0' <= c <= '9') || ('A' <= c <= 'Z') || ('a' <= c <= 'z') || c == '_'
  }

  predicate IsModifierChar(c: char) {
    c == '*' || c == '+' || c == '?'
  }

  /** The kind of token a character starts, in the order the lexer tests for them. */
  function KindOf(c: char): LexKind {
    if IsModifierChar(c) then Modifier
    else if c == '\\' then EscapedChar
    else if c == '{' then Open
    else if c == '}' then Close
    else if c == ':' then Name
    else if c == '(' then Pattern
    else Char
  }

  /**
   How far the lexer's offset moves past a token: the length of its source
   text, except that an escape always moves two, even past the end.
   */
  function Width(t: LexToken): nat {
    if t.kind == EscapedChar then 2 else |SourceText(t)|
  }

  /**
   Every token but the final `End` starts inside the pattern, has the kind its
   first character calls for, and the next token starts where it ends.
   */
  predicate Chained(s: string, ts: seq<LexToken>) {
    forall k :: 0 <= k < |ts| - 1 ==>
      && ts[k].index < |s|
      && ts[k].kind == KindOf(s[ts[k].index])
      && ts[k + 1].index == ts[k].index + Width(ts[k])
  }

  /** The pattern text a token was lexed from; `Unlex` concatenates these. */
  function SourceText(t: LexToken): string {
    match t.kind
    case EscapedChar => "\\" + t.value
    case Name => ":" + t.value
    case Pattern => "(" + t.value + ")"
    case End => ""
    case _ => t.value
  }

  function Unlex(ts: seq<LexToken>): string
    decreases |ts|
  {
    if |ts| == 0 then "" else SourceText(ts[0]) + Unlex(ts[1..])
  }

  /** What each kind of token promises about its value. */
  predicate WellFormedToken(t: LexToken) {
    match t.kind
    case Name => |t.value| > 0 && forall k :: 0 <= k < |t.value| ==> IsNameChar(t.value[k])
    case Pattern => |t.value| > 0
    case Modifier => |t.value| == 1 && IsModifierChar(t.value[0])
    case Open => t.value == "{"
    case Close => t.value == "}"
    case Char => |t.value| == 1
    case EscapedChar => |t.value| <= 1
    case End => t.value == ""
  }

  /** A complete lexer output: well-formed tokens closed by exactly one `End`. */
  predicate ValidTokens(ts: seq<LexToken>) {
    && |ts| > 0
    && ts[|ts| - 1].kind == End
    && (forall k :: 0 <= k < |ts| - 1 ==> ts[k].kind != End)
    && (forall k :: 0 <= k < |ts| ==> WellFormedToken(ts[k]))
  }

  /** The pattern text at the error's offset shows the defect the error names. */
  predicate Witnesses(s: string, e: LexError) {
    match e
    case MissingName(at) =>
      at < |s| && s[at] == ':' && (at + 1 == |s| || !IsNameChar(s[at + 1]))
    case PatternStartsWithQuestion(at) =>
      1 <= at < |s| && s[at - 1] == '(' && s[at] == '?'
    case CapturingGroup(at) =>
      at < |s| && s[at] == '(' && (at + 1 == |s| || s[at + 1] != '?')
    case UnbalancedPattern(at) =>
      at < |s| && s[at] == '('
    case MissingPattern(at) =>
      at + 1 < |s| && s[at] == '(' && s[at + 1] == ')'
  }

  /** The end of the run of name characters starting at `j`. */
  function NameEnd(s: string, j: nat): (k: nat)
    requires j <= |s|
    ensures j <= k <= |s|
    ensures forall m :: j <= m < k ==> IsNameChar(s[m])
    ensures k == |s| || !IsNameChar(s[k])
    decreases |s| - j
  {
    if j < |s| && IsNameChar(s[j]) then NameEnd(s, j + 1) else j
  }

  /** The change in depth over `p` read the way a custom pattern is read: a backslash takes the next character along. */
  function Nest(p: string): int
    decreases |p|
  {
    if |p| == 0 then 0
    else if p[0] == '\\' then (if |p| < 2 then 0 else Nest(p[2..]))
    else (if p[0] == '(' then 1 else if p[0] == ')' then -1 else 0) + Nest(p[1..])
  }

  /**
   Reading all of `p` from depth `d` keeps the group open throughout: no `)`
   brings the depth to zero, every `(` is followed by `?`, and no backslash is
   left without its character.
   */
  predicate Inside(p: string, d: int)
    decreases |p|
  {
    if |p| == 0 then true
    else if p[0] == '\\' then |p| >= 2 && Inside(p[2..], d)
    else if p[0] == ')' then d > 1 && Inside(p[1..], d - 1)
    else if p[0] == '(' then |p| >= 2 && p[1] == '?' && Inside(p[1..], d + 1)
    else Inside(p[1..], d)
  }

  /** From offset `j` at depth `d` the scan runs off the end of `s` without closing; a final backslash may dangle. */
  predicate RunsOut(s: string, j: nat, d: int) {
    || j > |s|
    || Inside(s[j..], d)
    || (j < |s| && s[|s| - 1] == '\\' && Inside(s[j..|s| - 1], d))
  }

  /**
   What a scan from `j` at depth `d` may return: the offset just past the `)`
   that first brings the depth to zero; or a capturing group at the first `(`
   without `?`; or, for the group opened at `start`, unbalanced when the end
   comes first.
   */
  predicate ScanOutcome(s: string, start: nat, j: nat, d: int, r: Result<nat, LexError>)
    requires j <= |s| + 1
  {
    if r.Ok? then
      var e := r.value;
      j < e <= |s| && s[e - 1] == ')' && Inside(s[j..e - 1], d) && d + Nest(s[j..e - 1]) == 1
    else if r.error.CapturingGroup? then
      var c := r.error.at;
      j <= c < |s| && s[c] == '(' && !(c + 1 < |s| && s[c + 1] == '?') && Inside(s[j..c], d)
    else
      r.error == UnbalancedPattern(start) && RunsOut(s, j, d)
  }

  /**
   Scans a custom pattern opened at `start`, with `depth` groups still open at
   offset `j`; returns the offset just past the `)` that closes it. That `)`
   is the first point where the depth would reach zero; otherwise the first
   `(` without `?` is a capturing group, and a scan that reaches the end is
   unbalanced.
   */
  function ScanPattern(s: string, start: nat, j: nat, depth: nat): (r: Result<nat, LexError>)
    requires start < |s| && s[start] == '('
    requires start < j <= |s| + 1
    requires depth >= 1
    ensures ScanOutcome(s, start, j, depth, r)
    ensures r.Err? ==> Witnesses(s, r.error) && start <= r.error.at
    decreases |s| + 1 - j
  {
    if j >= |s| then
      assert j == |s| ==> s[j..] == "";
      Err(UnbalancedPattern(start))
    else if s[j] == '\\' then
      var r := ScanPattern(s, start, j + 2, depth);
      ScanLift(s, start, j, 2, depth, depth, r);
      r
    else if s[j] == ')' then
      if depth == 1 then
        assert s[j..j] == "";
        Ok(j + 1)
      else
        var r := ScanPattern(s, start, j + 1, depth - 1);
        ScanLift(s, start, j, 1, depth, depth - 1, r);
        r
    else if s[j] == '(' then
      if j + 1 < |s| && s[j + 1] == '?' then
        var r := ScanPattern(s, start, j + 1, depth + 1);
        ScanLift(s, start, j, 1, depth, depth + 1, r);
        r
      else
        assert s[j..j] == "";
        Err(CapturingGroup(j))
    else
      var r := ScanPattern(s, start, j + 1, depth);
      ScanLift(s, start, j, 1, depth, depth, r);
      r
  }

  /** One scanning step: what holds of the scan from `j + w` at depth `d'` holds of the scan from `j` at depth `d`. */
  lemma {:induction false} ScanLift(s: string, start: nat, j: nat, w: nat, d: int, d': int, r: Result<nat, LexError>)
    requires start < j < |s| && s[start] == '('
    requires w == (if s[j] == '\\' then 2 else 1)
    requires s[j] == '(' ==> j + 1 < |s| && s[j + 1] == '?'
    requires d' == d + (if s[j] == '\\' then 0 else if s[j] == '(' then 1 else if s[j] == ')' then -1 else 0)
    requires s[j] == ')' ==> d > 1
    requires ScanOutcome(s, start, j + w, d', r)
    ensures ScanOutcome(s, start, j, d, r)
  {
    if r.Ok? {
      var p := s[j..r.value - 1];
      assert |p| >= w && p[0] == s[j] && p[w..] == s[j + w..r.value - 1];
      if w == 1 && s[j] == '(' {
        assert p[1] == '?';
      }
    } else if r.error.CapturingGroup? {
      var c := r.error.at;
      assert j + w <= c < |s|;
      var p := s[j..c];
      assert |p| >= w && p[0] == s[j];
      assert p[w..] == s[j + w..c];
      if w == 1 && s[j] == '(' {
        assert p[1] == '?';
      }
    } else if j + w > |s| {
      assert s[j..|s| - 1] == "";
    } else if Inside(s[j + w..], d') {
      var p := s[j..];
      assert |p| >= w && p[0] == s[j] && p[w..] == s[j + w..];
    } else {
      var p := s[j..|s| - 1];
      assert |p| >= w && p[0] == s[j] && p[w..] == s[j + w..|s| - 1];
      if w == 1 && s[j] == '(' {
        assert p[1] == '?';
      }
    }
  }

  /** ... and back: what holds of the scan from `j` holds of the scan from `j + w`. */
  lemma {:induction false} ScanDrop(s: string, start: nat, j: nat, w: nat, d: int, d': int, r: Result<nat, LexError>)
    requires start < j < |s| && s[start] == '('
    requires w == (if s[j] == '\\' then 2 else 1)
    requires s[j] == '(' ==> j + 1 < |s| && s[j + 1] == '?'
    requires d' == d + (if s[j] == '\\' then 0 else if s[j] == '(' then 1 else if s[j] == ')' then -1 else 0)
    requires s[j] == ')' ==> d > 1
    requires ScanOutcome(s, start, j, d, r)
    ensures ScanOutcome(s, start, j + w, d', r)
  {
    if r.Ok? {
      var p := s[j..r.value - 1];
      assert |p| >= w && p[0] == s[j] && p[w..] == s[j + w..r.value - 1];
    } else if r.error.CapturingGroup? {
      var p := s[j..r.error.at];
      assert |p| >= w && p[0] == s[j] && p[w..] == s[j + w..r.error.at];
    } else if j + w > |s| {
    } else if Inside(s[j..], d) {
      var p := s[j..];
      assert p[w..] == s[j + w..];
    } else {
      var p := s[j..|s| - 1];
      assert |p| >= w && p[0] == s[j] && p[w..] == s[j + w..|s| - 1];
    }
  }

  /** `ScanOutcome` allows one result only, so it pins down what `ScanPattern` returns. */
  lemma {:induction false} ScanOutcomeUnique(s: string, start: nat, j: nat, d: nat, r: Result<nat, LexError>)
    requires start < |s| && s[start] == '(' && start < j <= |s| + 1 && d >= 1
    requires ScanOutcome(s, start, j, d, r)
    ensures ScanPattern(s, start, j, d) == r
    decreases |s| + 1 - j, 1
  {
    if j >= |s| {
    } else if s[j] == ')' && d == 1 {
      ClosingParen(s, start, j, d, r);
    } else if s[j] == '(' && !(j + 1 < |s| && s[j + 1] == '?') {
      BadParen(s, start, j, d, r);
    } else {
      ScanContinues(s, start, j, d, r);
    }
  }

  /** A step that neither closes nor fails leaves the same outcome for the scan after it. */
  lemma {:induction false} ScanContinues(s: string, start: nat, j: nat, d: nat, r: Result<nat, LexError>)
    requires start < |s| && s[start] == '(' && start < j < |s| && d >= 1
    requires s[j] == ')' ==> d > 1
    requires s[j] == '(' ==> j + 1 < |s| && s[j + 1] == '?'
    requires ScanOutcome(s, start, j, d, r)
    ensures ScanPattern(s, start, j, d) == r
    decreases |s| + 1 - j, 0
  {
    var w := if s[j] == '\\' then 2 else 1;
    var d' := d + (if s[j] == '\\' then 0 else if s[j] == '(' then 1 else if s[j] == ')' then -1 else 0);
    assert ScanOutcome(s, start, j + w, d', r) by {
      ScanDrop(s, start, j, w, d, d', r);
    }
    ScanOutcomeUnique(s, start, j + w, d', r);
    ScanStep(s, start, j, d, w, d');
  }

  /** The scan from `j` continues as the scan from `j + w`. */
  lemma {:induction false} ScanStep(s: string, start: nat, j: nat, d: nat, w: nat, d': nat)
    requires start < |s| && s[start] == '(' && start < j < |s| && d >= 1
    requires s[j] == ')' ==> d > 1
    requires s[j] == '(' ==> j + 1 < |s| && s[j + 1] == '?'
    requires w == (if s[j] == '\\' then 2 else 1)
    requires d' == d + (if s[j] == '\\' then 0 else if s[j] == '(' then 1 else if s[j] == ')' then -1 else 0)
    ensures ScanPattern(s, start, j, d) == ScanPattern(s, start, j + w, d')
  {
  }

  /** At depth one a `)` ends the scan there. */
  lemma {:induction false} ClosingParen(s: string, start: nat, j: nat, d: int, r: Result<nat, LexError>)
    requires j < |s| && s[j] == ')' && d == 1 && ScanOutcome(s, start, j, d, r)
    ensures r == Ok(j + 1)
  {
  }

  /** A `(` not followed by `?` is the capturing group the scan reports. */
  lemma {:induction false} BadParen(s: string, start: nat, j: nat, d: int, r: Result<nat, LexError>)
    requires j < |s| && s[j] == '(' && !(j + 1 < |s| && s[j + 1] == '?')
    requires ScanOutcome(s, start, j, d, r)
    ensures r == Err(CapturingGroup(j))
  {
  }

  /** Puts `t` in front of the tokens lexed after it; an error passes through. */
  function Prepend(t: LexToken, r: Result<seq<LexToken>, LexError>): (r': Result<seq<LexToken>, LexError>)
    requires WellFormedToken(t) && t.kind != End
    ensures r.Err? ==> r' == r
    ensures r.Ok? && ValidTokens(r.value) ==>
      r'.Ok? && ValidTokens(r'.value) && Unlex(r'.value) == SourceText(t) + Unlex(r.value)
    ensures r.Ok? ==> r' == Ok([t] + r.value)
  {
    match r
    case Ok(ts) =>
      assert ([t] + ts)[1..] == ts;
      Ok([t] + ts)
    case Err(e) => Err(e)
  }

  /** `:name`: the longest run of name characters after the colon, which must not be empty. */
  function NameToken(s: string, i: nat): (r: Result<(LexToken, nat), LexError>)
    requires i < |s| && s[i] == ':'
    ensures r.Ok? ==>
      var (t, j) := r.value;
      && i < j <= |s| && WellFormedToken(t) && t.kind == Name && t.index == i
      && SourceText(t) == s[i..j]
    ensures r.Ok? ==> r.value.1 == NameEnd(s, i + 1) && r.value.0.value == s[i + 1..r.value.1]
    ensures r.Err? <==> !(i + 1 < |s| && IsNameChar(s[i + 1]))
    ensures r.Err? ==> r.error == MissingName(i)
    ensures r.Err? ==> Witnesses(s, r.error) && i <= r.error.at
  {
    var j := NameEnd(s, i + 1);
    if j == i + 1 then Err(MissingName(i))
    else
      assert s[i..j] == [':'] + s[i + 1..j];
      Ok((LexToken(Name, i, s[i + 1..j]), j))
  }

  /**
   The errors a custom pattern opened at offset `i` raises, each under the
   condition that raises it: `(?` at once; `()`; the first `(` inside that is
   not followed by `?`; or no `)` to close it.
   */
  predicate PatternFailure(s: string, i: nat, e: LexError)
    requires i < |s|
  {
    var q := i + 1 < |s| && s[i + 1] == '?';
    match e
    case PatternStartsWithQuestion(at) => at == i + 1 && q
    case MissingPattern(at) => at == i && i + 1 < |s| && s[i + 1] == ')'
    case CapturingGroup(_) => !q && ScanOutcome(s, i, i + 1, 1, Err(e))
    case UnbalancedPattern(_) => !q && ScanOutcome(s, i, i + 1, 1, Err(e))
    case MissingName(_) => false
  }

  /**
   `(pattern)`: the text up to the `)` that closes the group, read as
   `Inside` reads it, and not empty; otherwise one of the `PatternFailure`s
   (`PatternTokenFails`).
   */
  function PatternToken(s: string, i: nat): (r: Result<(LexToken, nat), LexError>)
    requires i < |s| && s[i] == '('
    ensures r.Ok? ==>
      var (t, j) := r.value;
      && i < j <= |s| && WellFormedToken(t) && t.kind == Pattern && t.index == i
      && SourceText(t) == s[i..j]
    ensures r.Ok? ==> var v := r.value.0.value;
      v == s[i + 1..r.value.1 - 1] && Inside(v, 1) && Nest(v) == 0 && !(s[i + 1] == '?')
    ensures r.Err? ==> Witnesses(s, r.error) && i <= r.error.at
  {
    if i + 1 < |s| && s[i + 1] == '?' then Err(PatternStartsWithQuestion(i + 1))
    else
      var sc := ScanPattern(s, i, i + 1, 1);
      if sc.Err? then Err(sc.error)
      else if sc.value == i + 2 then Err(MissingPattern(i))
      else
        var j := sc.value;
        Bracketed(s, i, j);
        Ok((LexToken(Pattern, i, s[i + 1..j - 1]), j))
  }

  lemma {:induction false} Bracketed(s: string, i: nat, j: nat)
    requires i + 2 <= j <= |s| && s[i] == '(' && s[j - 1] == ')'
    ensures s[i..j] == "(" + s[i + 1..j - 1] + ")"
  {
  }

  /** The error `PatternToken` raises is a `PatternFailure` ... */
  lemma {:induction false} PatternTokenFails(s: string, i: nat)
    requires i < |s| && s[i] == '(' && PatternToken(s, i).Err?
    ensures PatternFailure(s, i, PatternToken(s, i).error)
  {
    if !(i + 1 < |s| && s[i + 1] == '?') {
      var sc := ScanPattern(s, i, i + 1, 1);
      if sc.Ok? {
        assert sc.value == i + 2;
      }
    }
  }

  /** ... and each `PatternFailure` is the error `PatternToken` raises. */
  lemma {:induction false} PatternFailureRaised(s: string, i: nat, e: LexError)
    requires i < |s| && s[i] == '(' && PatternFailure(s, i, e)
    ensures PatternToken(s, i) == Err(e)
  {
    if e.CapturingGroup? || e.UnbalancedPattern? {
      ScanOutcomeUnique(s, i, i + 1, 1, Err(e));
    } else if e.MissingPattern? {
      assert s[i + 1..i + 1] == "";
      ScanOutcomeUnique(s, i, i + 1, 1, Ok(i + 2));
    }
  }

  /** A `)` that closes the group after a non-empty pattern gives that pattern. */
  lemma {:induction false} PatternClosesAt(s: string, i: nat, e: nat)
    requires i < |s| && s[i] == '(' && !(i + 1 < |s| && s[i + 1] == '?')
    requires ScanOutcome(s, i, i + 1, 1, Ok(e)) && e != i + 2
    ensures PatternToken(s, i) == Ok((LexToken(Pattern, i, s[i + 1..e - 1]), e))
  {
    ScanOutcomeUnique(s, i, i + 1, 1, Ok(e));
  }

  /**
   Lexes the one token that starts at offset `i` (all but a trailing
   backslash) and returns it with the offset just past it. Its kind is the
   one its first character calls for; only `:` and `(` can fail.
   */
  function NextToken(s: string, i: nat): (r: Result<(LexToken, nat), LexError>)
    requires i < |s|
    requires !(s[i] == '\\' && i + 1 == |s|)
    ensures r.Ok? ==>
      var (t, j) := r.value;
      && i < j <= |s| && WellFormedToken(t) && t.kind != End && t.index == i
      && SourceText(t) == s[i..j]
    ensures r.Ok? ==> r.value.0.kind == KindOf(s[i]) && r.value.1 == i + Width(r.value.0)
    ensures s[i] != ':' && s[i] != '(' ==> r.Ok? && |r.value.0.value| == 1
    ensures s[i] == ':' ==> r == NameToken(s, i)
    ensures s[i] == '(' ==> r == PatternToken(s, i)
    ensures r.Err? ==> Witnesses(s, r.error) && i <= r.error.at
  {
    var c := s[i];
    if IsModifierChar(c) then Ok((LexToken(Modifier, i, [c]), i + 1))
    else if c == '\\' then Ok((LexToken(EscapedChar, i, [s[i + 1]]), i + 2))
    else if c == '{' then Ok((LexToken(Open, i, "{"), i + 1))
    else if c == '}' then Ok((LexToken(Close, i, "}"), i + 1))
    else if c == ':' then NameToken(s, i)
    else if c == '(' then PatternToken(s, i)
    else Ok((LexToken(Char, i, [c]), i + 1))
  }

  /**
   Where the token list's `End` sits: at the length of the pattern, or one
   past it when the pattern ends in a lone backslash, whose escape is empty.
   */
  predicate EndsRight(s: string, ts: seq<LexToken>)
    requires |ts| > 0
  {
    var e := ts[|ts| - 1].index;
    || e == |s|
    || (e == |s| + 1 && |s| > 0 && |ts| >= 2 && ts[|ts| - 2] == LexToken(EscapedChar, |s| - 1, ""))
  }

  /** Lexes `s` from offset `i` on. */
  function LexFrom(s: string, i: nat): (r: Result<seq<LexToken>, LexError>)
    requires i <= |s|
    ensures r.Ok? ==> ValidTokens(r.value) && Unlex(r.value) == s[i..]
    ensures r.Ok? ==> r.value[0].index == i && Chained(s, r.value) && EndsRight(s, r.value)
    ensures r.Err? ==> Witnesses(s, r.error) && i <= r.error.at
    decreases |s| - i
  {
    if i == |s| then Ok([LexToken(End, i, "")])
    else if s[i] == '\\' && i + 1 == |s| then Ok(TrailingBackslash(s, i))
    else
      match NextToken(s, i)
      case Err(e) => Err(e)
      case Ok((t, j)) =>
        var rest := LexFrom(s, j);
        SliceSplit(s, i, j);
        if rest.Ok? then
          ChainCons(s, t, rest.value);
          Prepend(t, rest)
        else Prepend(t, rest)
  }

  /** A token that starts where it should and ends where the rest begins extends the chain. */
  lemma {:induction false} ChainCons(s: string, t: LexToken, ts: seq<LexToken>)
    requires |ts| > 0 && Chained(s, ts) && EndsRight(s, ts)
    requires t.index < |s| && t.kind == KindOf(s[t.index]) && ts[0].index == t.index + Width(t)
    ensures Chained(s, [t] + ts) && EndsRight(s, [t] + ts)
  {
    var u := [t] + ts;
    assert forall k :: 1 <= k < |u| ==> u[k] == ts[k - 1];
    assert u[|u| - 1] == ts[|ts| - 1];
  }

  /**
   A backslash that ends the pattern: `str[i++]` reads past the end, so the
   escaped value is undefined (modelled as empty) and the final index is one
   past the length.
   */
  function TrailingBackslash(s: string, i: nat): (ts: seq<LexToken>)
    requires i + 1 == |s| && s[i] == '\\'
    ensures ValidTokens(ts) && Unlex(ts) == s[i..]
    ensures |ts| == 2 && ts[0].kind == EscapedChar && ts[0].index == i && ts[0].value == ""
    ensures ts[1].index == |s| + 1
    ensures Chained(s, ts) && EndsRight(s, ts)
  {
    var ts := [LexToken(EscapedChar, i, ""), LexToken(End, i + 2, "")];
    assert Unlex(ts[1..]) == "";
    assert s[i..] == "\\";
    ts
  }

  lemma {:induction false} SliceSplit(s: string, i: nat, j: nat)
    requires i <= j <= |s|
    ensures s[i..] == s[i..j] + s[j..]
  {
  }

  /** `lexer(str)` */
  function Lex(s: string): (r: Result<seq<LexToken>, LexError>)
    ensures r.Ok? ==> ValidTokens(r.value) && Unlex(r.value) == s
    ensures r.Ok? ==> r.value[0].index == 0 && Chained(s, r.value) && EndsRight(s, r.value)
    ensures r.Err? ==> Witnesses(s, r.error)
  {
    LexFrom(s, 0)
  }

  /**
   The token starting at offset `i` and ending where the next one starts, at
   `j`, described without running the lexer: it has the kind its first
   character calls for and spells `s[i..j]`; a name runs as far as name
   characters go and has at least one, a custom pattern runs to the `)` that
   closes it and neither starts with `?` nor is empty, an escape takes two
   characters and anything else one.
   */
  predicate TokenAt(s: string, i: nat, t: LexToken, j: nat) {
    && i < j <= |s| && t.index == i && t.kind == KindOf(s[i]) && SourceText(t) == s[i..j]
    && (if t.kind == Name then j == NameEnd(s, i + 1) && i + 1 < j
        else if t.kind == Pattern then
          !(i + 1 < |s| && s[i + 1] == '?') && ScanOutcome(s, i, i + 1, 1, Ok(j)) && j != i + 2
        else if t.kind == EscapedChar then j == i + 2
        else j == i + 1)
  }

  /** `NextToken` returns exactly the token `TokenAt` describes. */
  lemma {:induction false} NextTokenIs(s: string, i: nat, t: LexToken, j: nat)
    requires i < |s| && !(s[i] == '\\' && i + 1 == |s|)
    ensures NextToken(s, i) == Ok((t, j)) <==> TokenAt(s, i, t, j)
  {
    if NextToken(s, i) == Ok((t, j)) {
      NextTokenDescribed(s, i);
    }
    if TokenAt(s, i, t, j) {
      TokenAtLexed(s, i, t, j);
    }
  }

  lemma {:induction false} NextTokenDescribed(s: string, i: nat)
    requires i < |s| && !(s[i] == '\\' && i + 1 == |s|) && NextToken(s, i).Ok?
    ensures TokenAt(s, i, NextToken(s, i).value.0, NextToken(s, i).value.1)
  {
    var (t, j) := NextToken(s, i).value;
    if t.kind == Pattern {
      assert s[i..j] == "(" + t.value + ")";
      assert s[j - 1] == s[i..j][j - 1 - i];
    }
  }

  lemma {:induction false} TokenAtLexed(s: string, i: nat, t: LexToken, j: nat)
    requires i < |s| && TokenAt(s, i, t, j)
    ensures NextToken(s, i) == Ok((t, j))
  {
    var c := s[i];
    if c == ':' {
      NameAtLexed(s, i, t, j);
    } else if c == '(' {
      PatternAtLexed(s, i, t, j);
    } else if c == '\\' {
      assert s[i..j] == "\\" + [s[i + 1]];
      assert t == LexToken(EscapedChar, i, [s[i + 1]]);
    } else {
      assert s[i..j] == [c];
      assert t == LexToken(KindOf(c), i, [c]);
    }
  }

  lemma {:induction false} NameAtLexed(s: string, i: nat, t: LexToken, j: nat)
    requires i < |s| && s[i] == ':' && TokenAt(s, i, t, j)
    ensures NameToken(s, i) == Ok((t, j))
  {
    assert IsNameChar(s[i + 1]);
    assert s[i..j] == ":" + s[i + 1..j];
    assert SourceText(t) == ":" + t.value;
    assert t == LexToken(Name, i, s[i + 1..j]);
  }

  lemma {:induction false} PatternAtLexed(s: string, i: nat, t: LexToken, j: nat)
    requires i < |s| && s[i] == '(' && TokenAt(s, i, t, j)
    ensures PatternToken(s, i) == Ok((t, j))
  {
    PatternClosesAt(s, i, j);
    Bracketed(s, i, j);
    assert SourceText(t) == "(" + t.value + ")";
    assert t.value == s[i..j][1..j - i - 1];
    assert t == LexToken(Pattern, i, s[i + 1..j - 1]);
  }

  /**
   `ts` is the lexing of `s` from offset `i`, described token by token: the
   `End` at the length; an empty escape and an `End` one past the length
   after a final backslash; or otherwise the `TokenAt` offset `i` followed by
   the lexing from where it ends.
   */
  predicate Tokenizes(s: string, i: nat, ts: seq<LexToken>)
    decreases |ts|
  {
    if i >= |s| then ts == [LexToken(End, i, "")]
    else if s[i] == '\\' && i + 1 == |s| then ts == [LexToken(EscapedChar, i, ""), LexToken(End, i + 2, "")]
    else |ts| >= 2 && TokenAt(s, i, ts[0], ts[1].index) && Tokenizes(s, ts[1].index, ts[1..])
  }

  /** `LexFrom` succeeds with exactly the token list `Tokenizes` describes, and with no other. */
  lemma {:induction false} LexFromIs(s: string, i: nat, ts: seq<LexToken>)
    requires i <= |s|
    ensures LexFrom(s, i) == Ok(ts) <==> Tokenizes(s, i, ts)
    decreases |s| - i
  {
    if i < |s| && !(s[i] == '\\' && i + 1 == |s|) {
      if LexFrom(s, i) == Ok(ts) {
        assert NextToken(s, i).Ok?;
        var (t, j) := NextToken(s, i).value;
        NextTokenIs(s, i, t, j);
        assert ts == [t] + LexFrom(s, j).value;
        assert ts[1..] == LexFrom(s, j).value;
        LexFromIs(s, j, ts[1..]);
      }
      if Tokenizes(s, i, ts) {
        var j := ts[1].index;
        NextTokenIs(s, i, ts[0], j);
        LexFromIs(s, j, ts[1..]);
        assert ts == [ts[0]] + ts[1..];
      }
    }
  }

  /** Lexing from `i` reaches a token boundary at `p`: every token from `i` up to `p` lexes. */
  predicate Reaches(s: string, i: nat, p: nat)
    decreases if i <= p then p - i else 0
  {
    if i >= p then i == p
    else
      && i < |s| && !(s[i] == '\\' && i + 1 == |s|)
      && NextToken(s, i).Ok?
      && Reaches(s, NextToken(s, i).value.1, p)
  }

  /** A lexing error is the error of the first token that fails, and every token before it lexes. */
  lemma {:induction false} LexErrorAt(s: string, i: nat) returns (p: nat)
    requires i <= |s| && LexFrom(s, i).Err?
    ensures i <= p < |s| && !(s[p] == '\\' && p + 1 == |s|)
    ensures Reaches(s, i, p) && NextToken(s, p) == Err(LexFrom(s, i).error)
    decreases |s| - i
  {
    if NextToken(s, i).Err? {
      p := i;
    } else {
      var j := NextToken(s, i).value.1;
      p := LexErrorAt(s, j);
    }
  }

  /** ... and conversely, a token that fails after a clean run is the error lexing reports. */
  lemma {:induction false} LexFailsAt(s: string, i: nat, p: nat)
    requires i <= |s| && p < |s| && !(s[p] == '\\' && p + 1 == |s|)
    requires Reaches(s, i, p) && NextToken(s, p).Err?
    ensures LexFrom(s, i) == Err(NextToken(s, p).error)
    decreases |s| - i
  {
    if i < p {
      LexFailsAt(s, NextToken(s, i).value.1, p);
    }
  }

  /** A pattern with no `:` and no `(` always lexes. */
  lemma {:induction false} LexWithoutParametersSucceeds(s: string, i: nat)
    requires i <= |s|
    requires forall k :: 0 <= k < |s| ==> s[k] != ':' && s[k] != '('
    ensures LexFrom(s, i).Ok?
    decreases |s| - i
  {
    if i < |s| {
      var c := s[i];
      if IsModifierChar(c) || c == '{' || c == '}' {
        LexWithoutParametersSucceeds(s, i + 1);
      } else if c == '\\' {
        if i + 1 < |s| {
          LexWithoutParametersSucceeds(s, i + 2);
        }
      } else {
        LexWithoutParametersSucceeds(s, i + 1);
      }
    }
  }

  /** The character at `k` is no `(`, and a `:` there is followed by a name character. */
  predicate NameSafe(s: string, k: nat)
    requires k < |s|
  {
    s[k] != '(' && (s[k] == ':' ==> k + 1 < |s| && IsNameChar(s[k + 1]))
  }

  /** No `(`, and every `:` is followed by a name character. */
  predicate NamesOnly(s: string) {
    forall k :: 0 <= k < |s| ==> NameSafe(s, k)
  }

  /** A pattern whose parameters are all well-formed `:name`s never throws. */
  lemma {:induction false} LexNamesSucceeds(s: string, i: nat)
    requires i <= |s| && NamesOnly(s)
    ensures LexFrom(s, i).Ok?
    decreases |s| - i
  {
    if i < |s| && !(s[i] == '\\' && i + 1 == |s|) {
      assert NameSafe(s, i);
      var r := NextToken(s, i);
      assert r.Ok?;
      LexNamesSucceeds(s, r.value.1);
    }
  }
}

=== FILE: matcher.dfy ===
/**
 `regexpToFunction`: turns the groups a route's regular expression captured
 into the route's parameters. Running the regular expression is not modelled:
 the match function receives what `re.exec` returned.
 */
module Matcher {
  import opened Common
  import opened Tokens
  import opened Split

  /** A decoded parameter: one value, or the values of a repeated key. */
  datatype ParamValue = One(value: string) | Many(values: seq<string>)

  /** The `params` object, by property name. */
  type Params = map<string, ParamValue>

  /** What `re.exec(pathname)` gives on a match: the matched text, where it starts, and `m[1..]`. */
  datatype ExecResult = ExecResult(path: string, index: nat, groups: seq<Option<string>>)

  /** `{ path, index, params }` */
  datatype MatchResult = MatchResult(path: string, index: nat, params: Params)

  /**
   A defined group with no key behind it: `keys[i - 1]` is undefined and
   reading its `modifier` throws a `TypeError`.
   */
  datatype MatchError = NoKeyForGroup(group: nat)

  /**
   The text a repeated capture is split on. The source splits on
   `prefix + suffix`; the regular expression written for a repeated key puts
   `suffix + prefix` between two repetitions, and the corrected separator is that.
   */
  function RepeatSeparator(k: Key, asWritten: bool): string {
    if asWritten then k.prefix + k.suffix else k.suffix + k.prefix
  }

  /** `values.map((value) => decode(value, key))` */
  function MapDecode(vs: seq<string>, k: Key, decode: (string, Key) -> string): (r: seq<string>)
    ensures |r| == |vs| && forall j :: 0 <= j < |vs| ==> r[j] == decode(vs[j], k)
    decreases |vs|
  {
    if |vs| == 0 then [] else [decode(vs[0], k)] + MapDecode(vs[1..], k, decode)
  }

  /** The value one captured group gives its key. */
  function DecodeValue(k: Key, capture: string, decode: (string, Key) -> string, asWritten: bool): ParamValue {
    if IsRepeat(k) then Many(MapDecode(SplitOn(capture, RepeatSeparator(k, asWritten)), k, decode))
    else One(decode(capture, k))
  }

  /** Group `g` was captured and has a key. */
  predicate Supplies(keys: seq<Key>, groups: seq<Option<string>>, g: int) {
    0 <= g < |groups| && g < |keys| && groups[g].Some?
  }

  /** No later group with a key writes the same property as group `g`. */
  predicate LastFor(keys: seq<Key>, groups: seq<Option<string>>, g: int)
    requires 0 <= g < |keys|
  {
    forall h :: g < h < |groups| && Supplies(keys, groups, h) ==>
      PropertyKey(keys[h].name) != PropertyKey(keys[g].name)
  }

  /** Some defined group from `j` on has no key. */
  predicate Keyless(keys: seq<Key>, groups: seq<Option<string>>, j: nat) {
    exists g :: j <= g < |groups| && groups[g].Some? && g >= |keys|
  }

  /** The parameters after group `j`, when that group does not throw. */
  function Written(keys: seq<Key>, groups: seq<Option<string>>, j: nat, params: Params,
                   decode: (string, Key) -> string, asWritten: bool): Params
    requires j < |groups| && (groups[j].None? || j < |keys|)
  {
    if groups[j].None? then params
    else params[PropertyKey(keys[j].name) := DecodeValue(keys[j], groups[j].value, decode, asWritten)]
  }

  /**
   The `for (let i = 1; i < m.length; i++)` loop from group `j` (that is,
   `i = j + 1`) on, with the parameters written so far.
   */
  function DecodeFrom(keys: seq<Key>, groups: seq<Option<string>>, j: nat, params: Params,
                      decode: (string, Key) -> string, asWritten: bool): (r: Result<Params, MatchError>)
    requires j <= |groups|
    ensures r.Err? ==> j < r.error.group <= |groups|
    decreases |groups| - j
  {
    if j == |groups| then Ok(params)
    else if groups[j].Some? && j >= |keys| then Err(NoKeyForGroup(j + 1))
    else DecodeFrom(keys, groups, j + 1, Written(keys, groups, j, params, decode, asWritten), decode, asWritten)
  }

  /**
   The loop throws exactly when some defined group has no key, and it names
   the first such group (counting from 1, as `m` does).
   */
  lemma {:induction false} DecodeFails(keys: seq<Key>, groups: seq<Option<string>>, j: nat, params: Params,
                                       decode: (string, Key) -> string, asWritten: bool)
    requires j <= |groups|
    ensures DecodeFrom(keys, groups, j, params, decode, asWritten).Err? <==> Keyless(keys, groups, j)
    ensures DecodeFrom(keys, groups, j, params, decode, asWritten).Err? ==>
      var g := DecodeFrom(keys, groups, j, params, decode, asWritten).error.group - 1;
      j <= g < |groups| && groups[g].Some? && g >= |keys| &&
      forall h :: j <= h < g ==> groups[h].None? || h < |keys|
    decreases |groups| - j
  {
    if j < |groups| {
      if groups[j].None? || j < |keys| {
        DecodeFails(keys, groups, j + 1, Written(keys, groups, j, params, decode, asWritten), decode, asWritten);
        if Keyless(keys, groups, j) {
          var g :| j <= g < |groups| && groups[g].Some? && g >= |keys|;
          assert g != j;
        }
      } else {
        assert groups[j].Some? && j >= |keys|;
      }
    }
  }

  /** A property no group from `j` on writes keeps the value it had. */
  lemma {:induction false} DecodeKeeps(keys: seq<Key>, groups: seq<Option<string>>, j: nat, params: Params,
                                       decode: (string, Key) -> string, asWritten: bool, n: string)
    requires j <= |groups| && n in params
    requires forall g :: j <= g && Supplies(keys, groups, g) ==> PropertyKey(keys[g].name) != n
    ensures DecodeFrom(keys, groups, j, params, decode, asWritten).Ok? ==>
      n in DecodeFrom(keys, groups, j, params, decode, asWritten).value &&
      DecodeFrom(keys, groups, j, params, decode, asWritten).value[n] == params[n]
    decreases |groups| - j
  {
    if j < |groups| && (groups[j].None? || j < |keys|) {
      DecodeKeeps(keys, groups, j + 1, Written(keys, groups, j, params, decode, asWritten), decode, asWritten, n);
    }
  }

  /** The last defined group written under a property decides its value. */
  lemma {:induction false} DecodeWrites(keys: seq<Key>, groups: seq<Option<string>>, j: nat, params: Params,
                                        decode: (string, Key) -> string, asWritten: bool, g: nat)
    requires j <= g && Supplies(keys, groups, g) && LastFor(keys, groups, g)
    ensures DecodeFrom(keys, groups, j, params, decode, asWritten).Ok? ==>
      PropertyKey(keys[g].name) in DecodeFrom(keys, groups, j, params, decode, asWritten).value &&
      DecodeFrom(keys, groups, j, params, decode, asWritten).value[PropertyKey(keys[g].name)]
        == DecodeValue(keys[g], groups[g].value, decode, asWritten)
    decreases g - j
  {
    if groups[j].None? || j < |keys| {
      var next := Written(keys, groups, j, params, decode, asWritten);
      if j == g {
        DecodeKeeps(keys, groups, j + 1, next, decode, asWritten, PropertyKey(keys[g].name));
      } else {
        DecodeWrites(keys, groups, j + 1, next, decode, asWritten, g);
      }
    }
  }

  /** Every property in the result was there before or was written by a defined group: undefined groups add nothing. */
  lemma {:induction false} DecodeOnlyWrites(keys: seq<Key>, groups: seq<Option<string>>, j: nat, params: Params,
                                            decode: (string, Key) -> string, asWritten: bool, n: string)
    requires j <= |groups|
    ensures DecodeFrom(keys, groups, j, params, decode, asWritten).Ok? &&
            n in DecodeFrom(keys, groups, j, params, decode, asWritten).value ==>
      n in params || exists g :: j <= g && Supplies(keys, groups, g) && PropertyKey(keys[g].name) == n
    decreases |groups| - j
  {
    if j < |groups| && (groups[j].None? || j < |keys|) {
      DecodeOnlyWrites(keys, groups, j + 1, Written(keys, groups, j, params, decode, asWritten), decode, asWritten, n);
    }
  }

  /**
   The returned function applied to what `re.exec` gave: `false` (here
   `None`) without a match, otherwise the matched text, its index and the
   parameters decoded from the groups. `asWritten` chooses the separator a
   repeated key's capture is split on: `true` for the one the code uses,
   `false` for the corrected one.
   */
  function RegexpToFunction(keys: seq<Key>, m: Option<ExecResult>, decode: (string, Key) -> string,
                            asWritten: bool)
    : (r: Result<Option<MatchResult>, MatchError>)
    ensures m.None? ==> r == Ok(None)
    ensures m.Some? ==> (r.Err? <==> Keyless(keys, m.value.groups, 0))
    ensures m.Some? && r.Ok? ==> r.value.Some? && r.value.value.path == m.value.path
                                 && r.value.value.index == m.value.index
    ensures m.Some? && r.Ok? ==> forall g :: Supplies(keys, m.value.groups, g) && LastFor(keys, m.value.groups, g) ==>
      PropertyKey(keys[g].name) in r.value.value.params &&
      r.value.value.params[PropertyKey(keys[g].name)] == DecodeValue(keys[g], m.value.groups[g].value, decode, asWritten)
    ensures m.Some? && r.Ok? ==> forall n :: n in r.value.value.params ==>
      exists g :: Supplies(keys, m.value.groups, g) && PropertyKey(keys[g].name) == n
  {
    match m
    case None => Ok(None)
    case Some(e) =>
      DecodeSpec(keys, e.groups, decode, asWritten);
      match DecodeFrom(keys, e.groups, 0, map[], decode, asWritten)
      case Err(x) => Err(x)
      case Ok(params) => Ok(Some(MatchResult(e.path, e.index, params)))
  }

  lemma {:induction false} DecodeSpec(keys: seq<Key>, groups: seq<Option<string>>, decode: (string, Key) -> string,
                                      asWritten: bool)
    ensures DecodeFrom(keys, groups, 0, map[], decode, asWritten).Err? <==> Keyless(keys, groups, 0)
    ensures DecodeFrom(keys, groups, 0, map[], decode, asWritten).Ok? ==>
      forall g :: Supplies(keys, groups, g) && LastFor(keys, groups, g) ==>
        PropertyKey(keys[g].name) in DecodeFrom(keys, groups, 0, map[], decode, asWritten).value &&
        DecodeFrom(keys, groups, 0, map[], decode, asWritten).value[PropertyKey(keys[g].name)]
          == DecodeValue(keys[g], groups[g].value, decode, asWritten)
    ensures DecodeFrom(keys, groups, 0, map[], decode, asWritten).Ok? ==>
      forall n :: n in DecodeFrom(keys, groups, 0, map[], decode, asWritten).value ==>
        exists g :: Supplies(keys, groups, g) && PropertyKey(keys[g].name) == n
  {
    DecodeFails(keys, groups, 0, map[], decode, asWritten);
    forall g | Supplies(keys, groups, g) && LastFor(keys, groups, g)
      ensures DecodeFrom(keys, groups, 0, map[], decode, asWritten).Ok? ==>
        PropertyKey(keys[g].name) in DecodeFrom(keys, groups, 0, map[], decode, asWritten).value &&
        DecodeFrom(keys, groups, 0, map[], decode, asWritten).value[PropertyKey(keys[g].name)]
          == DecodeValue(keys[g], groups[g].value, decode, asWritten)
    {
      DecodeWrites(keys, groups, 0, map[], decode, asWritten, g);
    }
    forall n | DecodeFrom(keys, groups, 0, map[], decode, asWritten).Ok? &&
               n in DecodeFrom(keys, groups, 0, map[], decode, asWritten).value
      ensures exists g :: Supplies(keys, groups, g) && PropertyKey(keys[g].name) == n
    {
      DecodeOnlyWrites(keys, groups, 0, map[], decode, asWritten, n);
    }
  }

  // ----- repeated keys -----

  /** A key with at most one of prefix and suffix is split the same either way. */
  lemma {:induction false} SeparatorsAgree(k: Key)
    requires k.prefix == "" || k.suffix == ""
    ensures RepeatSeparator(k, true) == RepeatSeparator(k, false)
  {
    if k.prefix == "" {
      assert k.prefix + k.suffix == k.suffix == k.suffix + k.prefix;
    } else {
      assert k.prefix + k.suffix == k.prefix == k.suffix + k.prefix;
    }
  }

  /**
   The values of a repeated key, joined the way its regular expression
   repeats them, decode back to those values (each passed through `decode`),
   provided no value contains the separator's first character.
   */
  lemma {:induction false} RepeatRoundTrip(k: Key, vs: seq<string>, decode: (string, Key) -> string)
    requires IsRepeat(k) && |vs| > 0 && Separable(vs, k.suffix + k.prefix)
    ensures DecodeValue(k, Join(vs, k.suffix + k.prefix), decode, false) == Many(MapDecode(vs, k, decode))
  {
    SplitJoin(vs, k.suffix + k.prefix);
  }

  function Identity(x: string, k: Key): string { x }

  /** `{/:id.json}+` as the parser gives it. */
  const JsonIds := Key(Named("id"), "/", ".json", "[^\\/#\\?]+?", "+")

  /** "/.json" does not occur in "a.json/b": its only `/` has one character after it. */
  lemma {:induction false} WrittenSeparatorAbsent()
    ensures SplitOn("a.json/b", "/.json") == ["a.json/b"]
  {
    var s, sep := "a.json/b", "/.json";
    forall q | 0 <= q <= |s|
      ensures !StartsWith(s[q..], sep)
    {
      if q < 6 {
        assert s[q..][0] == s[q] != '/';
      }
    }
    IndexOfAbsent(s, sep);
  }

  /** The capture of `{/:id.json}+` for the values "a" and "b". */
  lemma {:induction false} JsonIdsCapture()
    ensures Join(["a", "b"], ".json/") == "a.json/b"
  {
    var vs := ["a", "b"];
    assert Join(vs[1..], ".json/") == "b";
  }

  /**
   `{/:id.json}+` matching "/a.json/b.json" captures "a.json/b". Split on
   "/.json" as written, that is one value.
   */
  lemma {:induction false} SplitsOnWrongSeparator()
    ensures DecodeValue(JsonIds, "a.json/b", Identity, true) == Many(["a.json/b"])
  {
    assert RepeatSeparator(JsonIds, true) == "/.json";
    WrittenSeparatorAbsent();
    assert MapDecode(["a.json/b"], JsonIds, Identity) == ["a.json/b"];
  }

  lemma {:induction false} MapIdentity(vs: seq<string>, k: Key)
    ensures MapDecode(vs, k, Identity) == vs
  {
    assert forall j :: 0 <= j < |vs| ==> MapDecode(vs, k, Identity)[j] == vs[j];
  }

  lemma {:induction false} JsonIdsSeparable()
    ensures Separable(["a", "b"], JsonIds.suffix + JsonIds.prefix)
  {
    var vs, sep := ["a", "b"], JsonIds.suffix + JsonIds.prefix;
    assert sep[0] == '.';
    forall k, c | 0 <= k < |vs| && 0 <= c < |vs[k]|
      ensures vs[k][c] != sep[0]
    {
      assert vs[k][c] == 'a' || vs[k][c] == 'b';
    }
  }

  /** Split on ".json/", the same capture gives back "a" and "b". */
  lemma {:induction false} CorrectedSplitsValues()
    ensures DecodeValue(JsonIds, "a.json/b", Identity, false) == Many(["a", "b"])
  {
    JsonIdsCapture();
    JsonIdsSeparable();
    assert JsonIds.suffix + JsonIds.prefix == ".json/";
    RepeatRoundTrip(JsonIds, ["a", "b"], Identity);
    MapIdentity(["a", "b"], JsonIds);
  }
}

=== FILE: parser.dfy ===
/**
 `parse`: turns lexer tokens into a route made of literal text and keys. Literal
 characters are coalesced; a `:name` or `(pattern)` may take the single character
 before it as its prefix; `{...}` groups carry their own prefix and suffix; and
 anonymous patterns are numbered 0, 1, 2, ... from left to right.
 */
module Parser {
  import opened Common
  import opened Lexer
  import opened Tokens
  import Escape

  /** `delimiter` and `prefixes` as the caller gave them; `None` is `undefined`. */
  datatype ParseOptions = ParseOptions(delimiter: Option<string>, prefixes: Option<string>)

  const DefaultOptions := ParseOptions(None, None)

  /** The errors `parse` throws: the lexer's, and `Unexpected X at i, expected Y`. */
  datatype ParseError =
    | LexFailure(lex: LexError)
    | Unexpected(found: LexKind, at: nat, expected: LexKind)

  /** `const { prefixes = "./" } = options`: only `undefined` takes the default. */
  function Prefixes(o: ParseOptions): string {
    match o.prefixes
    case None => "./"
    case Some(p) => p
  }

  /** `[^${escapeString(options.delimiter || "/#?")}]+?`: an empty delimiter also takes the default. */
  function DefaultPattern(o: ParseOptions): (p: string)
    ensures |p| > 0
  {
    var d := if o.delimiter.None? || o.delimiter.value == "" then "/#?" else o.delimiter.value;
    "[^" + Escape.EscapeString(d) + "]+?"
  }

  // ----- what the lexer tokens carry, counted from an offset to the end -----

  /** The literal characters of a token: those of `Char` and `EscapedChar` tokens. */
  function CharOf(t: LexToken): string {
    if t.kind == Char || t.kind == EscapedChar then t.value else ""
  }

  function CharTextFrom(ts: seq<LexToken>, i: nat): string
    decreases |ts| - i
  {
    if i >= |ts| then "" else CharOf(ts[i]) + CharTextFrom(ts, i + 1)
  }

  /** The values of the `Name` tokens, in order. */
  function NameValuesFrom(ts: seq<LexToken>, i: nat): seq<string>
    decreases |ts| - i
  {
    if i >= |ts| then [] else NameOfLex(ts[i]) + NameValuesFrom(ts, i + 1)
  }

  function NameOfLex(t: LexToken): seq<string> {
    if t.kind == Name then [t.value] else []
  }

  function CountFrom(ts: seq<LexToken>, i: nat, kind: LexKind): nat
    decreases |ts| - i
  {
    if i >= |ts| then 0 else (if ts[i].kind == kind then 1 else 0) + CountFrom(ts, i + 1, kind)
  }

  /** One step of each of the counting functions above. */
  lemma {:induction false} Unfold(ts: seq<LexToken>, i: nat)
    requires i < |ts|
    ensures CharTextFrom(ts, i) == CharOf(ts[i]) + CharTextFrom(ts, i + 1)
    ensures NameValuesFrom(ts, i) == NameOfLex(ts[i]) + NameValuesFrom(ts, i + 1)
    ensures CountFrom(ts, i, Open) == (if ts[i].kind == Open then 1 else 0) + CountFrom(ts, i + 1, Open)
    ensures CountFrom(ts, i, Close) == (if ts[i].kind == Close then 1 else 0) + CountFrom(ts, i + 1, Close)
  {
  }

  lemma {:induction false} UnfoldChars(ts: seq<LexToken>, i: nat)
    requires i < |ts|
    ensures CharTextFrom(ts, i) == CharOf(ts[i]) + CharTextFrom(ts, i + 1)
  {
  }

  lemma {:induction false} UnfoldNames(ts: seq<LexToken>, i: nat)
    requires i < |ts|
    ensures NameValuesFrom(ts, i) == NameOfLex(ts[i]) + NameValuesFrom(ts, i + 1)
  {
  }

  lemma {:induction false} UnfoldCounts(ts: seq<LexToken>, i: nat)
    requires i < |ts|
    ensures CountFrom(ts, i, Open) == (if ts[i].kind == Open then 1 else 0) + CountFrom(ts, i + 1, Open)
    ensures CountFrom(ts, i, Close) == (if ts[i].kind == Close then 1 else 0) + CountFrom(ts, i + 1, Close)
  {
  }

  /** Tokens without literal characters leave the literal text unchanged. */
  lemma {:induction false} SilentChars(ts: seq<LexToken>, a: nat, b: nat)
    requires a <= b <= |ts|
    requires forall k :: a <= k < b ==> CharOf(ts[k]) == ""
    ensures CharTextFrom(ts, a) == CharTextFrom(ts, b)
    decreases b - a
  {
    if a < b {
      UnfoldChars(ts, a);
      SilentChars(ts, a + 1, b);
      var rest := CharTextFrom(ts, a + 1);
      assert CharOf(ts[a]) + rest == rest by { assert CharOf(ts[a]) == ""; }
    }
  }

  // ----- what a route carries, defined from its end so that appending is one step -----

  function LitOf(t: Token): string {
    if t.Text? then t.text else t.key.prefix + t.key.suffix
  }

  function NameOf(t: Token): seq<string> {
    if t.Param? && t.key.name.Named? && t.key.name.id != "" then [t.key.name.id] else []
  }

  function AnonOf(t: Token): seq<nat> {
    if t.Param? && t.key.name.Index? then [t.key.name.n] else []
  }

  /** All literal text of a route: text tokens and every key's prefix and suffix. */
  function LiteralText(r: seq<Token>): string
    decreases |r|
  {
    if |r| == 0 then "" else LiteralText(r[..|r| - 1]) + LitOf(r[|r| - 1])
  }

  /** The identifiers of the named keys, in order. */
  function NamedIds(r: seq<Token>): seq<string>
    decreases |r|
  {
    if |r| == 0 then [] else NamedIds(r[..|r| - 1]) + NameOf(r[|r| - 1])
  }

  /** The ordinals of the anonymous keys, in order. */
  function AnonOrdinals(r: seq<Token>): seq<nat>
    decreases |r|
  {
    if |r| == 0 then [] else AnonOrdinals(r[..|r| - 1]) + AnonOf(r[|r| - 1])
  }

  /** One element of a route read left to right: a literal character, or a key. */
  datatype Ev = Chr(c: char) | Slot(k: Key)

  function Chrs(x: string): seq<Ev>
    decreases |x|
  {
    if |x| == 0 then [] else [Chr(x[0])] + Chrs(x[1..])
  }

  lemma {:induction false} ChrsAppend(a: string, b: string)
    ensures Chrs(a + b) == Chrs(a) + Chrs(b)
    decreases |a|
  {
    if |a| > 0 {
      assert (a + b)[1..] == a[1..] + b;
      ChrsAppend(a[1..], b);
    } else {
      assert a + b == b;
    }
  }

  /** A token as elements: a text its characters, a key its prefix, itself and its suffix. */
  function EvOf(t: Token): seq<Ev> {
    match t
    case Text(x) => Chrs(x)
    case Param(k) => Chrs(k.prefix) + [Slot(k)] + Chrs(k.suffix)
  }

  /** The whole route as elements: every literal character and every key, in order. */
  function Layout(r: seq<Token>): seq<Ev>
    decreases |r|
  {
    if |r| == 0 then [] else Layout(r[..|r| - 1]) + EvOf(r[|r| - 1])
  }

  /** Literal text is never empty and never split over two adjacent text tokens. */
  predicate Coalesced(r: seq<Token>) {
    && (forall m :: 0 <= m < |r| && r[m].Text? ==> r[m].text != "")
    && (forall m :: 0 <= m < |r| - 1 && r[m].Text? ==> r[m + 1].Param?)
  }

  /** Anonymous keys are numbered 0, 1, 2, ... in order. */
  predicate Numbered(r: seq<Token>) {
    var a := AnonOrdinals(r);
    forall m :: 0 <= m < |a| ==> a[m] == m
  }

  /**
   A key's fields are consistent: a known modifier; an empty pattern exactly for
   a group that has neither name nor pattern; a name made of name characters.
   */
  predicate WellFormedKey(k: Key) {
    && k.modifier in {"", "?", "*", "+"}
    && (k.pattern == "" <==> k.name == Named(""))
    && (k.name.Named? ==> forall c :: 0 <= c < |k.name.id| ==> IsNameChar(k.name.id[c]))
  }

  predicate KeysWellFormed(r: seq<Token>) {
    forall m :: 0 <= m < |r| && r[m].Param? ==> WellFormedKey(r[m].key)
  }

  /** Outside `{...}`, a key has no suffix and its prefix is empty or one of the prefix characters. */
  predicate Shaped(k: Key, prefixes: string) {
    k.suffix == "" && (k.prefix == "" || (|k.prefix| == 1 && ContainsInfix(prefixes, k.prefix)))
  }

  predicate AllShaped(r: seq<Token>, prefixes: string) {
    forall m :: 0 <= m < |r| && r[m].Param? ==> Shaped(r[m].key, prefixes)
  }


  lemma {:induction false} AppendToken(acc: seq<Token>, t: Token)
    ensures Layout(acc + [t]) == Layout(acc) + EvOf(t)
    ensures LiteralText(acc + [t]) == LiteralText(acc) + LitOf(t)
    ensures NamedIds(acc + [t]) == NamedIds(acc) + NameOf(t)
    ensures AnonOrdinals(acc + [t]) == AnonOrdinals(acc) + AnonOf(t)
  {
    assert (acc + [t])[..|acc|] == acc;
  }

  lemma {:induction false} AppendText(acc: seq<Token>, x: string, prefixes: string)
    requires x != "" && Coalesced(acc) && (|acc| == 0 || acc[|acc| - 1].Param?)
    ensures Coalesced(acc + [Text(x)])
    ensures KeysWellFormed(acc) ==> KeysWellFormed(acc + [Text(x)])
    ensures AllShaped(acc, prefixes) ==> AllShaped(acc + [Text(x)], prefixes)
  {
  }

  lemma {:induction false} AppendParam(acc: seq<Token>, k: Key, prefixes: string)
    requires Coalesced(acc)
    ensures Coalesced(acc + [Param(k)])
    ensures KeysWellFormed(acc) && WellFormedKey(k) ==> KeysWellFormed(acc + [Param(k)])
    ensures AllShaped(acc, prefixes) && Shaped(k, prefixes) ==> AllShaped(acc + [Param(k)], prefixes)
  {
  }

  // ----- the loop -----

  /** The parser's loop variables: token offset, next ordinal, pending literal, output so far. */
  datatype State = State(i: nat, key: nat, path: string, acc: seq<Token>)

  /** What holds between iterations. */
  predicate Inv(ts: seq<LexToken>, st: State) {
    && st.i <= |ts|
    && (st.i < |ts| ==> |st.acc| == 0 || st.acc[|st.acc| - 1].Param?)
    && (st.i == |ts| ==> st.path == "")
    && Coalesced(st.acc)
    && Numbered(st.acc)
    && st.key == |AnonOrdinals(st.acc)|
    && KeysWellFormed(st.acc)
  }

  /**
   One iteration moves forward, keeps `Inv`, loses and invents no literal
   character and no parameter name, consumes `{` and `}` in pairs, and adds
   only prefix-shaped keys while no `{` lies ahead.
   */
  predicate Advances(ts: seq<LexToken>, o: ParseOptions, st: State, nx: State) {
    && st.i < nx.i
    && Inv(ts, nx)
    && LiteralText(nx.acc) + nx.path + CharTextFrom(ts, nx.i) == LiteralText(st.acc) + st.path + CharTextFrom(ts, st.i)
    && NamedIds(nx.acc) + NameValuesFrom(ts, nx.i) == NamedIds(st.acc) + NameValuesFrom(ts, st.i)
    && CountFrom(ts, st.i, Open) + CountFrom(ts, nx.i, Close) == CountFrom(ts, st.i, Close) + CountFrom(ts, nx.i, Open)
    && (CountFrom(ts, st.i, Open) == 0 ==>
          CountFrom(ts, nx.i, Open) == 0 && (AllShaped(st.acc, Prefixes(o)) ==> AllShaped(nx.acc, Prefixes(o))))
  }

  /** JavaScript truthiness of a consumed value: present and non-empty. */
  predicate Truthy(v: Option<string>) {
    v.Some? && v.value != ""
  }

  function OrEmpty(v: Option<string>): string {
    if v.Some? then v.value else ""
  }

  /** The lexer's output ends in `End`, so a token of any other kind is never the last. */
  predicate Terminated(ts: seq<LexToken>) {
    |ts| > 0 && ts[|ts| - 1].kind == End
  }

  /** `tryConsume(kind)`: takes the next token's value when it has that kind. */
  function TryConsume(ts: seq<LexToken>, i: nat, kind: LexKind): (r: (Option<string>, nat))
    requires Terminated(ts) && i < |ts|
    ensures r.0.Some? <==> ts[i].kind == kind
    ensures r.0.Some? ==> r.0.value == ts[i].value && r.1 == i + 1
    ensures r.0.None? ==> r.1 == i
    ensures kind != End ==> r.1 < |ts|
  {
    if ts[i].kind == kind then (Some(ts[i].value), i + 1) else (None, i)
  }

  /** Offsets `a` to `b` hold literal tokens only. */
  predicate LiteralRun(ts: seq<LexToken>, a: nat, b: nat)
    requires a <= b <= |ts|
  {
    forall k :: a <= k < b ==> ts[k].kind == Char || ts[k].kind == EscapedChar
  }

  /** A run of literal tokens carries no name and no brace. */
  lemma {:induction false} TextRun(ts: seq<LexToken>, i: nat, j: nat)
    requires i <= j <= |ts|
    requires LiteralRun(ts, i, j)
    ensures NameValuesFrom(ts, j) == NameValuesFrom(ts, i)
    ensures CountFrom(ts, j, Open) == CountFrom(ts, i, Open)
    ensures CountFrom(ts, j, Close) == CountFrom(ts, i, Close)
    decreases j - i
  {
    if i < j {
      TextRun(ts, i + 1, j);
    }
  }

  /** A token whose value `tryConsume("CHAR") || tryConsume("ESCAPED_CHAR")` appends: an empty escape is falsy. */
  predicate IsText(t: LexToken) {
    t.kind == Char || (t.kind == EscapedChar && t.value != "")
  }

  /**
   A `consumeText()` started at `a` stops at `b`: it appends every token
   before `b`, except that an empty escape is taken and ends the run; a run
   that does not end on one stops at the first token that is neither a
   `Char` nor an `EscapedChar`.
   */
  predicate StopsAt(ts: seq<LexToken>, a: nat, b: nat)
    requires a <= b < |ts|
  {
    && (forall m :: a <= m < b ==> IsText(ts[m]) || (m == b - 1 && ts[m].kind == EscapedChar))
    && (b == a || IsText(ts[b - 1]) ==> ts[b].kind != Char && ts[b].kind != EscapedChar)
  }

  /** `consumeText()`: a run of `Char`/`EscapedChar` tokens, stopping after an empty escape. */
  function ConsumeText(ts: seq<LexToken>, i: nat): (r: (string, nat))
    requires Terminated(ts) && i < |ts|
    ensures i <= r.1 < |ts|
    ensures r.0 + CharTextFrom(ts, r.1) == CharTextFrom(ts, i)
    ensures LiteralRun(ts, i, r.1)
    ensures StopsAt(ts, i, r.1)
    decreases |ts| - i
  {
    if IsText(ts[i]) then
      var rest := ConsumeText(ts, i + 1);
      var v := ts[i].value;
      UnfoldChars(ts, i);
      ConcatAssoc(v, rest.0, CharTextFrom(ts, rest.1));
      RunExtend(ts, i, rest.1);
      (v + rest.0, rest.1)
    else if ts[i].kind == EscapedChar then
      UnfoldChars(ts, i);
      RunExtend(ts, i, i + 1);
      ("", i + 1)
    else ("", i)
  }

  /** Only one offset satisfies `StopsAt`, so it pins down where `ConsumeText` stops. */
  lemma {:induction false} ConsumeTextStops(ts: seq<LexToken>, i: nat, b: nat)
    requires Terminated(ts) && i <= b < |ts| && StopsAt(ts, i, b)
    ensures ConsumeText(ts, i).1 == b
  {
  }

  lemma {:induction false} RunExtend(ts: seq<LexToken>, i: nat, b: nat)
    requires i < b <= |ts| && (ts[i].kind == Char || ts[i].kind == EscapedChar)
    requires LiteralRun(ts, i + 1, b)
    ensures LiteralRun(ts, i, b)
  {
  }

  /** Appends the pending literal when it is non-empty. */
  function Flush(acc: seq<Token>, path: string): (r: seq<Token>)
    ensures path == "" ==> r == acc
    ensures path != "" ==> r == acc + [Text(path)]
  {
    if path != "" then acc + [Text(path)] else acc
  }

  lemma {:induction false} FlushKeeps(acc: seq<Token>, path: string, prefixes: string)
    requires Coalesced(acc) && (|acc| == 0 || acc[|acc| - 1].Param?)
    ensures var r := Flush(acc, path);
      && Coalesced(r)
      && LiteralText(r) == LiteralText(acc) + path
      && NamedIds(r) == NamedIds(acc) && AnonOrdinals(r) == AnonOrdinals(acc)
      && (KeysWellFormed(acc) ==> KeysWellFormed(r))
      && (AllShaped(acc, prefixes) ==> AllShaped(r, prefixes))
  {
    if path != "" {
      AppendToken(acc, Text(path));
      AppendText(acc, path, prefixes);
    }
  }

  /** What an iteration consumes first: an optional `Char`, then `Name`, then `Pattern`. */
  datatype Head = Head(ch: Option<string>, name: Option<string>, pattern: Option<string>,
                       afterCh: nat, afterName: nat, next: nat)

  function Lead(ts: seq<LexToken>, i: nat): (h: Head)
    requires Terminated(ts) && i < |ts|
    ensures (h.ch.Some? <==> ts[i].kind == Char) && h.afterCh == if h.ch.Some? then i + 1 else i
    ensures h.ch.Some? ==> h.ch.value == ts[i].value
    ensures h.afterCh < |ts| && (h.name.Some? <==> ts[h.afterCh].kind == Name)
    ensures h.name.Some? ==> h.name.value == ts[h.afterCh].value
    ensures h.afterName == if h.name.Some? then h.afterCh + 1 else h.afterCh
    ensures h.afterName < |ts| && (h.pattern.Some? <==> ts[h.afterName].kind == Pattern)
    ensures h.pattern.Some? ==> h.pattern.value == ts[h.afterName].value
    ensures h.next == if h.pattern.Some? then h.afterName + 1 else h.afterName
    ensures h.next < |ts|
  {
    var (ch, i1) := TryConsume(ts, i, Char);
    var (name, i2) := TryConsume(ts, i1, Name);
    var (pattern, i3) := TryConsume(ts, i2, Pattern);
    Head(ch, name, pattern, i1, i2, i3)
  }

  /** The values `Lead` takes are those the lexer promises. */
  lemma {:induction false} LeadValues(ts: seq<LexToken>, i: nat)
    requires ValidTokens(ts) && i < |ts|
    ensures var h := Lead(ts, i);
      && (h.ch.Some? ==> |h.ch.value| == 1)
      && (h.name.Some? ==> h.name.value != "" && forall c :: 0 <= c < |h.name.value| ==> IsNameChar(h.name.value[c]))
      && (h.pattern.Some? ==> h.pattern.value != "")
  {
    var h := Lead(ts, i);
    assert WellFormedToken(ts[i]);
    assert WellFormedToken(ts[h.afterCh]);
    assert WellFormedToken(ts[h.afterName]);
  }

  lemma {:induction false} LeadChars(ts: seq<LexToken>, i: nat)
    requires Terminated(ts) && i < |ts|
    ensures CharTextFrom(ts, i) == OrEmpty(Lead(ts, i).ch) + CharTextFrom(ts, Lead(ts, i).next)
  {
    var h := Lead(ts, i);
    assert CharTextFrom(ts, h.afterCh) == CharTextFrom(ts, h.next) by {
      SlotChars(ts, h.afterCh, h.afterName, h.next);
    }
    if h.ch.Some? {
      assert CharTextFrom(ts, i) == h.ch.value + CharTextFrom(ts, i + 1) by { UnfoldChars(ts, i); }
    }
  }

  lemma {:induction false} LeadNames(ts: seq<LexToken>, i: nat)
    requires Terminated(ts) && i < |ts|
    ensures var h := Lead(ts, i);
      NameValuesFrom(ts, i) == (if h.name.Some? then [h.name.value] else []) + NameValuesFrom(ts, h.next)
  {
    var h := Lead(ts, i);
    SlotNames(ts, h.afterCh, h.afterName, h.next, h.name);
    if h.ch.Some? { UnfoldNames(ts, i); }
  }

  lemma {:induction false} LeadCounts(ts: seq<LexToken>, i: nat)
    requires Terminated(ts) && i < |ts|
    ensures CountFrom(ts, i, Open) == CountFrom(ts, Lead(ts, i).next, Open)
    ensures CountFrom(ts, i, Close) == CountFrom(ts, Lead(ts, i).next, Close)
  {
    var h := Lead(ts, i);
    SlotCounts(ts, h.afterCh, h.afterName, h.next);
    if h.ch.Some? { UnfoldCounts(ts, i); }
  }

  /** The key-or-literal choice that opens every iteration. */
  predicate StartsParam(ts: seq<LexToken>, i: nat)
    requires ValidTokens(ts) && i < |ts|
  {
    var h := Lead(ts, i);
    Truthy(h.name) || Truthy(h.pattern)
  }

  /** An empty escape (a trailing backslash) at `i` is consumed and ignored before the brace/end check. */
  function AfterEmptyEscape(ts: seq<LexToken>, i: nat): (j: nat)
    requires ValidTokens(ts) && i < |ts|
    ensures j == i || (j == i + 1 && ts[i].kind == EscapedChar)
    ensures j < |ts|
  {
    if ts[i].kind == EscapedChar then i + 1 else i
  }

  /**
   `parse` throws on the construct at `i`: it is neither a key nor a literal,
   and, after an ignored empty escape, it is either a `{` whose group is not
   closed by `}` (`mustConsume("CLOSE")`) or any token but `{` and the `End`
   (`mustConsume("END")`), such as a stray `}` or modifier.
   */
  predicate Throws(ts: seq<LexToken>, i: nat)
    requires ValidTokens(ts) && i < |ts|
  {
    && !StartsParam(ts, i)
    && !IsText(ts[i])
    && var j := AfterEmptyEscape(ts, i);
       if ts[j].kind == Open then ts[GroupParts(ts, j).close].kind != Close else ts[j].kind != End
  }

  /** The error thrown at `i`: `Unexpected X at n, expected CLOSE`, or `... expected END`. */
  function Thrown(ts: seq<LexToken>, i: nat): ParseError
    requires ValidTokens(ts) && i < |ts|
  {
    var j := AfterEmptyEscape(ts, i);
    if ts[j].kind == Open then
      var c := GroupParts(ts, j).close;
      Unexpected(ts[c].kind, ts[c].index, Close)
    else Unexpected(ts[j].kind, ts[j].index, End)
  }

  /** Where the construct at `i` ends when `parse` does not throw on it. */
  function ConstructEnd(ts: seq<LexToken>, i: nat): (e: nat)
    requires ValidTokens(ts) && i < |ts| && !Throws(ts, i)
    ensures i < e <= |ts|
  {
    if StartsParam(ts, i) then ParamEnd(ts, i)
    else if IsText(ts[i]) then i + 1
    else
      var j := AfterEmptyEscape(ts, i);
      if ts[j].kind == Open then GroupEnd(ts, j) else j + 1
  }

  /**
   Reading the tokens from `i` construct by construct, as `LayoutFrom` does:
   the error of the first construct `parse` throws on, or `None` when the
   reading reaches the end. Options and ordinals play no part in it.
   */
  function ParseFault(ts: seq<LexToken>, i: nat): Option<ParseError>
    requires ValidTokens(ts) && i <= |ts|
    decreases |ts| - i
  {
    if i == |ts| then None
    else if Throws(ts, i) then Some(Thrown(ts, i))
    else ParseFault(ts, ConstructEnd(ts, i))
  }

  /**
   One iteration of the `while (i < tokens.length)` loop of `parse`. It throws
   only from a `mustConsume`: a group whose `}` is missing, or a token that is
   neither a key, a literal, a `{` nor the `End`.
   */
  function Step(ts: seq<LexToken>, o: ParseOptions, st: State): (r: Result<State, ParseError>)
    requires ValidTokens(ts) && Inv(ts, st) && st.i < |ts|
    ensures r.Ok? ==> st.i < r.value.i <= |ts|
    ensures r.Err? ==> !StartsParam(ts, st.i) && !IsText(ts[st.i])
    ensures r.Err? ==> var j := AfterEmptyEscape(ts, st.i);
      if ts[j].kind == Open then
        var c := GroupParts(ts, j).close;
        ts[c].kind != Close && r.error == Unexpected(ts[c].kind, ts[c].index, Close)
      else ts[j].kind != End && r.error == Unexpected(ts[j].kind, ts[j].index, End)
    ensures r.Err? <==> Throws(ts, st.i)
    ensures r.Err? ==> r.error == Thrown(ts, st.i)
    ensures r.Ok? ==> r.value.i == ConstructEnd(ts, st.i)
  {
    if StartsParam(ts, st.i) then Ok(ParamStep(ts, o, st))
    else if IsText(ts[st.i]) then
      Ok(TextStep(ts, st))
    else
      var j := AfterEmptyEscape(ts, st.i);
      if ts[j].kind == Open then GroupStep(ts, o, st, j)
      else if ts[j].kind == End then Ok(State(j + 1, st.key, "", Flush(st.acc, st.path)))
      else Err(Unexpected(ts[j].kind, ts[j].index, End))
  }

  /** A literal character (plain or escaped) joins the pending literal. */
  function TextStep(ts: seq<LexToken>, st: State): (nx: State)
    requires ValidTokens(ts) && st.i < |ts|
    requires ts[st.i].kind == Char || ts[st.i].kind == EscapedChar
    ensures st.i < nx.i < |ts|
    ensures nx.acc == st.acc && nx.key == st.key && nx.path == st.path + CharOf(ts[st.i])
  {
    State(st.i + 1, st.key, st.path + ts[st.i].value, st.acc)
  }

  /** The ordinal after key `k` is pushed: `key++` only for an anonymous key. */
  function NextOrdinal(k: Key, n: nat): nat {
    if k.name.Index? then n + 1 else n
  }

  /** Flushes `path`, pushes key `k` and moves on to offset `next`. */
  function Emit(st: State, path: string, k: Key, next: nat): State {
    State(next, NextOrdinal(k, st.key), "", Flush(st.acc, path) + [Param(k)])
  }

  /**
   The key of a `:name` and/or `(pattern)` outside braces. The character `ch`
   read before it becomes the prefix exactly when `prefixes` contains it; an
   unnamed key takes the ordinal `key`; no pattern means the default one.
   */
  function ParamKey(o: ParseOptions, ch: string, name: Option<string>, pattern: Option<string>, key: nat,
                    modifier: string): (k: Key)
    ensures k.prefix == ch <==> ContainsInfix(Prefixes(o), ch)
    ensures k.prefix == "" || k.prefix == ch
    ensures k.suffix == "" && k.modifier == modifier
    ensures Truthy(name) ==> k.name == Named(name.value)
    ensures !Truthy(name) ==> k.name == Index(key)
    ensures Truthy(pattern) ==> k.pattern == pattern.value
    ensures !Truthy(pattern) ==> k.pattern == DefaultPattern(o)
  {
    assert StartsWith(Prefixes(o), "");
    Key(if Truthy(name) then Named(name.value) else Index(key),
        if ContainsInfix(Prefixes(o), ch) then ch else "", "",
        if Truthy(pattern) then pattern.value else DefaultPattern(o), modifier)
  }

  /**
   A `:name` and/or `(pattern)`: the pending literal is flushed and the key
   pushed. The `Char` before it is the key's prefix when `prefixes` contains
   it, and otherwise joins the literal; the modifier is the `Modifier` token
   after it, if any.
   */
  function ParamStep(ts: seq<LexToken>, o: ParseOptions, st: State): (nx: State)
    requires ValidTokens(ts) && st.i < |ts| && StartsParam(ts, st.i)
    ensures st.i < nx.i <= |ts|
    ensures nx.path == "" && |nx.acc| > 0 && nx.acc[|nx.acc| - 1].Param?
    ensures var h, k := Lead(ts, st.i), nx.acc[|nx.acc| - 1].key;
      var c := if ts[st.i].kind == Char then ts[st.i].value else "";
      && (ContainsInfix(Prefixes(o), c) ==> k.prefix == c && nx.acc == Flush(st.acc, st.path) + [Param(k)])
      && (!ContainsInfix(Prefixes(o), c) ==> k.prefix == "" && nx.acc == Flush(st.acc, st.path + c) + [Param(k)])
      && k.suffix == ""
      && k.modifier == (if ts[h.next].kind == Modifier then ts[h.next].value else "")
      && k.pattern == (if Truthy(h.pattern) then h.pattern.value else DefaultPattern(o))
      && k.name == (if Truthy(h.name) then Named(h.name.value) else Index(st.key))
      && nx.key == (if Truthy(h.name) then st.key else st.key + 1)
  {
    var h := Lead(ts, st.i);
    var c := OrEmpty(h.ch);
    var keep := ContainsInfix(Prefixes(o), c);
    var (mod, i4) := TryConsume(ts, h.next, Modifier);
    var k := ParamKey(o, c, h.name, h.pattern, st.key, OrEmpty(mod));
    Emit(st, if keep then st.path else st.path + c, k, i4)
  }

  /** The parts of a `{ prefix :name (pattern) suffix }` group opened at `j`, with the offsets between them; `close` is where `}` must be. */
  datatype Group = Group(prefix: string, name: Option<string>, pattern: Option<string>, suffix: string,
                         afterPrefix: nat, afterName: nat, afterPattern: nat, close: nat)

  function GroupParts(ts: seq<LexToken>, j: nat): (g: Group)
    requires Terminated(ts) && j < |ts| && ts[j].kind == Open
    ensures j < g.afterPrefix < |ts|
    ensures (g.name.Some? <==> ts[g.afterPrefix].kind == Name) && (g.name.Some? ==> g.name.value == ts[g.afterPrefix].value)
    ensures g.afterName == if g.name.Some? then g.afterPrefix + 1 else g.afterPrefix
    ensures g.afterName < |ts| && (g.pattern.Some? <==> ts[g.afterName].kind == Pattern)
    ensures g.pattern.Some? ==> g.pattern.value == ts[g.afterName].value
    ensures g.afterPattern == if g.pattern.Some? then g.afterName + 1 else g.afterName
    ensures g.afterPattern <= g.close < |ts| && (ts[g.close].kind == End || g.close + 1 < |ts|)
    ensures StopsAt(ts, j + 1, g.afterPrefix) && StopsAt(ts, g.afterPattern, g.close)
  {
    var (prefix, j1) := ConsumeText(ts, j + 1);
    var (name, j2) := TryConsume(ts, j1, Name);
    var (pattern, j3) := TryConsume(ts, j2, Pattern);
    var (suffix, j4) := ConsumeText(ts, j3);
    Group(prefix, name, pattern, suffix, j1, j2, j3, j4)
  }

  /** The group's prefix and suffix are the literal text before its name and before its `}`. */
  lemma {:induction false} GroupText(ts: seq<LexToken>, j: nat)
    requires Terminated(ts) && j < |ts| && ts[j].kind == Open
    ensures var g := GroupParts(ts, j);
      && g.prefix + CharTextFrom(ts, g.afterPrefix) == CharTextFrom(ts, j + 1)
      && g.suffix + CharTextFrom(ts, g.close) == CharTextFrom(ts, g.afterPattern)
  {
  }

  /** ... and they are read from runs of literal tokens only. */
  lemma {:induction false} GroupRuns(ts: seq<LexToken>, j: nat)
    requires Terminated(ts) && j < |ts| && ts[j].kind == Open
    ensures var g := GroupParts(ts, j);
      && LiteralRun(ts, j + 1, g.afterPrefix)
      && LiteralRun(ts, g.afterPattern, g.close)
  {
  }

  /**
   The key a group stands for, with the group's own prefix and suffix: named
   when it has a name (taking the default pattern when it has no pattern of its
   own), numbered when it has only a pattern, and nameless and patternless when
   it has neither.
   */
  function GroupKey(o: ParseOptions, key: nat, g: Group, modifier: string): (k: Key)
    ensures k.prefix == g.prefix && k.suffix == g.suffix && k.modifier == modifier
    ensures Truthy(g.name) ==> k.name == Named(g.name.value)
    ensures !Truthy(g.name) && Truthy(g.pattern) ==> k.name == Index(key)
    ensures !Truthy(g.name) && !Truthy(g.pattern) ==> k.name == Named("") && k.pattern == ""
    ensures Truthy(g.pattern) ==> k.pattern == g.pattern.value
    ensures Truthy(g.name) && !Truthy(g.pattern) ==> k.pattern == DefaultPattern(o)
  {
    var name, pattern := OrEmpty(g.name), OrEmpty(g.pattern);
    Key(if name != "" then Named(name) else if pattern != "" then Index(key) else Named(""),
        g.prefix, g.suffix, if name != "" && pattern == "" then DefaultPattern(o) else pattern, modifier)
  }

  /** An `Open` token: the group's parts, then `mustConsume("CLOSE")`, then an optional modifier. */
  function GroupStep(ts: seq<LexToken>, o: ParseOptions, st: State, j: nat): (r: Result<State, ParseError>)
    requires ValidTokens(ts) && j < |ts| && ts[j].kind == Open
    ensures r.Ok? ==> j < r.value.i <= |ts|
    ensures var c := GroupParts(ts, j).close;
      r.Err? <==> ts[c].kind != Close
    ensures var c := GroupParts(ts, j).close;
      r.Err? ==> r.error == Unexpected(ts[c].kind, ts[c].index, Close)
    ensures r.Ok? ==> r.value.path == "" && |r.value.acc| > 0 && r.value.acc[|r.value.acc| - 1].Param?
    ensures r.Ok? ==> var g, k := GroupParts(ts, j), r.value.acc[|r.value.acc| - 1].key;
      && r.value.acc == Flush(st.acc, st.path) + [Param(k)]
      && k.prefix == g.prefix && k.suffix == g.suffix
      && k.modifier == (if ts[g.close + 1].kind == Modifier then ts[g.close + 1].value else "")
      && k == GroupKey(o, st.key, g, k.modifier)
  {
    var g := GroupParts(ts, j);
    if ts[g.close].kind != Close then Err(Unexpected(ts[g.close].kind, ts[g.close].index, Close))
    else
      var mod := TryConsume(ts, g.close + 1, Modifier);
      var k := GroupKey(o, st.key, g, OrEmpty(mod.0));
      Ok(Emit(st, st.path, k, mod.1))
  }

  // ----- each iteration advances -----

  /** A modifier token's value is one of the three modifiers, so a key's modifier is one of four. */
  lemma {:induction false} ModifierValue(ts: seq<LexToken>, j: nat)
    requires ValidTokens(ts) && j < |ts|
    ensures var m := TryConsume(ts, j, Modifier).0; OrEmpty(m) in {"", "?", "*", "+"}
  {
    assert WellFormedToken(ts[j]);
    if ts[j].kind == Modifier {
      var v := ts[j].value;
      assert v == [v[0]];
    }
  }

  /** Pushing key `k` after flushing `path`: each of the route's accounts grows by just that much. */
  lemma {:induction false} PushKey(acc: seq<Token>, path: string, k: Key, prefixes: string)
    requires Coalesced(acc) && (|acc| == 0 || acc[|acc| - 1].Param?)
    ensures var r := Flush(acc, path) + [Param(k)];
      && LiteralText(r) == LiteralText(acc) + path + (k.prefix + k.suffix)
      && NamedIds(r) == NamedIds(acc) + NameOf(Param(k))
      && AnonOrdinals(r) == AnonOrdinals(acc) + AnonOf(Param(k))
      && Coalesced(r)
      && (KeysWellFormed(acc) && WellFormedKey(k) ==> KeysWellFormed(r))
      && (AllShaped(acc, prefixes) && Shaped(k, prefixes) ==> AllShaped(r, prefixes))
  {
    FlushKeeps(acc, path, prefixes);
    var f := Flush(acc, path);
    AppendToken(f, Param(k));
    AppendParam(f, k, prefixes);
  }

  /** Emitting a well-formed key, numbered when anonymous, keeps the loop invariant. */
  lemma {:induction false} EmitInv(ts: seq<LexToken>, st: State, path: string, k: Key, e: nat)
    requires Inv(ts, st) && st.i < e <= |ts|
    requires WellFormedKey(k) && (k.name.Index? ==> k.name.n == st.key)
    ensures Inv(ts, Emit(st, path, k, e))
  {
    assert |st.acc| == 0 || st.acc[|st.acc| - 1].Param?;
    PushKey(st.acc, path, k, "");
    NumberedAppend(AnonOrdinals(st.acc), AnonOf(Param(k)));
  }

  /** ... keeps every literal character: the flushed path and the key's prefix and suffix account for `c`. */
  lemma {:induction false} EmitText(ts: seq<LexToken>, st: State, path: string, k: Key, e: nat, c: string)
    requires Inv(ts, st) && st.i < e <= |ts|
    requires path + (k.prefix + k.suffix) == st.path + c
    requires CharTextFrom(ts, st.i) == c + CharTextFrom(ts, e)
    ensures var nx := Emit(st, path, k, e);
      LiteralText(nx.acc) + nx.path + CharTextFrom(ts, nx.i) == LiteralText(st.acc) + st.path + CharTextFrom(ts, st.i)
  {
    var nx := Emit(st, path, k, e);
    assert |st.acc| == 0 || st.acc[|st.acc| - 1].Param?;
    PushKey(st.acc, path, k, "");
    var L, P, C := LiteralText(st.acc), st.path, CharTextFrom(ts, e);
    ConcatAssoc(L, path, k.prefix + k.suffix);
    ConcatAssoc(L, P, c);
    ConcatAssoc(L + P, c, C);
    ConcatEmpty(LiteralText(nx.acc));
  }

  /** ... and every parameter name. */
  lemma {:induction false} EmitNames(ts: seq<LexToken>, st: State, path: string, k: Key, e: nat, ns: seq<string>)
    requires Inv(ts, st) && st.i < e <= |ts|
    requires NameOf(Param(k)) == ns
    requires NameValuesFrom(ts, st.i) == ns + NameValuesFrom(ts, e)
    ensures var nx := Emit(st, path, k, e);
      NamedIds(nx.acc) + NameValuesFrom(ts, nx.i) == NamedIds(st.acc) + NameValuesFrom(ts, st.i)
  {
    assert |st.acc| == 0 || st.acc[|st.acc| - 1].Param?;
    PushKey(st.acc, path, k, "");
    SeqAssoc(NamedIds(st.acc), ns, NameValuesFrom(ts, e));
  }

  lemma {:induction false} EmitShaped(ts: seq<LexToken>, st: State, path: string, k: Key, e: nat, prefixes: string)
    requires Inv(ts, st) && st.i < e <= |ts|
    requires AllShaped(st.acc, prefixes) && Shaped(k, prefixes)
    ensures AllShaped(Emit(st, path, k, e).acc, prefixes)
  {
    assert |st.acc| == 0 || st.acc[|st.acc| - 1].Param?;
    PushKey(st.acc, path, k, prefixes);
  }

  /**
   Flushing `path` and pushing key `k` advances the loop, given how the
   consumed tokens account for the literal text `c` and the names `ns`.
   */
  lemma {:induction false} KeyAdvances(ts: seq<LexToken>, o: ParseOptions, st: State, path: string, k: Key, e: nat,
                    c: string, ns: seq<string>)
    requires ValidTokens(ts) && Inv(ts, st) && st.i < e <= |ts|
    requires path + (k.prefix + k.suffix) == st.path + c
    requires WellFormedKey(k) && NameOf(Param(k)) == ns
    requires k.name.Index? ==> k.name.n == st.key
    requires CharTextFrom(ts, st.i) == c + CharTextFrom(ts, e)
    requires NameValuesFrom(ts, st.i) == ns + NameValuesFrom(ts, e)
    requires CountFrom(ts, st.i, Open) + CountFrom(ts, e, Close) == CountFrom(ts, st.i, Close) + CountFrom(ts, e, Open)
    requires CountFrom(ts, st.i, Open) == 0 ==> CountFrom(ts, e, Open) == 0 && Shaped(k, Prefixes(o))
    ensures Advances(ts, o, st, Emit(st, path, k, e))
  {
    EmitInv(ts, st, path, k, e);
    EmitText(ts, st, path, k, e, c);
    EmitNames(ts, st, path, k, e, ns);
    if CountFrom(ts, st.i, Open) == 0 && AllShaped(st.acc, Prefixes(o)) {
      EmitShaped(ts, st, path, k, e, Prefixes(o));
    }
  }

  /** Appending the next ordinal, or nothing, keeps a numbering 0, 1, 2, ... */
  lemma {:induction false} NumberedAppend(a: seq<nat>, b: seq<nat>)
    requires forall m :: 0 <= m < |a| ==> a[m] == m
    requires b == [] || b == [|a|]
    ensures forall m :: 0 <= m < |a + b| ==> (a + b)[m] == m
  {
  }

  lemma {:induction false} SeqAssoc(a: seq<string>, b: seq<string>, c: seq<string>)
    ensures (a + b) + c == a + (b + c)
  {
  }

  lemma {:induction false} TextAdvances(ts: seq<LexToken>, o: ParseOptions, st: State)
    requires ValidTokens(ts) && Inv(ts, st) && st.i < |ts|
    requires ts[st.i].kind == Char || ts[st.i].kind == EscapedChar
    ensures Advances(ts, o, st, TextStep(ts, st))
  {
    UnfoldChars(ts, st.i);
    UnfoldNames(ts, st.i);
    UnfoldCounts(ts, st.i);
    var v, L, P, C := ts[st.i].value, LiteralText(st.acc), st.path, CharTextFrom(ts, st.i + 1);
    ConcatAssoc(L, P + v, C);
    ConcatAssoc(P, v, C);
    ConcatAssoc(L, P, v + C);
  }

  /** Nothing but an ignored empty escape stands before the final `End`. */
  lemma {:induction false} AtEnd(ts: seq<LexToken>, i: nat, j: nat)
    requires j == |ts| - 1 && ts[j].kind == End
    requires j == i || (j == i + 1 && ts[i].kind == EscapedChar && ts[i].value == "")
    ensures CharTextFrom(ts, i) == "" && NameValuesFrom(ts, i) == []
    ensures CountFrom(ts, i, Open) == 0 && CountFrom(ts, i, Close) == 0
  {
    Unfold(ts, j);
    assert CharTextFrom(ts, j + 1) == "";
    if j != i { Unfold(ts, i); }
  }

  lemma {:induction false} EndAdvances(ts: seq<LexToken>, o: ParseOptions, st: State, j: nat)
    requires ValidTokens(ts) && Inv(ts, st) && st.i <= j < |ts| && ts[j].kind == End
    requires j == st.i || (j == st.i + 1 && ts[st.i].kind == EscapedChar && ts[st.i].value == "")
    ensures Advances(ts, o, st, State(j + 1, st.key, "", Flush(st.acc, st.path)))
  {
    assert j == |ts| - 1;
    AtEnd(ts, st.i, j);
    FlushKeeps(st.acc, st.path, Prefixes(o));
    var nx := State(j + 1, st.key, "", Flush(st.acc, st.path));
    assert LiteralText(nx.acc) + "" + "" == LiteralText(st.acc) + st.path + "";
    assert Inv(ts, nx);
  }

  /** Where a key outside braces ends: after the optional prefix character, name, pattern and modifier. */
  function ParamEnd(ts: seq<LexToken>, i: nat): (e: nat)
    requires Terminated(ts) && i < |ts|
    ensures e == TryConsume(ts, Lead(ts, i).next, Modifier).1
  {
    TryConsume(ts, Lead(ts, i).next, Modifier).1
  }

  lemma {:induction false} ParamChars(ts: seq<LexToken>, i: nat)
    requires Terminated(ts) && i < |ts|
    ensures CharTextFrom(ts, i) == OrEmpty(Lead(ts, i).ch) + CharTextFrom(ts, ParamEnd(ts, i))
  {
    var h := Lead(ts, i);
    var e := ParamEnd(ts, i);
    LeadChars(ts, i);
    assert CharTextFrom(ts, h.next) == CharTextFrom(ts, e) by {
      SilentChars(ts, h.next, e);
    }
  }

  lemma {:induction false} ParamNames(ts: seq<LexToken>, i: nat)
    requires Terminated(ts) && i < |ts|
    ensures var h := Lead(ts, i);
      NameValuesFrom(ts, i) == (if h.name.Some? then [h.name.value] else []) + NameValuesFrom(ts, ParamEnd(ts, i))
  {
    var h := Lead(ts, i);
    LeadNames(ts, i);
    if ParamEnd(ts, i) != h.next { UnfoldNames(ts, h.next); }
  }

  lemma {:induction false} ParamCounts(ts: seq<LexToken>, i: nat)
    requires Terminated(ts) && i < |ts|
    ensures CountFrom(ts, i, Open) == CountFrom(ts, ParamEnd(ts, i), Open)
    ensures CountFrom(ts, i, Close) == CountFrom(ts, ParamEnd(ts, i), Close)
  {
    var h := Lead(ts, i);
    LeadCounts(ts, i);
    if ParamEnd(ts, i) != h.next { UnfoldCounts(ts, h.next); }
  }

  /** A key outside braces is well formed, and prefix-shaped. */
  lemma {:induction false} ParamKeyShape(o: ParseOptions, name: Option<string>, pattern: Option<string>, key: nat,
                                         c: string, modifier: string)
    requires name.Some? ==> name.value != "" && forall m :: 0 <= m < |name.value| ==> IsNameChar(name.value[m])
    requires |c| <= 1 && modifier in {"", "?", "*", "+"}
    ensures var k := ParamKey(o, c, name, pattern, key, modifier);
      WellFormedKey(k) && Shaped(k, Prefixes(o))
  {
  }

  lemma {:induction false} ParamAdvances(ts: seq<LexToken>, o: ParseOptions, st: State)
    requires ValidTokens(ts) && Inv(ts, st) && st.i < |ts| && StartsParam(ts, st.i)
    ensures Advances(ts, o, st, ParamStep(ts, o, st))
  {
    var h := Lead(ts, st.i);
    var c := OrEmpty(h.ch);
    var keep := ContainsInfix(Prefixes(o), c);
    var mod := TryConsume(ts, h.next, Modifier);
    var k := ParamKey(o, c, h.name, h.pattern, st.key, OrEmpty(mod.0));
    var path := if keep then st.path else st.path + c;
    var e := ParamEnd(ts, st.i);
    var ns := if h.name.Some? then [h.name.value] else [];
    assert ParamStep(ts, o, st) == Emit(st, path, k, e);
    assert WellFormedKey(k) && Shaped(k, Prefixes(o)) && NameOf(Param(k)) == ns && (k.name.Index? ==> k.name.n == st.key) by {
      LeadValues(ts, st.i);
      ModifierValue(ts, h.next);
      ParamKeyShape(o, h.name, h.pattern, st.key, c, OrEmpty(mod.0));
    }
    assert path + (k.prefix + k.suffix) == st.path + c by {
      if keep { ConcatEmpty(c); } else { ConcatEmpty(st.path + c); }
    }
    assert CharTextFrom(ts, st.i) == c + CharTextFrom(ts, e)
      && NameValuesFrom(ts, st.i) == ns + NameValuesFrom(ts, e)
      && CountFrom(ts, st.i, Open) == CountFrom(ts, e, Open)
      && CountFrom(ts, st.i, Close) == CountFrom(ts, e, Close) by {
      ParamChars(ts, st.i);
      ParamNames(ts, st.i);
      ParamCounts(ts, st.i);
    }
    KeyAdvances(ts, o, st, path, k, e, c, ns);
  }

  /** Where a closed group ends: after its `}` and optional modifier. */
  function GroupEnd(ts: seq<LexToken>, j: nat): (e: nat)
    requires Terminated(ts) && j < |ts| && ts[j].kind == Open
    requires ts[GroupParts(ts, j).close].kind == Close
    ensures e == TryConsume(ts, GroupParts(ts, j).close + 1, Modifier).1
  {
    TryConsume(ts, GroupParts(ts, j).close + 1, Modifier).1
  }

  /** Literal text around silent stretches: the arithmetic behind `GroupChars`. */
  lemma {:induction false} CharsAround(ts: seq<LexToken>, j: nat, a: nat, b: nat, c: nat, e: nat, prefix: string, suffix: string)
    requires j < a <= b <= c <= e <= |ts| && ts[j].kind == Open
    requires prefix + CharTextFrom(ts, a) == CharTextFrom(ts, j + 1)
    requires suffix + CharTextFrom(ts, c) == CharTextFrom(ts, b)
    requires CharTextFrom(ts, a) == CharTextFrom(ts, b)
    requires CharTextFrom(ts, c) == CharTextFrom(ts, e)
    ensures CharTextFrom(ts, j) == (prefix + suffix) + CharTextFrom(ts, e)
  {
    UnfoldChars(ts, j);
    ConcatAssoc(prefix, suffix, CharTextFrom(ts, e));
  }

  lemma {:induction false} SlotChars(ts: seq<LexToken>, a: nat, m: nat, b: nat)
    requires a <= m <= b <= m + 1 <= a + 2 && b <= |ts|
    requires m == a || ts[a].kind == Name
    requires b == m || ts[m].kind == Pattern
    ensures CharTextFrom(ts, a) == CharTextFrom(ts, b)
  {
    if b != m { UnfoldChars(ts, m); }
    if m != a { UnfoldChars(ts, a); }
  }

  lemma {:induction false} CloseChars(ts: seq<LexToken>, c: nat, e: nat)
    requires c < e <= c + 2 && e <= |ts| && ts[c].kind == Close
    requires e == c + 1 || ts[c + 1].kind == Modifier
    ensures CharTextFrom(ts, c) == CharTextFrom(ts, e)
  {
    UnfoldChars(ts, c);
    if e != c + 1 { UnfoldChars(ts, c + 1); }
  }

  lemma {:induction false} GroupChars(ts: seq<LexToken>, j: nat)
    requires Terminated(ts) && j < |ts| && ts[j].kind == Open
    requires ts[GroupParts(ts, j).close].kind == Close
    ensures var g := GroupParts(ts, j);
      CharTextFrom(ts, j) == (g.prefix + g.suffix) + CharTextFrom(ts, GroupEnd(ts, j))
  {
    var g := GroupParts(ts, j);
    var e := GroupEnd(ts, j);
    assert g.prefix + CharTextFrom(ts, g.afterPrefix) == CharTextFrom(ts, j + 1)
        && g.suffix + CharTextFrom(ts, g.close) == CharTextFrom(ts, g.afterPattern) by {
      GroupText(ts, j);
    }
    assert CharTextFrom(ts, g.afterPrefix) == CharTextFrom(ts, g.afterPattern) by {
      SlotChars(ts, g.afterPrefix, g.afterName, g.afterPattern);
    }
    assert CharTextFrom(ts, g.close) == CharTextFrom(ts, e) by {
      CloseChars(ts, g.close, e);
    }
    CharsAround(ts, j, g.afterPrefix, g.afterPattern, g.close, e, g.prefix, g.suffix);
  }

  /** The name and pattern slots of a group or parameter: a name token contributes its value, a pattern nothing. */
  lemma {:induction false} SlotNames(ts: seq<LexToken>, a: nat, m: nat, b: nat, name: Option<string>)
    requires a <= m <= b <= |ts|
    requires m == if name.Some? then a + 1 else a
    requires name.Some? ==> ts[a].kind == Name && ts[a].value == name.value
    requires b == m || ts[m].kind == Pattern
    requires b <= m + 1
    ensures NameValuesFrom(ts, a) == (if name.Some? then [name.value] else []) + NameValuesFrom(ts, b)
  {
    if b != m { UnfoldNames(ts, m); }
    if name.Some? { UnfoldNames(ts, a); }
  }

  lemma {:induction false} SlotCounts(ts: seq<LexToken>, a: nat, m: nat, b: nat)
    requires a <= m <= b <= m + 1 <= a + 2 && b <= |ts|
    requires m == a || ts[a].kind == Name
    requires b == m || ts[m].kind == Pattern
    ensures CountFrom(ts, a, Open) == CountFrom(ts, b, Open)
    ensures CountFrom(ts, a, Close) == CountFrom(ts, b, Close)
  {
    if b != m { UnfoldCounts(ts, m); }
    if m != a { UnfoldCounts(ts, a); }
  }

  /** A closing brace and an optional modifier carry no name. */
  lemma {:induction false} CloseNames(ts: seq<LexToken>, c: nat, e: nat)
    requires c < e <= c + 2 && e <= |ts| && ts[c].kind == Close
    requires e == c + 1 || ts[c + 1].kind == Modifier
    ensures NameValuesFrom(ts, c) == NameValuesFrom(ts, e)
    ensures CountFrom(ts, c, Open) == CountFrom(ts, e, Open)
    ensures CountFrom(ts, c, Close) == 1 + CountFrom(ts, e, Close)
  {
    UnfoldNames(ts, c);
    UnfoldCounts(ts, c);
    if e != c + 1 {
      UnfoldNames(ts, c + 1);
      UnfoldCounts(ts, c + 1);
    }
  }

  /** Names around the literal runs of a group: the arithmetic behind `GroupNames`. */
  lemma {:induction false} NamesAround(ts: seq<LexToken>, j: nat, a: nat, b: nat, c: nat, e: nat, ns: seq<string>)
    requires j < a <= b <= c < e <= |ts| && ts[j].kind == Open
    requires LiteralRun(ts, j + 1, a)
    requires LiteralRun(ts, b, c)
    requires NameValuesFrom(ts, a) == ns + NameValuesFrom(ts, b)
    requires NameValuesFrom(ts, c) == NameValuesFrom(ts, e)
    ensures NameValuesFrom(ts, j) == ns + NameValuesFrom(ts, e)
  {
    UnfoldNames(ts, j);
    TextRun(ts, j + 1, a);
    TextRun(ts, b, c);
  }

  lemma {:induction false} CountsAround(ts: seq<LexToken>, j: nat, a: nat, b: nat, c: nat, e: nat)
    requires j < a <= b <= c < e <= |ts| && ts[j].kind == Open
    requires LiteralRun(ts, j + 1, a)
    requires LiteralRun(ts, b, c)
    requires CountFrom(ts, a, Open) == CountFrom(ts, b, Open)
    requires CountFrom(ts, a, Close) == CountFrom(ts, b, Close)
    requires CountFrom(ts, c, Open) == CountFrom(ts, e, Open)
    requires CountFrom(ts, c, Close) == 1 + CountFrom(ts, e, Close)
    ensures CountFrom(ts, j, Open) == 1 + CountFrom(ts, e, Open)
    ensures CountFrom(ts, j, Close) == 1 + CountFrom(ts, e, Close)
  {
    UnfoldCounts(ts, j);
    TextRun(ts, j + 1, a);
    TextRun(ts, b, c);
  }

  lemma {:induction false} GroupNames(ts: seq<LexToken>, j: nat)
    requires Terminated(ts) && j < |ts| && ts[j].kind == Open
    requires ts[GroupParts(ts, j).close].kind == Close
    ensures var g := GroupParts(ts, j);
      NameValuesFrom(ts, j) == (if g.name.Some? then [g.name.value] else []) + NameValuesFrom(ts, GroupEnd(ts, j))
  {
    var g := GroupParts(ts, j);
    var e := GroupEnd(ts, j);
    var ns := if g.name.Some? then [g.name.value] else [];
    assert LiteralRun(ts, j + 1, g.afterPrefix) && LiteralRun(ts, g.afterPattern, g.close) by {
      GroupRuns(ts, j);
    }
    assert NameValuesFrom(ts, g.afterPrefix) == ns + NameValuesFrom(ts, g.afterPattern) by {
      SlotNames(ts, g.afterPrefix, g.afterName, g.afterPattern, g.name);
    }
    assert NameValuesFrom(ts, g.close) == NameValuesFrom(ts, e) by {
      CloseNames(ts, g.close, e);
    }
    NamesAround(ts, j, g.afterPrefix, g.afterPattern, g.close, e, ns);
  }

  lemma {:induction false} GroupCounts(ts: seq<LexToken>, j: nat)
    requires Terminated(ts) && j < |ts| && ts[j].kind == Open
    requires ts[GroupParts(ts, j).close].kind == Close
    ensures CountFrom(ts, j, Open) == 1 + CountFrom(ts, GroupEnd(ts, j), Open)
    ensures CountFrom(ts, j, Close) == 1 + CountFrom(ts, GroupEnd(ts, j), Close)
  {
    GroupRuns(ts, j);
    var g := GroupParts(ts, j);
    var e := GroupEnd(ts, j);
    SlotCounts(ts, g.afterPrefix, g.afterName, g.afterPattern);
    CloseNames(ts, g.close, e);
    CountsAround(ts, j, g.afterPrefix, g.afterPattern, g.close, e);
  }

  /** A group's key is well formed. */
  lemma {:induction false} GroupKeyShape(o: ParseOptions, key: nat, g: Group, modifier: string)
    requires g.name.Some? ==> g.name.value != "" && forall m :: 0 <= m < |g.name.value| ==> IsNameChar(g.name.value[m])
    requires g.pattern.Some? ==> g.pattern.value != ""
    requires modifier in {"", "?", "*", "+"}
    ensures WellFormedKey(GroupKey(o, key, g, modifier))
  {
  }

  /** An ignored empty escape before a token carries nothing. */
  lemma {:induction false} EmptyEscapeSkip(ts: seq<LexToken>, i: nat, j: nat)
    requires i <= j < |ts|
    requires j == i || (j == i + 1 && ts[i].kind == EscapedChar && ts[i].value == "")
    ensures CharTextFrom(ts, i) == CharTextFrom(ts, j) && NameValuesFrom(ts, i) == NameValuesFrom(ts, j)
    ensures CountFrom(ts, i, Open) == CountFrom(ts, j, Open) && CountFrom(ts, i, Close) == CountFrom(ts, j, Close)
  {
    if j != i { Unfold(ts, i); }
  }

  /** What a closed group opened at `j`, reached from `i`, accounts for. */
  lemma {:induction false} GroupAccounts(ts: seq<LexToken>, i: nat, j: nat)
    requires Terminated(ts) && i <= j < |ts| && ts[j].kind == Open
    requires j == i || (j == i + 1 && ts[i].kind == EscapedChar && ts[i].value == "")
    requires ts[GroupParts(ts, j).close].kind == Close
    ensures var g, e := GroupParts(ts, j), GroupEnd(ts, j);
      && i < e
      && CharTextFrom(ts, i) == (g.prefix + g.suffix) + CharTextFrom(ts, e)
      && NameValuesFrom(ts, i) == (if g.name.Some? then [g.name.value] else []) + NameValuesFrom(ts, e)
      && CountFrom(ts, i, Open) == 1 + CountFrom(ts, e, Open)
      && CountFrom(ts, i, Close) == 1 + CountFrom(ts, e, Close)
  {
    EmptyEscapeSkip(ts, i, j);
    GroupChars(ts, j);
    GroupNames(ts, j);
    GroupCounts(ts, j);
  }

  /** The key a closed group opened at `j` stands for. */
  function ClosedGroupKey(ts: seq<LexToken>, o: ParseOptions, key: nat, j: nat): Key
    requires Terminated(ts) && j < |ts| && ts[j].kind == Open
    requires ts[GroupParts(ts, j).close].kind == Close
  {
    GroupKey(o, key, GroupParts(ts, j), OrEmpty(TryConsume(ts, GroupParts(ts, j).close + 1, Modifier).0))
  }

  /** A group's key is well formed, carries the group's name, and takes the next ordinal when anonymous. */
  lemma {:induction false} ClosedGroupKeyShape(ts: seq<LexToken>, o: ParseOptions, key: nat, j: nat)
    requires ValidTokens(ts) && j < |ts| && ts[j].kind == Open
    requires ts[GroupParts(ts, j).close].kind == Close
    ensures var g, k := GroupParts(ts, j), ClosedGroupKey(ts, o, key, j);
      && WellFormedKey(k)
      && NameOf(Param(k)) == (if g.name.Some? then [g.name.value] else [])
      && (k.name.Index? ==> k.name.n == key)
      && k.prefix == g.prefix && k.suffix == g.suffix
  {
    var g := GroupParts(ts, j);
    GroupValues(ts, j);
    GroupKeyShape(o, key, g, OrEmpty(TryConsume(ts, g.close + 1, Modifier).0));
  }

  /** The values a group reads are those the lexer promises: a name of name characters, a non-empty pattern, a modifier. */
  lemma {:induction false} GroupValues(ts: seq<LexToken>, j: nat)
    requires ValidTokens(ts) && j < |ts| && ts[j].kind == Open
    requires ts[GroupParts(ts, j).close].kind == Close
    ensures var g := GroupParts(ts, j);
      && (g.name.Some? ==> g.name.value != "" && forall m :: 0 <= m < |g.name.value| ==> IsNameChar(g.name.value[m]))
      && (g.pattern.Some? ==> g.pattern.value != "")
      && OrEmpty(TryConsume(ts, g.close + 1, Modifier).0) in {"", "?", "*", "+"}
  {
    var g := GroupParts(ts, j);
    assert g.name.Some? ==> WellFormedToken(ts[g.afterPrefix]);
    assert g.pattern.Some? ==> WellFormedToken(ts[g.afterName]);
    ModifierValue(ts, g.close + 1);
  }

  lemma {:induction false} GroupEmitAdvances(ts: seq<LexToken>, o: ParseOptions, st: State, j: nat)
    requires ValidTokens(ts) && Inv(ts, st) && st.i <= j < |ts| && ts[j].kind == Open
    requires j == st.i || (j == st.i + 1 && ts[st.i].kind == EscapedChar && ts[st.i].value == "")
    requires ts[GroupParts(ts, j).close].kind == Close
    ensures Advances(ts, o, st, Emit(st, st.path, ClosedGroupKey(ts, o, st.key, j), GroupEnd(ts, j)))
  {
    var g := GroupParts(ts, j);
    var k := ClosedGroupKey(ts, o, st.key, j);
    var ns := if g.name.Some? then [g.name.value] else [];
    var e := GroupEnd(ts, j);
    ClosedGroupKeyShape(ts, o, st.key, j);
    assert st.i < e && CharTextFrom(ts, st.i) == (g.prefix + g.suffix) + CharTextFrom(ts, e)
      && NameValuesFrom(ts, st.i) == ns + NameValuesFrom(ts, e)
      && CountFrom(ts, st.i, Open) == 1 + CountFrom(ts, e, Open)
      && CountFrom(ts, st.i, Close) == 1 + CountFrom(ts, e, Close) by {
      GroupAccounts(ts, st.i, j);
    }
    KeyAdvances(ts, o, st, st.path, k, e, g.prefix + g.suffix, ns);
  }

  lemma {:induction false} GroupAdvances(ts: seq<LexToken>, o: ParseOptions, st: State, j: nat)
    requires ValidTokens(ts) && Inv(ts, st) && st.i <= j < |ts| && ts[j].kind == Open
    requires j == st.i || (j == st.i + 1 && ts[st.i].kind == EscapedChar && ts[st.i].value == "")
    ensures GroupStep(ts, o, st, j).Ok? ==> Advances(ts, o, st, GroupStep(ts, o, st, j).value)
  {
    if ts[GroupParts(ts, j).close].kind == Close {
      assert GroupStep(ts, o, st, j) == Ok(Emit(st, st.path, ClosedGroupKey(ts, o, st.key, j), GroupEnd(ts, j)));
      GroupEmitAdvances(ts, o, st, j);
    }
  }

  lemma {:induction false} StepAdvances(ts: seq<LexToken>, o: ParseOptions, st: State)
    requires ValidTokens(ts) && Inv(ts, st) && st.i < |ts|
    ensures Step(ts, o, st).Ok? ==> Advances(ts, o, st, Step(ts, o, st).value)
    ensures Step(ts, o, st).Ok? ==> LayoutKept(ts, o, st, Step(ts, o, st).value)
  {
    StepLayout(ts, o, st);
    if StartsParam(ts, st.i) {
      ParamAdvances(ts, o, st);
    } else if IsText(ts[st.i]) {
      TextAdvances(ts, o, st);
    } else {
      var j := AfterEmptyEscape(ts, st.i);
      if ts[j].kind == Open {
        GroupAdvances(ts, o, st, j);
      } else if ts[j].kind == End {
        EndAdvances(ts, o, st, j);
      }
    }
  }

  // ----- the route the tokens describe, construct by construct -----

  /**
   The elements the tokens from `i` on describe, with `n` the next ordinal,
   read one construct at a time and without coalescing literals: a key outside
   braces is the character before it (inside the key as its prefix when that
   is one of `prefixes`, before it otherwise) and the key; a literal token is
   its character; a closed group is its key with the group's prefix and
   suffix; an ignored empty escape and the `End` are nothing. Reading stops at
   the first construct `parse` throws on.
   */
  function LayoutFrom(ts: seq<LexToken>, o: ParseOptions, i: nat, n: nat): seq<Ev>
    requires ValidTokens(ts) && i <= |ts|
    decreases |ts| - i
  {
    if i == |ts| then []
    else if StartsParam(ts, i) then
      var h := Lead(ts, i);
      var c := OrEmpty(h.ch);
      var k := ParamKey(o, c, h.name, h.pattern, n, OrEmpty(TryConsume(ts, h.next, Modifier).0));
      Chrs(if k.prefix == c then "" else c) + EvOf(Param(k)) + LayoutFrom(ts, o, ParamEnd(ts, i), NextOrdinal(k, n))
    else if IsText(ts[i]) then Chrs(ts[i].value) + LayoutFrom(ts, o, i + 1, n)
    else
      var j := AfterEmptyEscape(ts, i);
      if ts[j].kind == Open && ts[GroupParts(ts, j).close].kind == Close then
        var k := ClosedGroupKey(ts, o, n, j);
        EvOf(Param(k)) + LayoutFrom(ts, o, GroupEnd(ts, j), NextOrdinal(k, n))
      else if ts[j].kind == End then LayoutFrom(ts, o, j + 1, n)
      else []
  }

  lemma {:induction false} LayoutAtParam(ts: seq<LexToken>, o: ParseOptions, i: nat, n: nat)
    requires ValidTokens(ts) && i < |ts| && StartsParam(ts, i)
    ensures var h := Lead(ts, i);
      var c := OrEmpty(h.ch);
      var k := ParamKey(o, c, h.name, h.pattern, n, OrEmpty(TryConsume(ts, h.next, Modifier).0));
      LayoutFrom(ts, o, i, n)
        == Chrs(if k.prefix == c then "" else c) + EvOf(Param(k)) + LayoutFrom(ts, o, ParamEnd(ts, i), NextOrdinal(k, n))
  {
  }

  lemma {:induction false} LayoutAtText(ts: seq<LexToken>, o: ParseOptions, i: nat, n: nat)
    requires ValidTokens(ts) && i < |ts| && !StartsParam(ts, i) && IsText(ts[i])
    ensures LayoutFrom(ts, o, i, n) == Chrs(ts[i].value) + LayoutFrom(ts, o, i + 1, n)
  {
  }

  lemma {:induction false} LayoutAtGroup(ts: seq<LexToken>, o: ParseOptions, i: nat, n: nat, j: nat)
    requires ValidTokens(ts) && i < |ts| && !StartsParam(ts, i) && !IsText(ts[i])
    requires j == AfterEmptyEscape(ts, i) && ts[j].kind == Open
    requires ts[GroupParts(ts, j).close].kind == Close
    ensures LayoutFrom(ts, o, i, n)
         == EvOf(Param(ClosedGroupKey(ts, o, n, j))) + LayoutFrom(ts, o, GroupEnd(ts, j), NextOrdinal(ClosedGroupKey(ts, o, n, j), n))
  {
  }

  lemma {:induction false} LayoutAtEnd(ts: seq<LexToken>, o: ParseOptions, i: nat, n: nat, j: nat)
    requires ValidTokens(ts) && i < |ts| && !StartsParam(ts, i) && !IsText(ts[i])
    requires j == AfterEmptyEscape(ts, i) && ts[j].kind == End
    ensures LayoutFrom(ts, o, i, n) == []
  {
    assert j + 1 == |ts|;
  }

  /** The route so far, the pending literal and what the remaining tokens describe add up to the same elements. */
  predicate LayoutKept(ts: seq<LexToken>, o: ParseOptions, st: State, nx: State)
    requires ValidTokens(ts) && st.i <= |ts| && nx.i <= |ts|
  {
    Layout(nx.acc) + Chrs(nx.path) + LayoutFrom(ts, o, nx.i, nx.key)
      == Layout(st.acc) + Chrs(st.path) + LayoutFrom(ts, o, st.i, st.key)
  }

  /** Flushing `path` and pushing `k` appends the literal's characters and the key's elements. */
  lemma {:induction false} EmitLayout(acc: seq<Token>, path: string, k: Key)
    ensures Layout(Flush(acc, path) + [Param(k)]) == Layout(acc) + Chrs(path) + EvOf(Param(k))
  {
    AppendToken(Flush(acc, path), Param(k));
    if path != "" {
      AppendToken(acc, Text(path));
    } else {
      assert Chrs(path) == [];
    }
  }

  /** ... so an iteration that emits `k` after moving `drop` into the literal keeps the elements before `rest`. */
  lemma {:induction false} EmitKept(st: State, drop: string, k: Key, e: nat, rest: seq<Ev>)
    ensures var nx := Emit(st, st.path + drop, k, e);
      Layout(nx.acc) + Chrs(nx.path) + rest == Layout(st.acc) + Chrs(st.path) + (Chrs(drop) + EvOf(Param(k)) + rest)
  {
    var nx := Emit(st, st.path + drop, k, e);
    var A, E := Layout(st.acc), EvOf(Param(k));
    var P, D := Chrs(st.path), Chrs(drop);
    assert Layout(nx.acc) == A + Chrs(st.path + drop) + E by {
      EmitLayout(st.acc, st.path + drop, k);
    }
    assert Chrs(st.path + drop) == P + D by {
      ChrsAppend(st.path, drop);
    }
    assert Chrs(nx.path) == [];
    Regroup(A, P, D, E, rest);
  }

  lemma {:induction false} Regroup(a: seq<Ev>, p: seq<Ev>, d: seq<Ev>, e: seq<Ev>, rest: seq<Ev>)
    ensures (a + (p + d) + e) + [] + rest == a + p + (d + e + rest)
  {
  }

  lemma {:induction false} ParamLayout(ts: seq<LexToken>, o: ParseOptions, st: State)
    requires ValidTokens(ts) && st.i < |ts| && StartsParam(ts, st.i)
    ensures LayoutKept(ts, o, st, ParamStep(ts, o, st))
  {
    var h := Lead(ts, st.i);
    var c := OrEmpty(h.ch);
    var k := ParamKey(o, c, h.name, h.pattern, st.key, OrEmpty(TryConsume(ts, h.next, Modifier).0));
    var drop := if k.prefix == c then "" else c;
    var e := ParamEnd(ts, st.i);
    assert ParamStep(ts, o, st) == Emit(st, st.path + drop, k, e) by {
      if ContainsInfix(Prefixes(o), c) { assert st.path + drop == st.path; }
    }
    EmitKept(st, drop, k, e, LayoutFrom(ts, o, e, NextOrdinal(k, st.key)));
    LayoutAtParam(ts, o, st.i, st.key);
  }

  lemma {:induction false} TextLayout(ts: seq<LexToken>, o: ParseOptions, st: State)
    requires ValidTokens(ts) && st.i < |ts| && !StartsParam(ts, st.i) && IsText(ts[st.i])
    ensures LayoutKept(ts, o, st, TextStep(ts, st))
  {
    var v := ts[st.i].value;
    var nx := TextStep(ts, st);
    var A, rest := Layout(st.acc), LayoutFrom(ts, o, st.i + 1, st.key);
    assert nx == State(st.i + 1, st.key, st.path + v, st.acc);
    assert Chrs(nx.path) == Chrs(st.path) + Chrs(v) by {
      ChrsAppend(st.path, v);
    }
    assert Chrs(v) + rest == LayoutFrom(ts, o, st.i, st.key) by {
      LayoutAtText(ts, o, st.i, st.key);
    }
    Shift(A, Chrs(st.path), Chrs(v), rest);
  }

  lemma {:induction false} Shift(a: seq<Ev>, p: seq<Ev>, v: seq<Ev>, rest: seq<Ev>)
    ensures a + (p + v) + rest == a + p + (v + rest)
  {
  }

  lemma {:induction false} GroupLayout(ts: seq<LexToken>, o: ParseOptions, st: State, j: nat)
    requires ValidTokens(ts) && st.i < |ts| && !StartsParam(ts, st.i) && !IsText(ts[st.i])
    requires j == AfterEmptyEscape(ts, st.i) && ts[j].kind == Open
    requires ts[GroupParts(ts, j).close].kind == Close
    ensures LayoutKept(ts, o, st, Emit(st, st.path, ClosedGroupKey(ts, o, st.key, j), GroupEnd(ts, j)))
  {
    var k := ClosedGroupKey(ts, o, st.key, j);
    assert st.path + "" == st.path;
    EmitKept(st, "", k, GroupEnd(ts, j), LayoutFrom(ts, o, GroupEnd(ts, j), NextOrdinal(k, st.key)));
    assert Chrs("") + EvOf(Param(k)) == EvOf(Param(k));
    LayoutAtGroup(ts, o, st.i, st.key, j);
  }

  lemma {:induction false} EndLayout(ts: seq<LexToken>, o: ParseOptions, st: State, j: nat)
    requires ValidTokens(ts) && st.i < |ts| && !StartsParam(ts, st.i) && !IsText(ts[st.i])
    requires j == AfterEmptyEscape(ts, st.i) && ts[j].kind == End
    ensures LayoutKept(ts, o, st, State(j + 1, st.key, "", Flush(st.acc, st.path)))
  {
    LayoutAtEnd(ts, o, st.i, st.key, j);
    assert j + 1 == |ts|;
    if st.path != "" {
      AppendToken(st.acc, Text(st.path));
    }
    assert Chrs("") == [];
  }

  /** Each iteration keeps the elements: the route it builds is the one the tokens describe. */
  lemma {:induction false} StepLayout(ts: seq<LexToken>, o: ParseOptions, st: State)
    requires ValidTokens(ts) && Inv(ts, st) && st.i < |ts|
    ensures Step(ts, o, st).Ok? ==> LayoutKept(ts, o, st, Step(ts, o, st).value)
  {
    if StartsParam(ts, st.i) {
      ParamLayout(ts, o, st);
    } else if IsText(ts[st.i]) {
      TextLayout(ts, o, st);
    } else {
      var j := AfterEmptyEscape(ts, st.i);
      if ts[j].kind == Open {
        if ts[GroupParts(ts, j).close].kind == Close {
          assert Step(ts, o, st) == Ok(Emit(st, st.path, ClosedGroupKey(ts, o, st.key, j), GroupEnd(ts, j)));
          GroupLayout(ts, o, st, j);
        }
      } else if ts[j].kind == End {
        EndLayout(ts, o, st, j);
      }
    }
  }

  /** The loop itself, run to the end of the tokens or to the first error. */
  function ParseLoop(ts: seq<LexToken>, o: ParseOptions, st: State): (r: Result<seq<Token>, ParseError>)
    requires ValidTokens(ts) && Inv(ts, st)
    ensures r.Ok? ==> Coalesced(r.value) && Numbered(r.value) && KeysWellFormed(r.value)
    ensures r.Ok? ==> LiteralText(r.value) == LiteralText(st.acc) + st.path + CharTextFrom(ts, st.i)
    ensures r.Ok? ==> NamedIds(r.value) == NamedIds(st.acc) + NameValuesFrom(ts, st.i)
    ensures r.Ok? ==> CountFrom(ts, st.i, Open) == CountFrom(ts, st.i, Close)
    ensures r.Ok? && CountFrom(ts, st.i, Open) == 0 && AllShaped(st.acc, Prefixes(o)) ==>
      AllShaped(r.value, Prefixes(o))
    ensures r.Ok? ==> Layout(r.value) == Layout(st.acc) + Chrs(st.path) + LayoutFrom(ts, o, st.i, st.key)
    ensures r.Err? <==> ParseFault(ts, st.i).Some?
    ensures r.Err? ==> r.error == ParseFault(ts, st.i).value
    decreases |ts| - st.i
  {
    if st.i == |ts| then
      assert Chrs(st.path) == [];
      Ok(st.acc)
    else
      match Step(ts, o, st)
      case Err(e) => Err(e)
      case Ok(next) =>
        assert Inv(ts, next) && st.i < next.i by {
          StepAdvances(ts, o, st);
        }
        var r := ParseLoop(ts, o, next);
        if r.Ok? then
          LoopCarries(ts, o, st, next, r.value);
          r
        else r
  }

  /** What the loop promises about the route `r` it returns from state `st`. */
  predicate LoopPromise(ts: seq<LexToken>, o: ParseOptions, st: State, r: seq<Token>)
    requires ValidTokens(ts) && st.i <= |ts|
  {
    && Coalesced(r) && Numbered(r) && KeysWellFormed(r)
    && LiteralText(r) == LiteralText(st.acc) + st.path + CharTextFrom(ts, st.i)
    && NamedIds(r) == NamedIds(st.acc) + NameValuesFrom(ts, st.i)
    && CountFrom(ts, st.i, Open) == CountFrom(ts, st.i, Close)
    && (CountFrom(ts, st.i, Open) == 0 && AllShaped(st.acc, Prefixes(o)) ==> AllShaped(r, Prefixes(o)))
    && Layout(r) == Layout(st.acc) + Chrs(st.path) + LayoutFrom(ts, o, st.i, st.key)
  }

  /** What the loop promises from the state after one iteration, it promises from the state before. */
  lemma {:induction false} LoopCarries(ts: seq<LexToken>, o: ParseOptions, st: State, next: State, r: seq<Token>)
    requires ValidTokens(ts) && Inv(ts, st) && st.i < |ts| && Step(ts, o, st) == Ok(next)
    requires next.i <= |ts| && LoopPromise(ts, o, next, r)
    ensures LoopPromise(ts, o, st, r)
  {
    StepAdvances(ts, o, st);
  }

  /**
   `parse(str, options)`: a lexer error passes through; a route it returns
   keeps every literal character and every parameter name of the pattern, in
   order, and the pattern's braces are balanced (an unclosed `{` is an error).
   A pattern that lexes fails exactly at the first construct `ParseFault` finds.
   */
  function Parse(s: string, o: ParseOptions): (r: Result<seq<Token>, ParseError>)
    ensures Lex(s).Err? ==> r == Err(LexFailure(Lex(s).error))
    ensures r.Ok? ==> Coalesced(r.value) && Numbered(r.value) && KeysWellFormed(r.value)
    ensures r.Ok? ==> Lex(s).Ok?
    ensures r.Ok? ==> LiteralText(r.value) == CharTextFrom(Lex(s).value, 0)
    ensures r.Ok? ==> NamedIds(r.value) == NameValuesFrom(Lex(s).value, 0)
    ensures r.Ok? ==> CountFrom(Lex(s).value, 0, Open) == CountFrom(Lex(s).value, 0, Close)
    ensures r.Ok? ==> Layout(r.value) == LayoutFrom(Lex(s).value, o, 0, 0)
    ensures Lex(s).Ok? ==> (r.Ok? <==> ParseFault(Lex(s).value, 0).None?)
    ensures Lex(s).Ok? && r.Err? ==> r.error == ParseFault(Lex(s).value, 0).value
  {
    match Lex(s)
    case Err(e) => Err(LexFailure(e))
    case Ok(ts) =>
      var st := State(0, 0, "", []);
      assert Layout(st.acc) + Chrs(st.path) == [] && LiteralText(st.acc) + st.path == "" && NamedIds(st.acc) == [];
      ParseLoop(ts, o, st)
  }

  // ----- a coalesced route is fixed by its elements -----

  /** `Parse` returns the one coalesced route whose elements are those the tokens describe. */
  lemma {:induction false} ParseIs(s: string, o: ParseOptions, r: seq<Token>)
    requires Parse(s, o).Ok?
    ensures Parse(s, o) == Ok(r) <==> Coalesced(r) && Layout(r) == LayoutFrom(Lex(s).value, o, 0, 0)
  {
    if Coalesced(r) && Layout(r) == LayoutFrom(Lex(s).value, o, 0, 0) {
      LayoutDetermines(r, Parse(s, o).value);
    }
  }

  /** The same for the loop: its route is the one coalesced route that continues what the state holds. */
  lemma {:induction false} ParseLoopIs(ts: seq<LexToken>, o: ParseOptions, st: State, r: seq<Token>)
    requires ValidTokens(ts) && Inv(ts, st) && ParseLoop(ts, o, st).Ok?
    ensures ParseLoop(ts, o, st) == Ok(r)
        <==> Coalesced(r) && Layout(r) == Layout(st.acc) + Chrs(st.path) + LayoutFrom(ts, o, st.i, st.key)
  {
    if Coalesced(r) && Layout(r) == Layout(st.acc) + Chrs(st.path) + LayoutFrom(ts, o, st.i, st.key) {
      LayoutDetermines(r, ParseLoop(ts, o, st).value);
    }
  }

  /** Two coalesced routes with the same elements are the same route. */
  lemma {:induction false} LayoutDetermines(a: seq<Token>, b: seq<Token>)
    requires Coalesced(a) && Coalesced(b) && Layout(a) == Layout(b)
    ensures a == b
    decreases |a| + |b|
  {
    if |a| == 0 && |b| > 0 {
      LayoutNonEmpty(b);
    } else if |a| > 0 && |b| == 0 {
      LayoutNonEmpty(a);
    } else if |a| > 0 {
      var a1, b1 := a[..|a| - 1], b[..|b| - 1];
      LastAgree(a, b);
      LayoutDetermines(a1, b1);
      assert a == a1 + [a[|a| - 1]] && b == b1 + [b[|b| - 1]];
    }
  }

  /** ... by peeling off the last token, which the elements fix. */
  lemma {:induction false} LastAgree(a: seq<Token>, b: seq<Token>)
    requires Coalesced(a) && Coalesced(b) && Layout(a) == Layout(b) && |a| > 0 && |b| > 0
    ensures a[|a| - 1] == b[|b| - 1] && Coalesced(a[..|a| - 1]) && Coalesced(b[..|b| - 1])
    ensures Layout(a[..|a| - 1]) == Layout(b[..|b| - 1])
  {
    var x, y := a[|a| - 1], b[|b| - 1];
    if x.Param? && y.Param? {
      KeysAgree(a, b);
    } else if x.Param? {
      KeyThenText(a, b);
    } else if y.Param? {
      KeyThenText(b, a);
    } else {
      TextsAgree(a, b);
    }
  }

  lemma {:induction false} ChrsIndex(x: string)
    ensures |Chrs(x)| == |x| && forall m :: 0 <= m < |x| ==> Chrs(x)[m] == Chr(x[m])
    decreases |x|
  {
    if |x| > 0 {
      ChrsIndex(x[1..]);
    }
  }

  /** How many literal characters close a sequence of elements. */
  function Trail(l: seq<Ev>): nat
    decreases |l|
  {
    if |l| == 0 || l[|l| - 1].Slot? then 0 else Trail(l[..|l| - 1]) + 1
  }

  lemma {:induction false} TrailAfterSlot(e: seq<Ev>, k: Key, x: string)
    ensures Trail(e + [Slot(k)] + Chrs(x)) == |x|
    decreases |x|
  {
    if |x| > 0 {
      var x0, c := x[..|x| - 1], x[|x| - 1];
      assert x == x0 + [c];
      ChrsAppend(x0, [c]);
      assert Chrs([c]) == [Chr(c)];
      var l := e + [Slot(k)] + Chrs(x);
      assert l[..|l| - 1] == e + [Slot(k)] + Chrs(x0);
      TrailAfterSlot(e, k, x0);
    }
  }

  /** The last key of a sequence of elements, what precedes it and the characters after it are read off the end. */
  lemma {:induction false} LastSlot(e: seq<Ev>, k: Key, x: string, e': seq<Ev>, k': Key, x': string)
    requires e + [Slot(k)] + Chrs(x) == e' + [Slot(k')] + Chrs(x')
    ensures e == e' && k == k' && x == x'
  {
    var l := e + [Slot(k)] + Chrs(x);
    TrailAfterSlot(e, k, x);
    TrailAfterSlot(e', k', x');
    ChrsIndex(x);
    ChrsIndex(x');
    assert e == l[..|e|] == e';
    assert l[|e|] == Slot(k) == Slot(k');
    assert Chrs(x) == l[|e| + 1..] == Chrs(x');
    forall m | 0 <= m < |x|
      ensures x[m] == x'[m]
    {
      assert Chrs(x)[m] == Chr(x[m]);
    }
  }

  /** Characters alone hold no key. */
  lemma {:induction false} NoSlotInChrs(e: seq<Ev>, k: Key, x: string, t: string)
    ensures e + [Slot(k)] + Chrs(x) != Chrs(t)
  {
    ChrsIndex(t);
    var l := e + [Slot(k)] + Chrs(x);
    assert l[|e|] == Slot(k);
  }

  lemma {:induction false} LayoutNonEmpty(a: seq<Token>)
    requires Coalesced(a) && |a| > 0
    ensures |Layout(a)| > 0
  {
    match a[|a| - 1]
    case Text(t) => ChrsIndex(t);
    case Param(_) =>
  }

  /** A route ending in a key: its elements end in the key's prefix, the key and its suffix. */
  lemma {:induction false} KeyLast(a: seq<Token>)
    requires |a| > 0 && a[|a| - 1].Param?
    ensures var k := a[|a| - 1].key;
      Layout(a) == Layout(a[..|a| - 1]) + Chrs(k.prefix) + [Slot(k)] + Chrs(k.suffix)
  {
  }

  /** A route ending in text after a key: its elements end in that key, the key's suffix and the text. */
  lemma {:induction false} TextAfterKey(a: seq<Token>)
    requires |a| >= 2 && a[|a| - 1].Text? && a[|a| - 2].Param?
    ensures var k := a[|a| - 2].key;
      Layout(a) == Layout(a[..|a| - 2]) + Chrs(k.prefix) + [Slot(k)] + Chrs(k.suffix + a[|a| - 1].text)
  {
    var a2, k, t := a[..|a| - 2], a[|a| - 2].key, a[|a| - 1].text;
    assert a == a2 + [Param(k)] + [Text(t)];
    KeyThenTextLayout(a2, k, t);
  }

  lemma {:induction false} KeyThenTextLayout(a: seq<Token>, k: Key, t: string)
    ensures Layout(a + [Param(k)] + [Text(t)]) == Layout(a) + Chrs(k.prefix) + [Slot(k)] + Chrs(k.suffix + t)
  {
    var a1 := a + [Param(k)];
    var a2 := a1 + [Text(t)];
    assert a2[..|a2| - 1] == a1 && a1[..|a1| - 1] == a;
    ChrsAppend(k.suffix, t);
  }

  /** In a coalesced route, text is not empty and what precedes it is a key, and every prefix is coalesced. */
  lemma {:induction false} CoalescedEnd(a: seq<Token>)
    requires Coalesced(a) && |a| > 0
    ensures Coalesced(a[..|a| - 1])
    ensures a[|a| - 1].Text? ==> a[|a| - 1].text != "" && (|a| >= 2 ==> a[|a| - 2].Param?)
  {
    if a[|a| - 1].Text? && |a| >= 2 {
      var m := |a| - 2;
      assert a[m + 1].Text?;
    }
  }

  /** Two coalesced routes with the same elements that both end in a key end in the same key. */
  lemma {:induction false} KeysAgree(a: seq<Token>, b: seq<Token>)
    requires Coalesced(a) && Coalesced(b) && Layout(a) == Layout(b)
    requires |a| > 0 && |b| > 0 && a[|a| - 1].Param? && b[|b| - 1].Param?
    ensures a[|a| - 1] == b[|b| - 1] && Coalesced(a[..|a| - 1]) && Coalesced(b[..|b| - 1])
    ensures Layout(a[..|a| - 1]) == Layout(b[..|b| - 1])
  {
    var k, k' := a[|a| - 1].key, b[|b| - 1].key;
    var e, e' := Layout(a[..|a| - 1]), Layout(b[..|b| - 1]);
    KeyLast(a);
    KeyLast(b);
    LastSlot(e + Chrs(k.prefix), k, k.suffix, e' + Chrs(k'.prefix), k', k'.suffix);
    assert e == (e + Chrs(k.prefix))[..|e|];
    assert e' == (e' + Chrs(k'.prefix))[..|e'|];
    CoalescedEnd(a);
    CoalescedEnd(b);
  }

  /** A coalesced route ending in a key and one ending in text never have the same elements. */
  lemma {:induction false} KeyThenText(a: seq<Token>, b: seq<Token>)
    requires Coalesced(a) && Coalesced(b)
    requires |a| > 0 && |b| > 0 && a[|a| - 1].Param? && b[|b| - 1].Text?
    ensures Layout(a) != Layout(b)
  {
    var k, t := a[|a| - 1].key, b[|b| - 1].text;
    var e := Layout(a[..|a| - 1]) + Chrs(k.prefix);
    KeyLast(a);
    CoalescedEnd(b);
    if |b| == 1 {
      assert Layout(b) == Chrs(t);
      NoSlotInChrs(e, k, k.suffix, t);
    } else if Layout(a) == Layout(b) {
      var k' := b[|b| - 2].key;
      TextAfterKey(b);
      LastSlot(e, k, k.suffix, Layout(b[..|b| - 2]) + Chrs(k'.prefix), k', k'.suffix + t);
    }
  }

  /** Two coalesced routes with the same elements that both end in text end in the same text. */
  lemma {:induction false} TextsAgree(a: seq<Token>, b: seq<Token>)
    requires Coalesced(a) && Coalesced(b) && Layout(a) == Layout(b)
    requires |a| > 0 && |b| > 0 && a[|a| - 1].Text? && b[|b| - 1].Text?
    ensures a[|a| - 1] == b[|b| - 1] && Coalesced(a[..|a| - 1]) && Coalesced(b[..|b| - 1])
    ensures Layout(a[..|a| - 1]) == Layout(b[..|b| - 1])
  {
    var t, t' := a[|a| - 1].text, b[|b| - 1].text;
    CoalescedEnd(a);
    CoalescedEnd(b);
    if |a| == 1 && |b| == 1 {
      assert Layout(a) == Chrs(t) && Layout(b) == Chrs(t');
      ChrsSame(t, t');
    } else if |a| == 1 {
      var k' := b[|b| - 2].key;
      TextAfterKey(b);
      assert Layout(a) == Chrs(t);
      NoSlotInChrs(Layout(b[..|b| - 2]) + Chrs(k'.prefix), k', k'.suffix + t', t);
    } else if |b| == 1 {
      var k := a[|a| - 2].key;
      TextAfterKey(a);
      assert Layout(b) == Chrs(t');
      NoSlotInChrs(Layout(a[..|a| - 2]) + Chrs(k.prefix), k, k.suffix + t, t');
    } else {
      TextsAfterKeys(a, b);
    }
  }

  lemma {:induction false} ChrsSame(t: string, t': string)
    requires Chrs(t) == Chrs(t')
    ensures t == t'
  {
    ChrsIndex(t);
    ChrsIndex(t');
    forall m | 0 <= m < |t|
      ensures t[m] == t'[m]
    {
      assert Chrs(t)[m] == Chr(t[m]);
    }
  }

  lemma {:induction false} TextsAfterKeys(a: seq<Token>, b: seq<Token>)
    requires Layout(a) == Layout(b)
    requires |a| >= 2 && |b| >= 2 && a[|a| - 1].Text? && b[|b| - 1].Text?
    requires a[|a| - 2].Param? && b[|b| - 2].Param?
    ensures a[|a| - 1] == b[|b| - 1]
    ensures Layout(a[..|a| - 1]) == Layout(b[..|b| - 1])
  {
    var t, t' := a[|a| - 1].text, b[|b| - 1].text;
    var k, k' := a[|a| - 2].key, b[|b| - 2].key;
    var a1, b1 := a[..|a| - 1], b[..|b| - 1];
    TextAfterKey(a);
    TextAfterKey(b);
    LastSlot(Layout(a[..|a| - 2]) + Chrs(k.prefix), k, k.suffix + t,
             Layout(b[..|b| - 2]) + Chrs(k'.prefix), k', k'.suffix + t');
    assert t == (k.suffix + t)[|k.suffix|..] && t' == (k'.suffix + t')[|k'.suffix|..];
    assert a1[..|a1| - 1] == a[..|a| - 2] && b1[..|b1| - 1] == b[..|b| - 2];
    KeyLast(a1);
    KeyLast(b1);
  }

  /** A token sequence whose source text has no `{` holds no `Open` token. */
  lemma {:induction false} NoBraceNoOpen(ts: seq<LexToken>, i: nat)
    requires ValidTokens(ts) && i <= |ts|
    requires forall k :: 0 <= k < |Unlex(ts[i..])| ==> Unlex(ts[i..])[k] != '{'
    ensures CountFrom(ts, i, Open) == 0
    decreases |ts| - i
  {
    if i < |ts| {
      var head, tail := SourceText(ts[i]), Unlex(ts[i + 1..]);
      assert ts[i..][1..] == ts[i + 1..];
      assert Unlex(ts[i..]) == head + tail;
      assert ts[i].kind != Open by {
        assert WellFormedToken(ts[i]);
        assert |head| > 0 ==> Unlex(ts[i..])[0] == head[0];
      }
      forall k | 0 <= k < |tail|
        ensures tail[k] != '{'
      {
        assert Unlex(ts[i..])[|head| + k] == tail[k];
      }
      NoBraceNoOpen(ts, i + 1);
      UnfoldCounts(ts, i);
    }
  }

  /**
   Without braces, every key is of the plain kind: no suffix, and a prefix that
   is empty or one of the prefix characters.
   */
  lemma {:induction false} ParseWithoutBracesShaped(s: string, o: ParseOptions)
    requires forall k :: 0 <= k < |s| ==> s[k] != '{'
    ensures Parse(s, o).Ok? ==> AllShaped(Parse(s, o).value, Prefixes(o))
  {
    if Lex(s).Ok? {
      var ts := Lex(s).value;
      assert ts[0..] == ts;
      NoBraceNoOpen(ts, 0);
    }
  }

  /** Tokens that are only `Char`, `Name` and `Pattern` before the `End` hold no construct `parse` throws on. */
  lemma {:induction false} PlainTokensParse(ts: seq<LexToken>, i: nat)
    requires ValidTokens(ts) && i <= |ts|
    requires forall k :: 0 <= k < |ts| - 1 ==> ts[k].kind in {Char, Name, Pattern}
    ensures ParseFault(ts, i).None?
    decreases |ts| - i
  {
    if i < |ts| {
      assert !Throws(ts, i) by {
        LeadValues(ts, i);
      }
      PlainTokensParse(ts, ConstructEnd(ts, i));
    }
  }

  /**
   A pattern without braces, modifiers and backslashes is made of literal
   characters, `:name`s and `(pattern)`s, so it parses exactly when it lexes.
   */
  lemma {:induction false} ParsesWhenLexes(s: string, o: ParseOptions)
    requires forall k :: 0 <= k < |s| ==> !IsModifierChar(s[k]) && s[k] !in {'{', '}', '\\'}
    ensures Parse(s, o).Ok? <==> Lex(s).Ok?
  {
    if Lex(s).Ok? {
      var ts := Lex(s).value;
      forall k | 0 <= k < |ts| - 1
        ensures ts[k].kind in {Char, Name, Pattern}
      {
        assert ts[k].kind == KindOf(s[ts[k].index]);
      }
      PlainTokensParse(ts, 0);
    }
  }

  /** `/product/:productId`, one of the routes the router's self-test registers, parses. */
  lemma {:induction false} ProductRouteParses()
    ensures Parse("/product/:productId", DefaultOptions).Ok?
  {
    var s := "/product/:productId";
    assert NamesOnly(s) by { ProductRouteNames(); }
    assert forall k :: 0 <= k < |s| ==> !IsModifierChar(s[k]) && s[k] !in {'{', '}', '\\'} by {
      ProductRouteLiteral();
    }
    LexNamesSucceeds(s, 0);
    ParsesWhenLexes(s, DefaultOptions);
  }

  lemma {:induction false} ProductRouteNames()
    ensures NamesOnly("/product/:productId")
  {
  }

  lemma {:induction false} ProductRouteLiteral()
    ensures var s := "/product/:productId";
      forall k :: 0 <= k < |s| ==> !IsModifierChar(s[k]) && s[k] !in {'{', '}', '\\'}
  {
  }

  /** The tokens of `/:id(*)`. */
  function StarTokens(): seq<LexToken> {
    [LexToken(Char, 0, "/"), LexToken(Name, 1, "id"), LexToken(Pattern, 4, "*"), LexToken(End, 7, "")]
  }

  /** `*` keeps a group opened once open, and opens or closes none. */
  lemma {:induction false} StarInside()
    ensures Inside("*", 1) && Nest("*") == 0
  {
    assert "*"[1..] == "";
  }

  /** The `(*)` of `/:id(*)` is a pattern token holding `*`. */
  lemma {:induction false} StarPatternToken()
    ensures NextToken("/:id(*)", 4) == Ok((StarTokens()[2], 7))
  {
    var src := "/:id(*)";
    assert src[4] == '(' && src[5] == '*' && src[6] == ')';
    assert ScanOutcome(src, 4, 5, 1, Ok(7)) by {
      assert src[5..6] == "*";
      StarInside();
    }
    PatternClosesAt(src, 4, 7);
    assert src[5..6] == "*";
  }

  /** The `:id` of `/:id(*)` is a name token. */
  lemma {:induction false} StarNameToken()
    ensures NextToken("/:id(*)", 1) == Ok((StarTokens()[1], 4))
  {
    var src := "/:id(*)";
    assert IsNameChar(src[2]) && NameEnd(src, 2) == 4;
    assert src[2..4] == "id";
  }

  /** The `/` of `/:id(*)` is a character token. */
  lemma {:induction false} StarCharToken()
    ensures NextToken("/:id(*)", 0) == Ok((StarTokens()[0], 1))
  {
    var src := "/:id(*)";
    assert src[0] == '/' && !IsModifierChar(src[0]);
  }

  /** The lexer's recursion as one step: the first token, then the tokens from where the second starts. */
  lemma {:induction false} LexCons(s: string, i: nat, ts: seq<LexToken>)
    requires i < |s| && !(s[i] == '\\' && i + 1 == |s|) && |ts| > 1 && ts[1].index <= |s|
    requires NextToken(s, i) == Ok((ts[0], ts[1].index)) && LexFrom(s, ts[1].index) == Ok(ts[1..])
    ensures LexFrom(s, i) == Ok(ts)
  {
    assert [ts[0]] + ts[1..] == ts;
  }

  /** From the `(`, `/:id(*)` lexes to the pattern token and the `End`. */
  lemma {:induction false} LexStarTail()
    ensures LexFrom("/:id(*)", 4) == Ok(StarTokens()[2..])
  {
    var ts := StarTokens()[2..];
    assert LexFrom("/:id(*)", 7) == Ok(ts[1..]);
    StarPatternToken();
    LexCons("/:id(*)", 4, ts);
  }

  /** From the `:`, `/:id(*)` lexes to the name, the pattern token and the `End`. */
  lemma {:induction false} LexStarName()
    ensures LexFrom("/:id(*)", 1) == Ok(StarTokens()[1..])
  {
    var ts := StarTokens()[1..];
    LexStarTail();
    StarNameToken();
    assert ts[1..] == StarTokens()[2..];
    LexCons("/:id(*)", 1, ts);
  }

  /** `/:id(*)` lexes to a `Char`, a `Name`, a `Pattern` holding `*` and the `End`. */
  lemma {:induction false} LexStarPattern()
    ensures LexFrom("/:id(*)", 0) == Ok(StarTokens())
  {
    LexStarName();
    StarCharToken();
    LexCons("/:id(*)", 0, StarTokens());
  }

  /**
   `/:id(*)` parses: its custom pattern `*` is not checked here, so whether
   the route is usable is left to the regular-expression engine.
   */
  lemma {:induction false} StarPatternParses()
    ensures Parse("/:id(*)", DefaultOptions).Ok?
  {
    assert Lex("/:id(*)") == Ok(StarTokens()) by { LexStarPattern(); }
    StarTokensPlain();
  }

  /** The tokens of `/:id(*)` hold no construct `parse` throws on. */
  lemma {:induction false} StarTokensPlain()
    ensures ParseFault(StarTokens(), 0).None?
  {
    var ts := StarTokens();
    assert ValidTokens(ts) by { LexStarPattern(); }
    assert forall k :: 0 <= k < |ts| - 1 ==> ts[k].kind in {Char, Name, Pattern} by {
      assert ts[0].kind == Char && ts[1].kind == Name && ts[2].kind == Pattern;
    }
    PlainTokensParse(ts, 0);
  }

  /** `{a` lexes to an `Open`, a `Char` and the `End`. */
  lemma {:induction false} LexUnclosed()
    ensures Lex("{a") == Ok([LexToken(Open, 0, "{"), LexToken(Char, 1, "a"), LexToken(End, 2, "")])
  {
    var ts := [LexToken(Open, 0, "{"), LexToken(Char, 1, "a"), LexToken(End, 2, "")];
    var src := "{a";
    assert LexFrom(src, 2) == Ok(ts[2..]);
    assert NextToken(src, 1) == Ok((ts[1], 2));
    assert [ts[1]] + ts[2..] == ts[1..];
    assert LexFrom(src, 1) == Ok(ts[1..]);
    assert NextToken(src, 0) == Ok((ts[0], 1));
    assert [ts[0]] + ts[1..] == ts;
  }

  /** The parts of the group `{a`: its text ends at the `End` token, where `Close` was wanted. */
  lemma {:induction false} UnclosedGroupParts(ts: seq<LexToken>)
    requires ts == [LexToken(Open, 0, "{"), LexToken(Char, 1, "a"), LexToken(End, 2, "")]
    ensures ValidTokens(ts) && GroupParts(ts, 0).close == 2
  {
    assert ValidTokens(ts);
    var g := GroupParts(ts, 0);
    assert IsText(ts[1]) && !IsText(ts[2]);
    assert g.afterPrefix == 2;
  }

  /** From the start of `{a` the first step already fails, at the `End` token. */
  lemma {:induction false} UnclosedGroupStep(ts: seq<LexToken>, st: State)
    requires ts == [LexToken(Open, 0, "{"), LexToken(Char, 1, "a"), LexToken(End, 2, "")]
    requires st == State(0, 0, "", [])
    ensures ValidTokens(ts) && Inv(ts, st)
    ensures Step(ts, DefaultOptions, st) == Err(Unexpected(End, 2, Close))
  {
    UnclosedGroupParts(ts);
    assert Lead(ts, 0).name.None? && Lead(ts, 0).pattern.None?;
    assert !StartsParam(ts, 0);
    assert AfterEmptyEscape(ts, 0) == 0;
  }

  /** `{a` never closes its group: `Unexpected END at 2, expected CLOSE`. */
  lemma {:induction false} UnclosedGroupFails()
    ensures Parse("{a", DefaultOptions) == Err(Unexpected(End, 2, Close))
  {
    LexUnclosed();
    var ts := [LexToken(Open, 0, "{"), LexToken(Char, 1, "a"), LexToken(End, 2, "")];
    UnclosedGroupStep(ts, State(0, 0, "", []));
  }
}

=== FILE: router.dfy ===
/**
 The `Router` class: route paths are resolved against the global prefix,
 compiled and kept in two lists, plain routes and routes with parameters;
 `locate` tries the plain routes first, in registration order, then the
 others. Running a compiled regular expression is a parameter, `exec`, and
 so is `decodeURIComponent`.
 */
module Router {
  import opened Common
  import opened Tokens
  import Parser
  import Compiler
  import opened Matcher

  /** `Router.resolve(route)` with `route_prefix` as `prefix`. */
  function Resolve(prefix: string, route: string): (r: string)
    ensures StartsWith(r, prefix) && EndsWith(r, route)
    ensures r == route || r == prefix + route
    ensures StartsWith(route, prefix) ==> r == route
  {
    if prefix != "" && !StartsWith(route, prefix) then
      Affixes(prefix, route);
      prefix + route
    else
      assert route[|route| - |route|..] == route;
      route
  }

  lemma {:induction false} Affixes(p: string, q: string)
    ensures StartsWith(p + q, p) && EndsWith(p + q, q)
  {
    assert (p + q)[..|p|] == p;
    assert (p + q)[|p + q| - |q|..] == q;
  }

  /** Resolving twice is resolving once. */
  lemma {:induction false} ResolveIdempotent(prefix: string, route: string)
    ensures Resolve(prefix, Resolve(prefix, route)) == Resolve(prefix, route)
  {
  }

  /** A registered route: `{ route_path, matcher, meta }`, the matcher given by its compiled regular expression. */
  datatype Entry<M> = Entry(routePath: string, re: Compiler.Regexp, meta: M)

  /** `#route` (routes with parameters) and `#route_plain`, in registration order. */
  datatype Router<M> = Router(params: seq<Entry<M>>, plain: seq<Entry<M>>)

  /** `Router.init()` */
  function Init<M(==)>(): (r: Router<M>)
    ensures |r.params| == 0 && |r.plain| == 0
  {
    Router([], [])
  }

  /**
   What registering throws: `parse`'s `TypeError`, or the `SyntaxError` of
   `new RegExp(source, flags)` for a route that parses into a source the
   regular-expression engine rejects, such as the `(*)` of `/:id(*)`.
   */
  datatype RouteError = ParseFailed(error: Parser.ParseError) | InvalidRegexp(source: string)

  /** The source `tokensToRegexp` builds for a resolved route that parses. */
  function SourceOf(path: string): string
    requires Parser.Parse(path, Parser.DefaultOptions).Ok?
  {
    Compiler.TokensToRegexp(Parser.Parse(path, Parser.DefaultOptions).value, Compiler.DefaultRegexpOptions).source
  }

  /**
   `match(route, { decode })` as far as `route` needs it: the entry for a
   resolved route. `compiles(source)` stands for `new RegExp(source, flags)`
   not throwing; the flags `i` and `""` are always valid.
   */
  function Compile<M(==)>(path: string, meta: M, compiles: string -> bool): (r: Result<Entry<M>, RouteError>)
    ensures r.Err? <==> Parser.Parse(path, Parser.DefaultOptions).Err? || !compiles(SourceOf(path))
    ensures Parser.Parse(path, Parser.DefaultOptions).Err? ==>
      r == Err(ParseFailed(Parser.Parse(path, Parser.DefaultOptions).error))
    ensures Parser.Parse(path, Parser.DefaultOptions).Ok? && !compiles(SourceOf(path)) ==>
      r == Err(InvalidRegexp(SourceOf(path)))
    ensures r.Ok? ==> r.value.routePath == path && r.value.meta == meta && r.value.re.source == SourceOf(path)
    ensures r.Ok? ==> (r.value.re.isPlain <==> IsPlain(Parser.Parse(path, Parser.DefaultOptions).value))
    ensures r.Ok? ==> r.value.re.keys == CapturingKeys(Parser.Parse(path, Parser.DefaultOptions).value)
  {
    match Parser.Parse(path, Parser.DefaultOptions)
    case Err(e) => Err(ParseFailed(e))
    case Ok(ts) =>
      var re := Compiler.TokensToRegexp(ts, Compiler.DefaultRegexpOptions);
      if !compiles(re.source) then Err(InvalidRegexp(re.source))
      else Ok(Entry(path, re, meta))
  }

  /**
   `router.route(route, meta)`: the resolved route is compiled and appended
   to the plain list when it has no parameter, to the other list otherwise;
   a route that does not parse, or whose regular expression does not compile,
   throws.
   */
  function Route<M(==)>(rt: Router<M>, prefix: string, route: string, meta: M, compiles: string -> bool)
    : (r: Result<Router<M>, RouteError>)
    ensures var p := Resolve(prefix, route);
      r.Err? <==> Parser.Parse(p, Parser.DefaultOptions).Err? || !compiles(SourceOf(p))
    ensures r.Err? ==> r.error == Compile(Resolve(prefix, route), meta, compiles).error
    ensures r.Ok? ==> (Compile(Resolve(prefix, route), meta, compiles).Ok? &&
                       var e := Compile(Resolve(prefix, route), meta, compiles).value;
                       if e.re.isPlain then r.value == Router(rt.params, rt.plain + [e])
                       else r.value == Router(rt.params + [e], rt.plain))
  {
    match Compile(Resolve(prefix, route), meta, compiles)
    case Err(x) => Err(x)
    case Ok(e) =>
      if e.re.isPlain then Ok(Router(rt.params, rt.plain + [e]))
      else Ok(Router(rt.params + [e], rt.plain))
  }

  /** Registering a route keeps every earlier registration where it was. */
  lemma {:induction false} RouteKeepsEarlier<M>(rt: Router<M>, prefix: string, route: string, meta: M,
                                                compiles: string -> bool)
    requires Route(rt, prefix, route, meta, compiles).Ok?
    ensures var nx := Route(rt, prefix, route, meta, compiles).value;
      |nx.plain| + |nx.params| == |rt.plain| + |rt.params| + 1 &&
      nx.plain[..|rt.plain|] == rt.plain && nx.params[..|rt.params|] == rt.params
  {
    var nx := Route(rt, prefix, route, meta, compiles).value;
    var e := Compile(Resolve(prefix, route), meta, compiles).value;
    AppendKeeps(rt, e, nx);
  }

  /** Appending one entry to either list keeps both lists' earlier entries. */
  lemma {:induction false} AppendKeeps<M>(rt: Router<M>, e: Entry<M>, nx: Router<M>)
    requires if e.re.isPlain then nx == Router(rt.params, rt.plain + [e]) else nx == Router(rt.params + [e], rt.plain)
    ensures |nx.plain| + |nx.params| == |rt.plain| + |rt.params| + 1
    ensures nx.plain[..|rt.plain|] == rt.plain && nx.params[..|rt.params|] == rt.params
  {
    if e.re.isPlain {
      assert nx.plain[..|rt.plain|] == rt.plain;
    } else {
      assert nx.params[..|rt.params|] == rt.params;
    }
  }

  /** `{ route, path, meta, params }` */
  datatype Located<M> = Located(route: string, path: string, meta: M, params: Params)

  /**
   What an entry's matcher returns for `path`: `false` (`None`), a match, or
   what it throws. `asWritten` is passed on to the decoder: `true` splits a
   repeated key's capture as the code does, `false` as corrected.
   */
  function Outcome<M(==)>(e: Entry<M>, path: string, exec: (Compiler.Regexp, string) -> Option<ExecResult>,
                      decode: (string, Key) -> string, asWritten: bool): Result<Option<MatchResult>, MatchError>
  {
    RegexpToFunction(e.re.keys, exec(e.re, path), decode, asWritten)
  }

  /** The entry's matcher returns `false` for `path`. */
  predicate Misses<M(==)>(e: Entry<M>, path: string, exec: (Compiler.Regexp, string) -> Option<ExecResult>,
                      decode: (string, Key) -> string, asWritten: bool)
  {
    Outcome(e, path, exec, decode, asWritten) == Ok(None)
  }

  /** The entry's matcher does not return `false`, and `r` is what `locate` makes of it. */
  predicate Decides<M(==)>(e: Entry<M>, path: string, exec: (Compiler.Regexp, string) -> Option<ExecResult>,
                       decode: (string, Key) -> string, asWritten: bool, r: Result<Option<Located<M>>, MatchError>)
  {
    match Outcome(e, path, exec, decode, asWritten)
    case Err(x) => r == Err(x)
    case Ok(None) => false
    case Ok(Some(m)) => r == Ok(Some(Located(e.routePath, path, e.meta, m.params)))
  }

  /**
   The `for (const route of ...)` loop from entry `i` on: the first entry
   whose matcher does not return `false` decides, by its match or by what
   it throws.
   */
  function Find<M(==)>(es: seq<Entry<M>>, i: nat, path: string, exec: (Compiler.Regexp, string) -> Option<ExecResult>,
                   decode: (string, Key) -> string, asWritten: bool): (r: Result<Option<Located<M>>, MatchError>)
    requires i <= |es|
    ensures r == Ok(None) <==> forall j :: i <= j < |es| ==> Misses(es[j], path, exec, decode, asWritten)
    ensures r != Ok(None) ==> (exists j :: i <= j < |es| && (forall h :: i <= h < j ==> Misses(es[h], path, exec, decode, asWritten)) &&
                                 Decides(es[j], path, exec, decode, asWritten, r))
    decreases |es| - i
  {
    if i == |es| then Ok(None)
    else
      match Outcome(es[i], path, exec, decode, asWritten)
      case Err(x) =>
        assert Decides(es[i], path, exec, decode, asWritten, Err(x));
        Err(x)
      case Ok(Some(m)) =>
        assert Decides(es[i], path, exec, decode, asWritten, Ok(Some(Located(es[i].routePath, path, es[i].meta, m.params))));
        Ok(Some(Located(es[i].routePath, path, es[i].meta, m.params)))
      case Ok(None) =>
        var r := Find(es, i + 1, path, exec, decode, asWritten);
        FindSkip(es, i, path, exec, decode, asWritten, r);
        r
  }

  /** An entry that misses passes on whatever decides the rest of the list. */
  lemma {:induction false} FindSkip<M>(es: seq<Entry<M>>, i: nat, path: string,
                                          exec: (Compiler.Regexp, string) -> Option<ExecResult>,
                                          decode: (string, Key) -> string, asWritten: bool,
                                          r: Result<Option<Located<M>>, MatchError>)
    requires i < |es| && Misses(es[i], path, exec, decode, asWritten)
    requires r != Ok(None) ==> exists j :: i + 1 <= j < |es| && (forall h :: i + 1 <= h < j ==> Misses(es[h], path, exec, decode, asWritten)) &&
                                 Decides(es[j], path, exec, decode, asWritten, r)
    ensures r != Ok(None) ==> exists j :: i <= j < |es| && (forall h :: i <= h < j ==> Misses(es[h], path, exec, decode, asWritten)) &&
                                Decides(es[j], path, exec, decode, asWritten, r)
  {
    if r != Ok(None) {
      var j :| i + 1 <= j < |es| && (forall h :: i + 1 <= h < j ==> Misses(es[h], path, exec, decode, asWritten)) &&
                Decides(es[j], path, exec, decode, asWritten, r);
      assert forall h :: i <= h < j ==> Misses(es[h], path, exec, decode, asWritten);
    }
  }

  /**
   `router.locate(path)`: the resolved path is tried on the plain routes and,
   only when every one of them misses, on the routes with parameters.
   */
  function Locate<M(==)>(rt: Router<M>, prefix: string, path: string,
                     exec: (Compiler.Regexp, string) -> Option<ExecResult>,
                     decode: (string, Key) -> string, asWritten: bool): (r: Result<Option<Located<M>>, MatchError>)
    ensures r.Ok? && r.value.Some? ==> r.value.value.path == Resolve(prefix, path)
    ensures (forall j :: 0 <= j < |rt.plain| ==> Misses(rt.plain[j], Resolve(prefix, path), exec, decode, asWritten)) ==>
      r == Find(rt.params, 0, Resolve(prefix, path), exec, decode, asWritten)
    ensures !(forall j :: 0 <= j < |rt.plain| ==> Misses(rt.plain[j], Resolve(prefix, path), exec, decode, asWritten)) ==>
      r == Find(rt.plain, 0, Resolve(prefix, path), exec, decode, asWritten)
  {
    var p := Resolve(prefix, path);
    var first := Find(rt.plain, 0, p, exec, decode, asWritten);
    FindPath(rt.plain, 0, p, exec, decode, asWritten);
    FindPath(rt.params, 0, p, exec, decode, asWritten);
    if first == Ok(None) then Find(rt.params, 0, p, exec, decode, asWritten) else first
  }

  /** A located route reports the path it was asked about. */
  lemma {:induction false} FindPath<M>(es: seq<Entry<M>>, i: nat, path: string,
                                       exec: (Compiler.Regexp, string) -> Option<ExecResult>,
                                       decode: (string, Key) -> string, asWritten: bool)
    requires i <= |es|
    ensures var r := Find(es, i, path, exec, decode, asWritten); r.Ok? && r.value.Some? ==> r.value.value.path == path
    decreases |es| - i
  {
    if i < |es| && Misses(es[i], path, exec, decode, asWritten) {
      FindPath(es, i + 1, path, exec, decode, asWritten);
    }
  }

  /** A list of one entry whose matcher matches finds that entry. */
  lemma {:induction false} FindOne<M>(e: Entry<M>, path: string, exec: (Compiler.Regexp, string) -> Option<ExecResult>,
                                      decode: (string, Key) -> string, asWritten: bool)
    requires Outcome(e, path, exec, decode, asWritten).Ok? && Outcome(e, path, exec, decode, asWritten).value.Some?
    ensures Find([e], 0, path, exec, decode, asWritten)
         == Ok(Some(Located(e.routePath, path, e.meta, Outcome(e, path, exec, decode, asWritten).value.value.params)))
  {
    assert [e][0] == e;
  }

  /**
   With no global prefix, the self-test's `/product/:productId` parses, and
   registers on an empty router exactly when its regular expression compiles.
   */
  lemma {:induction false} ProductRouteRegisters<M>(meta: M, compiles: string -> bool)
    ensures Parser.Parse("/product/:productId", Parser.DefaultOptions).Ok?
    ensures Route(Init(), "", "/product/:productId", meta, compiles).Ok? <==> compiles(SourceOf("/product/:productId"))
  {
    assert Resolve("", "/product/:productId") == "/product/:productId";
    Parser.ProductRouteParses();
  }

  /**
   `/:id(*)` parses, yet registering it throws exactly when its regular
   expression, whose group holds the bare `*`, does not compile: parsing
   alone does not decide whether a route registers.
   */
  lemma {:induction false} StarRouteNeedsRegexp<M>(meta: M, compiles: string -> bool)
    ensures Parser.Parse("/:id(*)", Parser.DefaultOptions).Ok?
    ensures Route(Init(), "", "/:id(*)", meta, compiles).Ok? <==> compiles(SourceOf("/:id(*)"))
    ensures !compiles(SourceOf("/:id(*)")) ==> Route(Init(), "", "/:id(*)", meta, compiles) == Err(InvalidRegexp(SourceOf("/:id(*)")))
  {
    assert Resolve("", "/:id(*)") == "/:id(*)";
    Parser.StarPatternParses();
  }

  /**
   A route registered on an empty router is located by its own path when its
   regular expression matches that path, with the meta it was registered with.
   */
  lemma {:induction false} RouteThenLocate<M>(prefix: string, route: string, meta: M,
                                              exec: (Compiler.Regexp, string) -> Option<ExecResult>,
                                              decode: (string, Key) -> string, asWritten: bool,
                                              compiles: string -> bool)
    requires Route(Init(), prefix, route, meta, compiles).Ok?
    requires var e := Compile(Resolve(prefix, route), meta, compiles).value;
      exec(e.re, Resolve(prefix, route)).Some? && !Keyless(e.re.keys, exec(e.re, Resolve(prefix, route)).value.groups, 0)
    ensures var r := Locate(Route(Init(), prefix, route, meta, compiles).value, prefix, route, exec, decode, asWritten);
      r.Ok? && r.value.Some? && r.value.value.route == Resolve(prefix, route) && r.value.value.meta == meta
      && r.value.value.path == Resolve(prefix, route)
  {
    RouteSingle(prefix, route, meta, compiles);
    LocateSingle(Route(Init(), prefix, route, meta, compiles).value, Compile(Resolve(prefix, route), meta, compiles).value,
                 prefix, route, exec, decode, asWritten);
  }

  /** Registering on an empty router gives a router holding the compiled entry alone, in the list its plainness picks. */
  lemma {:induction false} RouteSingle<M>(prefix: string, route: string, meta: M, compiles: string -> bool)
    requires Route(Init(), prefix, route, meta, compiles).Ok?
    ensures var e := Compile(Resolve(prefix, route), meta, compiles).value;
      var rt := Route(Init(), prefix, route, meta, compiles).value;
      e.routePath == Resolve(prefix, route) && e.meta == meta &&
      if e.re.isPlain then rt == Router([], [e]) else rt == Router([e], [])
  {
    var c := Compile(Resolve(prefix, route), meta, compiles);
    assert c.Ok?;
    assert Init<M>() == Router([], []);
  }

  /** A router holding one entry, in the list its plainness picks, locates a path that entry's regular expression matches. */
  lemma {:induction false} LocateSingle<M>(rt: Router<M>, e: Entry<M>, prefix: string, path: string,
                                           exec: (Compiler.Regexp, string) -> Option<ExecResult>,
                                           decode: (string, Key) -> string, asWritten: bool)
    requires if e.re.isPlain then rt == Router([], [e]) else rt == Router([e], [])
    requires var p := Resolve(prefix, path);
      exec(e.re, p).Some? && !Keyless(e.re.keys, exec(e.re, p).value.groups, 0)
    ensures var r := Locate(rt, prefix, path, exec, decode, asWritten);
      r.Ok? && r.value.Some? && r.value.value.route == e.routePath && r.value.value.meta == e.meta
  {
    var p := Resolve(prefix, path);
    assert Outcome(e, p, exec, decode, asWritten).Ok? && Outcome(e, p, exec, decode, asWritten).value.Some?;
    FindOne(e, p, exec, decode, asWritten);
    if e.re.isPlain {
      assert rt.plain == [e] && !Misses(rt.plain[0], p, exec, decode, asWritten);
      assert Locate(rt, prefix, path, exec, decode, asWritten) == Find([e], 0, p, exec, decode, asWritten);
    } else {
      assert rt.params == [e] && |rt.plain| == 0;
      assert Locate(rt, prefix, path, exec, decode, asWritten) == Find([e], 0, p, exec, decode, asWritten);
    }
  }
}

=== FILE: split.dfy ===
/**
 JavaScript's `String.prototype.split` with a string separator and no limit,
 and its inverse `join`: how the values of a repeated parameter are taken
 apart and put together.
 */
module Split {
  import opened Common

  /** Where `sep` first occurs in `s`, as `s.indexOf(sep)`; `None` for -1. */
  function IndexOf(s: string, sep: string): (r: Option<nat>)
    ensures r.Some? ==> r.value + |sep| <= |s| && s[r.value..r.value + |sep|] == sep
    decreases |s|
  {
    if StartsWith(s, sep) then Some(0)
    else if |s| == 0 then None
    else
      match IndexOf(s[1..], sep)
      case None => None
      case Some(q) =>
        assert s[q + 1..q + 1 + |sep|] == s[1..][q..q + |sep|];
        Some(q + 1)
  }

  /** What `indexOf` reports is the first occurrence, and -1 only when there is none. */
  lemma {:induction false} IndexOfIsFirst(s: string, sep: string)
    ensures IndexOf(s, sep).Some? ==> forall q :: 0 <= q < IndexOf(s, sep).value ==> !StartsWith(s[q..], sep)
    ensures IndexOf(s, sep).None? ==> forall q :: 0 <= q <= |s| ==> !StartsWith(s[q..], sep)
    decreases |s|
  {
    assert s[0..] == s;
    if !StartsWith(s, sep) && |s| > 0 {
      IndexOfIsFirst(s[1..], sep);
      assert forall q :: 1 <= q <= |s| ==> s[q..] == s[1..][q - 1..];
    }
  }

  /** `s.split("")`: one string per character; the empty string gives no piece at all. */
  function Chars(s: string): (r: seq<string>)
    ensures |r| == |s| && forall k :: 0 <= k < |s| ==> r[k] == [s[k]]
    decreases |s|
  {
    if |s| == 0 then [] else [[s[0]]] + Chars(s[1..])
  }

  /** `s.split(sep)` */
  function SplitOn(s: string, sep: string): (r: seq<string>)
    ensures sep != "" ==> |r| > 0
    ensures sep != "" ==> forall k :: 0 <= k < |r| ==> !ContainsInfix(r[k], sep)
    decreases |s|
  {
    if sep == "" then Chars(s)
    else
      match IndexOf(s, sep)
      case None =>
        IndexOfIsFirst(s, sep);
        NoInfix(s, sep);
        [s]
      case Some(q) =>
        IndexOfIsFirst(s, sep);
        BeforeFirst(s, sep, q);
        [s[..q]] + SplitOn(s[q + |sep|..], sep)
  }

  /** A string in which the separator starts nowhere does not contain it. */
  lemma {:induction false} NoInfix(s: string, sep: string)
    requires forall q :: 0 <= q <= |s| ==> !StartsWith(s[q..], sep)
    ensures !ContainsInfix(s, sep)
    decreases |s|
  {
    assert s[0..] == s;
    if |s| > 0 {
      forall q | 0 <= q <= |s[1..]|
        ensures !StartsWith(s[1..][q..], sep)
      {
        assert s[1..][q..] == s[q + 1..];
      }
      NoInfix(s[1..], sep);
    }
  }

  /** The text before the first separator does not contain it. */
  lemma {:induction false} BeforeFirst(s: string, sep: string, p: nat)
    requires |sep| > 0 && p <= |s|
    requires forall q :: 0 <= q < p ==> !StartsWith(s[q..], sep)
    ensures !ContainsInfix(s[..p], sep)
  {
    var t := s[..p];
    forall q | 0 <= q <= |t|
      ensures !StartsWith(t[q..], sep)
    {
      if q < p {
        assert !StartsWith(s[q..], sep);
      }
    }
    NoInfix(t, sep);
  }

  /** `vs.join(sep)` */
  function Join(vs: seq<string>, sep: string): string
    decreases |vs|
  {
    if |vs| == 0 then ""
    else if |vs| == 1 then vs[0]
    else vs[0] + sep + Join(vs[1..], sep)
  }

  /** No piece contains the separator's first character. */
  predicate Separable(vs: seq<string>, sep: string) {
    |sep| > 0 && forall k, c :: 0 <= k < |vs| && 0 <= c < |vs[k]| ==> vs[k][c] != sep[0]
  }

  /** `indexOf` finds the first occurrence, wherever it is. */
  lemma {:induction false} IndexOfFirst(s: string, sep: string, p: nat)
    requires p + |sep| <= |s| && s[p..p + |sep|] == sep
    requires forall q :: 0 <= q < p ==> !StartsWith(s[q..], sep)
    ensures IndexOf(s, sep) == Some(p)
    decreases p
  {
    if p == 0 {
      assert s[..|sep|] == s[0..|sep|];
    } else {
      var t := s[1..];
      assert !StartsWith(s, sep) by {
        assert s[0..] == s;
      }
      assert t[p - 1..p - 1 + |sep|] == sep by {
        assert t[p - 1..p - 1 + |sep|] == s[p..p + |sep|];
      }
      forall q | 0 <= q < p - 1
        ensures !StartsWith(t[q..], sep)
      {
        assert t[q..] == s[q + 1..];
      }
      IndexOfFirst(t, sep, p - 1);
    }
  }

  /** `indexOf` reports -1 when the separator occurs nowhere. */
  lemma {:induction false} IndexOfAbsent(s: string, sep: string)
    requires forall q :: 0 <= q <= |s| ==> !StartsWith(s[q..], sep)
    ensures IndexOf(s, sep) == None
    decreases |s|
  {
    assert s[0..] == s;
    if |s| > 0 {
      forall q | 0 <= q <= |s[1..]|
        ensures !StartsWith(s[1..][q..], sep)
      {
        assert s[1..][q..] == s[q + 1..];
      }
      IndexOfAbsent(s[1..], sep);
    }
  }

  /** A string without the separator's first character contains no separator. */
  lemma {:induction false} NoSeparatorIn(v: string, sep: string)
    requires |sep| > 0 && forall c :: 0 <= c < |v| ==> v[c] != sep[0]
    ensures IndexOf(v, sep) == None
  {
    forall q | 0 <= q <= |v|
      ensures !StartsWith(v[q..], sep)
    {
      if q < |v| { assert v[q..][0] == v[q]; }
    }
    IndexOfAbsent(v, sep);
  }

  /** In `v + sep + rest`, with no separator character in `v`, the first separator follows `v`. */
  lemma {:induction false} FirstSeparator(v: string, sep: string, rest: string)
    requires |sep| > 0 && forall c :: 0 <= c < |v| ==> v[c] != sep[0]
    ensures IndexOf(v + sep + rest, sep) == Some(|v|)
  {
    var s := v + sep + rest;
    assert s[|v|..|v| + |sep|] == sep;
    forall q | 0 <= q < |v|
      ensures !StartsWith(s[q..], sep)
    {
      assert s[q..][0] == s[q] == v[q];
    }
    IndexOfFirst(s, sep, |v|);
  }

  lemma {:induction false} SplitCons(v: string, sep: string, rest: string)
    requires |sep| > 0 && forall c :: 0 <= c < |v| ==> v[c] != sep[0]
    ensures SplitOn(v + sep + rest, sep) == [v] + SplitOn(rest, sep)
  {
    FirstSeparator(v, sep, rest);
    var s := v + sep + rest;
    assert s[..|v|] == v;
    assert s[|v| + |sep|..] == rest;
  }

  lemma {:induction false} SeparableTail(vs: seq<string>, sep: string)
    requires |vs| > 0 && Separable(vs, sep)
    ensures Separable(vs[1..], sep)
    ensures forall c :: 0 <= c < |vs[0]| ==> vs[0][c] != sep[0]
  {
    forall k, c | 0 <= k < |vs[1..]| && 0 <= c < |vs[1..][k]|
      ensures vs[1..][k][c] != sep[0]
    {
      assert vs[1..][k] == vs[k + 1];
    }
  }

  /** Splitting on a separator that occurs in no piece gives the pieces back. */
  lemma {:induction false} SplitJoin(vs: seq<string>, sep: string)
    requires |vs| > 0 && Separable(vs, sep)
    ensures SplitOn(Join(vs, sep), sep) == vs
    decreases |vs|
  {
    SeparableTail(vs, sep);
    if |vs| == 1 {
      NoSeparatorIn(vs[0], sep);
    } else {
      var rest := Join(vs[1..], sep);
      assert Join(vs, sep) == vs[0] + sep + rest;
      SplitCons(vs[0], sep, rest);
      SplitJoin(vs[1..], sep);
      assert vs == [vs[0]] + vs[1..];
    }
  }

  lemma {:induction false} JoinCons(a: string, pieces: seq<string>, sep: string)
    requires |pieces| > 0
    ensures Join([a] + pieces, sep) == a + sep + Join(pieces, sep)
  {
    assert ([a] + pieces)[1..] == pieces;
  }

  lemma {:induction false} AroundSeparator(s: string, sep: string, q: nat)
    requires q + |sep| <= |s| && s[q..q + |sep|] == sep
    ensures s == s[..q] + sep + s[q + |sep|..]
  {
    assert s == s[..q] + s[q..q + |sep|] + s[q + |sep|..];
  }

  /** Joining what was split gives the string back. */
  lemma {:induction false} JoinSplit(s: string, sep: string)
    requires |sep| > 0
    ensures Join(SplitOn(s, sep), sep) == s
    decreases |s|
  {
    match IndexOf(s, sep)
    case None =>
    case Some(q) =>
      var rest := s[q + |sep|..];
      JoinSplit(rest, sep);
      assert SplitOn(s, sep) == [s[..q]] + SplitOn(rest, sep);
      JoinCons(s[..q], SplitOn(rest, sep), sep);
      AroundSeparator(s, sep, q);
  }
}

=== FILE: tokens.dfy ===
/**
 The parser's output vocabulary: a route is a sequence of literal text and
 parameter descriptors ("keys").
 */
module Tokens {
  import opened Common

  /** A key is named by its identifier, or by an ordinal when it is an anonymous `(pattern)`. */
  datatype KeyName = Named(id: string) | Index(n: nat)

  /** `{name, prefix, suffix, pattern, modifier}`; `modifier` is "", "?", "*" or "+". */
  datatype Key = Key(name: KeyName, prefix: string, suffix: string, pattern: string, modifier: string)

  /** `string | Key` */
  datatype Token = Text(text: string) | Param(key: Key)

  /** The property name a key is stored under: JavaScript turns an ordinal into its decimal form. */
  function PropertyKey(n: KeyName): (p: string)
    ensures n.Index? ==> |p| > 0 && forall k :: 0 <= k < |p| ==> '0' <= p[k] <= '9'
    ensures n.Index? ==> DigitsValue(p) == n.n
  {
    match n
    case Named(id) => id
    case Index(m) => NatToString(m)
  }

  predicate IsRepeat(k: Key) {
    k.modifier == "*" || k.modifier == "+"
  }

  predicate IsOptional(k: Key) {
    k.modifier == "?" || k.modifier == "*"
  }

  /** A route with no key at all. */
  predicate IsPlain(ts: seq<Token>) {
    forall i :: 0 <= i < |ts| ==> ts[i].Text?
  }

  /** The text of a plain route. */
  function Texts(ts: seq<Token>): string
    requires IsPlain(ts)
    decreases |ts|
  {
    if |ts| == 0 then "" else ts[0].text + Texts(ts[1..])
  }

  /** The keys that open a capturing group: those with a non-empty pattern, in token order. */
  function CapturingKeys(ts: seq<Token>): (ks: seq<Key>)
    ensures |ks| <= |ts|
    decreases |ts|
  {
    if |ts| == 0 then []
    else
      var rest := CapturingKeys(ts[1..]);
      if ts[0].Param? && ts[0].key.pattern != "" then [ts[0].key] + rest else rest
  }

  lemma {:induction false} CapturingKeysAppend(a: seq<Token>, b: seq<Token>)
    ensures CapturingKeys(a + b) == CapturingKeys(a) + CapturingKeys(b)
    decreases |a|
  {
    if |a| == 0 {
      assert a + b == b;
    } else {
      assert (a + b)[1..] == a[1..] + b;
      CapturingKeysAppend(a[1..], b);
    }
  }

  /** Every capturing key comes from a token of the route, and every such token contributes one. */
  lemma {:induction false} CapturingKeysMembers(ts: seq<Token>, k: Key)
    ensures k in CapturingKeys(ts) <==> exists i :: 0 <= i < |ts| && ts[i] == Param(k) && k.pattern != ""
    decreases |ts|
  {
    if |ts| > 0 {
      CapturingKeysMembers(ts[1..], k);
      if k in CapturingKeys(ts[1..]) {
        var i :| 0 <= i < |ts[1..]| && ts[1..][i] == Param(k) && k.pattern != "";
        assert ts[i + 1] == Param(k);
      }
      if exists i :: 0 <= i < |ts| && ts[i] == Param(k) && k.pattern != "" {
        var i :| 0 <= i < |ts| && ts[i] == Param(k) && k.pattern != "";
        if i > 0 {
          assert ts[1..][i - 1] == Param(k);
        }
      }
    }
  }
}
